=== FILE: README.md ===
# Paid career diagnostic — a Dafny model

langues_metiers is a Rails application. A user pays for a "strategic
repositioning diagnostic" by card through Stripe Checkout or by mobile money
through pawaPay. Either provider's webhook confirms the payment. The user then
answers a five-bloc questionnaire, and a scoring service derives a score per
profile dimension, a primary profile and a complementary profile. A PDF report
is generated from that result.

Around this pipeline the application also keeps these pieces of logic:

- career roadmaps: ordered steps, edited through a nested form and linked to career fields;
- the choice of interface language from the `Accept-Language` header.

This project models that logic as pure functions over immutable data and
proves properties of it. One module covers each concern:

| module | file | concern |
|---|---|---|
| `Wrappers`, `Collections`, `Text` | wrappers.dfy, collections.dfy, text.dfy | `Option`, filtering/mapping/sorting of sequences, Ruby's `blank?` |
| `Questions` | questions.dfy | the question bank, its validations and scopes |
| `Profiles` | profiles.dfy | profiles by slug, the active trajectory |
| `Records` | records.dfy | diagnostics, payments, the store and the job queue |
| `Scoring` | scoring.dfy | `Diagnostics::ScoringService` |
| `Questionnaire` | questionnaire.dfy | the access gates, bloc clamping and `submit_bloc` |
| `Payments` | payments.dfy | the Stripe and pawaPay adapters and `DiagnosticsController#create` |
| `Webhooks` | webhooks.dfy | the two webhook handler services |
| `Report` | report.dfy | the report outline, the PDF job and the results action |
| `Pipeline` | pipeline.dfy | every entry point as one state machine, and its invariant |
| `Roadmaps` | roadmaps.dfy | roadmap steps, nested step attributes, field links |
| `Locale` | locale.dfy | `extract_locale` / `set_locale` |

Modelling choices:

- Time is an abstract clock value passed in.
- The job queue is a list of diagnostic ids.
- Each webhook or controller call is one atomic step on a `Store`. The store
  holds diagnostics by id and payments by their unique `provider_payment_id`.
- The results of external calls are inputs: the Stripe session or
  `StripeError`, and the pawaPay HTTP code and body fields or an exception.
- The code leaves two orders open: the order answers are read in (there is no
  `ORDER BY`) and the order among equal totals after `sort_by` (which is not
  stable). Both are parameters. The scoring contracts hold for every
  admissible choice, and `score_data` is proved independent of the order.
- `Profile#active_trajectory` is `trajectories.active.last` on an unordered
  relation, so it returns the trajectory with the greatest primary key, not
  the most recently created one. The model follows the code.
- The Stripe session charges 300000 by default, but pawaPay is asked for
  "3000". Both payment rows keep the column default of 300000 XOF. The model
  reproduces each constant as written.

## Model

| member | source | states |
|---|---|---|
| Records.StatusOfCode | app/models/diagnostic.rb:9-14 | the stored integers 0..3 are exactly the four statuses, and reading back a status's code gives the status |
| Records.StatusCodeRoundTrip | app/models/diagnostic.rb:9-14 | decoding the code of any status yields that status |
| Records.ProviderOfCode | app/models/diagnostic.rb:16-19 | only 0 and 1 name a provider (stripe, pawapay), and each decodes to the provider with that code |
| Records.PaymentStatusOfCode | app/models/payment.rb:6 | only 0..2 name a payment status (pending, confirmed, failed), and each decodes back to its code |
| Records.DestroyDiagnostic | app/models/diagnostic.rb:5-6 | destroying a diagnostic removes it, with its answers (stored inside it) and exactly the payments that belong to it; every other payment and the job queue are kept |
| Records.FindPayment | app/services/webhooks/stripe_handler_service.rb:25 | the lookup by (provider payment id, provider) finds a payment iff the id is given and names a payment of that provider |
| Questions.Active | app/models/question.rb:4 | `active` keeps exactly the active questions |
| Questions.Scored | app/models/question.rb:5 | `scored` keeps exactly the scored questions |
| Questions.ByBloc | app/models/question.rb:6 | `by_bloc(b)` holds exactly the questions of bloc b (with multiplicity), in ascending position |
| Questions.ActiveByBloc | app/models/question.rb:4-6 | the questions shown for a bloc are the active ones of that bloc, in position order |
| Questions.NoQuestionsOutsideBlocs | app/models/question.rb:8 | with validated content, a bloc number outside 1..5 selects no question |
| Questions.FindOption | app/controllers/diagnostics_controller.rb:42 | the option found has exactly the submitted value and is the first such; none is found iff no option has that value |
| Questions.FindQuestion | app/services/diagnostics/scoring_service.rb:28-29 | a found question is in the bank with that id; none is found iff no question has it |
| Profiles.CreateProfile | app/models/profile.rb:4-5 | a profile is saved iff its name and slug are present and the slug is not taken; saving adds only that profile and keeps the catalogue well formed |
| Profiles.FindBySlug | app/services/diagnostics/scoring_service.rb:48 | a slug finds a profile iff it is given and taken; a missing slug or missing profile gives nil, not an error |
| Profiles.ActiveTrajectory | app/models/profile.rb:7-9 | the result is an active trajectory of this profile with the greatest id among them; it is nil iff the profile has no active trajectory |
| Scoring.CalculateScores | app/services/diagnostics/scoring_service.rb:27-36 | a dimension is a key iff some scored answer with a non-nil, non-empty dimension has it; its value is the sum of those answers' points; the loop computes the reference map `Scores` |
| Scoring.ScoresKeys | app/services/diagnostics/scoring_service.rb:28-34 | the reference totals have a key exactly for each dimension of a counted answer |
| Scoring.ScoresPermutation | app/services/diagnostics/scoring_service.rb:28-34 | any reordering of the answers gives the same totals |
| Scoring.ScoreDataIndependentOfOrder | app/services/diagnostics/scoring_service.rb:28-34 | whatever order the database returns the answers in, `score_data` is the same |
| Scoring.Tally | app/services/diagnostics/scoring_service.rb:33-35 | after the accumulation loop over counted answers, the keys are exactly the dimensions read and each value is the sum of their points |
| Scoring.SortByScore | app/services/diagnostics/scoring_service.rb:41 | produces a list of every dimension once, by non-increasing total (one admissible result of `sort_by { -v }`) |
| Scoring.TiedAreTops | app/services/diagnostics/scoring_service.rb:42-43 | the tied list holds exactly the dimensions that reach the highest total |
| Scoring.ResolveTiebreak | app/services/diagnostics/scoring_service.rb:51-61 | the tie-break always returns one of the tied dimensions |
| Scoring.ResolveTiebreakSpec | app/services/diagnostics/scoring_service.rb:51-61 | when some tied dimension has a scored bloc-2 answer, the winner is such a dimension with the greatest bloc-2 tally; otherwise it is the first tied dimension |
| Scoring.DimensionWithoutBloc2LosesTie | app/services/diagnostics/scoring_service.rb:57-60 | any bloc-2 answer makes its dimension eligible, even one worth 0 points; once one exists, a tied dimension with none cannot win |
| Scoring.MaxByFirst | app/services/diagnostics/scoring_service.rb:60 | `max_by` returns a key with the greatest tally, the first such in hash order |
| Scoring.FirstAppearance | app/services/diagnostics/scoring_service.rb:57-58 | the tally hash has each dimension once, exactly the dimensions of the rows counted |
| Scoring.FirstAppearanceOrder | app/services/diagnostics/scoring_service.rb:57-58 | the tally hash lists its keys in insertion order: each key is named by some row before any row names a later key |
| Scoring.FirstOther | app/services/diagnostics/scoring_service.rb:46 | the complementary is the first listed dimension other than the primary, and is nil iff every listed dimension is the primary |
| Scoring.DeterminePicks | app/services/diagnostics/scoring_service.rb:38-60 | no primary iff no scores; the primary reaches the maximum; with several tied dimensions it is `resolve_tiebreak` of them; when some tied dimension has a scored bloc-2 answer, the primary is such a dimension with the greatest bloc-2 tally, and otherwise it is the first in the sorted order; the complementary is the first dimension of the sorted order other than the primary (so it has the greatest total apart from it, and among equal runners-up it is the one listed first), and is nil iff exactly one dimension scored |
| Scoring.PrimaryRule | app/services/diagnostics/scoring_service.rb:45-60 | the primary taken from the tied list (`resolve_tiebreak` when more than one, else `tied.first`) is the bloc-2 winner when a tied dimension has a bloc-2 answer, and the first tied dimension otherwise |
| Scoring.FirstOtherIsRunnerUp | app/services/diagnostics/scoring_service.rb:46 | in a descending order, the first dimension other than a top one is a runner-up, and there is none iff only one dimension scored |
| Scoring.UniqueTopIsPrimary | app/services/diagnostics/scoring_service.rb:41-45 | a unique maximum is chosen directly, whatever the sort order |
| Scoring.TieWithoutBloc2TakesFirstSorted | app/services/diagnostics/scoring_service.rb:45-60 | when no tied dimension has a scored bloc-2 answer (whatever other dimensions have), the primary is the first dimension of the sorted order |
| Scoring.TieBreakFavoursBloc2 | test/services/diagnostics/scoring_service_test.rb:53-62 | one bloc-1 point for analyste and one bloc-2 point for coordinateur make coordinateur primary and analyste complementary, in either sort order |
| Scoring.TieWithoutBloc2DependsOnSortOrder | app/services/diagnostics/scoring_service.rb:41-45 | with a tie and no bloc-2 answer, each of the two sort orders is admissible and gives a different primary |
| Scoring.ScoreDiagnostic | app/services/diagnostics/scoring_service.rb:12-22 | the diagnostic ends completed and stamped at `now`, whatever its prior status; `score_data` is the totals of its counted answers; the stored primary and complementary are `Profile.find_by` of the picked slugs: present iff the slug was picked and a profile has it, and then that profile; a found primary is a top dimension and a found complementary a runner-up; empty scores give no profiles; answers, owner, provider, report and payment time are untouched |
| Scoring.RescoreIsStable | test/services/diagnostics/scoring_service_test.rb:64-67 | scoring again with the same answers changes nothing but `completed_at` |
| Questionnaire.GatesByStatus | app/controllers/diagnostics_controller.rb:91-99 | the questionnaire admits every status but pending_payment; results admit only completed, so anything results admit the questionnaire admits too |
| Questionnaire.ShowRoute | app/controllers/diagnostics_controller.rb:22-28 | `show` sends completed diagnostics to results, paid and in-progress ones to the questionnaire, and pending ones to a new diagnostic |
| Questionnaire.CurrentBloc | app/controllers/diagnostics_controller.rb:139-141 | the displayed bloc is always within 1..5: absent gives 1, values in range are kept, others are clamped to the nearer bound |
| Questionnaire.QuestionnairePage | app/controllers/diagnostics_controller.rb:30-33 | the page shows exactly the active questions of the clamped bloc, in position order |
| Questionnaire.NewAnswer | app/controllers/diagnostics_controller.rb:45-49 | a new answer stores the submitted value with the dimension and `points.to_i` of the option that has that value |
| Questionnaire.RecordAnswers | app/controllers/diagnostics_controller.rb:38-50 | existing answers are kept unchanged; each accepted question (non-blank value equal to an option's value) has an answer afterwards; every new answer is the `NewAnswer` of an accepted question |
| Questionnaire.ResubmitIsNoOp | app/controllers/diagnostics_controller.rb:45 | submitting the same bloc twice records nothing the second time |
| Questionnaire.RecordKeepsCovered | db/migrate/20260225105820_create_diagnostic_answers.rb:13 | when every accepted question already has an answer, recording leaves the answers unchanged |
| Questionnaire.SubmitBloc | app/controllers/diagnostics_controller.rb:35-60 | an unpaid diagnostic is sent to the new-diagnostic page unchanged; otherwise answers are recorded; bloc 5 or more scores it and redirects to results: completed and stamped, `score_data` the totals of its recorded answers, and the stored primary and complementary the catalogue profiles of the picked slugs (nil when absent), with owner, provider, report and payment time untouched; a lower bloc turns paid into in-progress, keeps other statuses and redirects to bloc + 1 |
| Questionnaire.BlocPastFiveCompletesWithoutAnswers | app/controllers/diagnostics_controller.rb:36-56 | an unclamped bloc number above 5 records no answer and still completes the diagnostic |
| Questionnaire.CompletedStaysCompleted | app/controllers/diagnostics_controller.rb:35-60 | a completed diagnostic may resubmit and stays completed |
| Payments.PaymentProviderParam | app/controllers/diagnostics_controller.rb:101-103 | the provider is pawaPay iff "pawapay" was sent; "stripe", anything else or nothing gives Stripe |
| Payments.CheckoutRequestFor | app/services/payments/stripe_checkout_service.rb:15-30 | the session asks for card payment of one line item named "Diagnostic de Repositionnement Stratégique", quantity 1, currency and amount from the configuration or "xof" and 300000, referencing the diagnostic and the owner's email |
| Payments.StripeCheckout | app/services/payments/stripe_checkout_service.rb:14-42 | success iff a session was created (with an unused id); success returns the session url and adds one pending Stripe payment under the session id; a StripeError returns its message and adds nothing; other exceptions propagate |
| Payments.DepositRequestFor | app/services/payments/pawapay_deposit_service.rb:52-60 | the deposit request carries the local deposit id, amount "3000", currency "XOF", the operator code and the phone as an MSISDN |
| Payments.RejectionReason | app/services/payments/pawapay_deposit_service.rb:35 | the error is `rejectionReason`, else `message`, else "Payment rejected" |
| Payments.PawapayDeposit | app/services/payments/pawapay_deposit_service.rb:21-40 | success iff the code is 201 and status ACCEPTED (and the id is unused); success stores one pending pawaPay payment under the body's `depositId`, or else the local id, and returns that id; a refusal or any exception adds nothing and returns the reason or message; nothing escapes |
| Payments.CreateDiagnostic | app/controllers/diagnostics_controller.rb:13-20 | a new pending diagnostic is created with the chosen provider; an adapter success redirects to the checkout url (Stripe) or the payment status page (pawaPay) and keeps the diagnostic with its one new payment; a declined result destroys it, restoring the store, and returns to the form with the adapter's error; an escaping exception leaves it without a payment |
| Payments.CreateFollowsGateways | app/controllers/diagnostics_controller.rb:105-133 | in terms of what the gateways answered: a new session with an unused id sends the user to its url with a pending Stripe payment under the session id, a reused id is a server error, a Stripe error returns to the form with its message and no trace; an accepted deposit sends the user to the status page with a pending pawaPay payment, a refused one or a failed call returns to the form with the reason or message and no trace |
| Payments.DestroyUndoesCreate | app/controllers/diagnostics_controller.rb:105-133 | destroying a diagnostic just created, and without a payment, restores the previous store |
| Payments.CreatedDiagnosticHasOnePendingPayment | app/services/payments/stripe_checkout_service.rb:32-37 | when creation redirects onward (to Stripe checkout or to the pawaPay status page), the new diagnostic has exactly one payment, pending, with the chosen provider |
| Webhooks.Confirm | app/services/webhooks/stripe_handler_service.rb:29-32 | confirming sets the payment confirmed with a timestamp and its diagnostic paid with `paid_at`, together, and makes the diagnostic paid-for |
| Webhooks.StripeHandle | app/services/webhooks/stripe_handler_service.rb:12-35 | other event types are skipped with no change; a checkout event without a session raises; one whose payment is unknown, of pawaPay or already confirmed is skipped with no change; one whose payment has lost its diagnostic raises with no change; otherwise it is processed and exactly `Confirm` happens |
| Webhooks.PawapayHandle | app/services/webhooks/pawapay_handler_service.rb:12-30 | an unknown, Stripe or confirmed payment is skipped; COMPLETED confirms and enqueues exactly one job for its diagnostic (or raises with no change when the diagnostic is gone); FAILED marks only the payment failed; any other status is skipped with no change |
| Webhooks.StripeReplayIsSkipped | test/services/webhooks/stripe_handler_service_test.rb:26-33 | a second delivery of a processed Stripe event is skipped and changes nothing |
| Webhooks.PawapayReplayEnqueuesOnce | app/services/webhooks/pawapay_handler_service.rb:14-22 | a replayed COMPLETED callback is skipped, so exactly one job is enqueued in total |
| Webhooks.FailedThenCompleted | app/services/webhooks/pawapay_handler_service.rb:14-26 | a pending payment marked failed can still be confirmed later, and its diagnostic becomes paid-for |
| Webhooks.ProvidersStayApart | app/services/webhooks/stripe_handler_service.rb:25 | the Stripe handler never touches a pawaPay payment and the pawaPay handler never touches a Stripe payment |
| Report.ScoreOf | app/services/diagnostics/generate_pdf_service.rb:58 | the score shown is the stored total, or 0 when the slug has none |
| Report.Axes | app/services/diagnostics/generate_pdf_service.rb:74-82 | the axes are exactly three, axe 1, 2 and 3 in order, nil shown as empty |
| Report.Outline | app/services/diagnostics/generate_pdf_service.rb:30-44 | the header comes first, sections follow in the fixed order, and a section is present iff its condition holds |
| Report.OutlineProfiles | app/services/diagnostics/generate_pdf_service.rb:55-68 | the primary section appears iff there is a primary, with its name, its stored score or 0, and its description; likewise the complementary section |
| Report.OutlineGuidance | app/services/diagnostics/generate_pdf_service.rb:70-102 | axes appear iff the primary has an active trajectory (its three axes); skills iff the primary has key skills (one bullet each, in order); action and upsell iff their texts are non-nil |
| Report.OutlineWithoutPrimary | app/services/diagnostics/generate_pdf_service.rb:55-101 | without a primary the outline is the header, followed by the complementary section if there is one |
| Report.GenerateReport | app/services/diagnostics/generate_pdf_service.rb:110-117 | afterwards a report with that outline is attached and `pdf_generated` is true; nothing else changes |
| Report.ReportWithoutProfilesIsHeaderOnly | app/services/diagnostics/generate_pdf_service.rb:55-67 | a diagnostic with no profiles gets a header-only report |
| Report.ReportNamesPrimary | app/services/diagnostics/generate_pdf_service.rb:55-61 | with a primary, the section right after the header names it with its score |
| Report.PerformJob | app/jobs/diagnostics/generate_pdf_job.rb:6-10 | a missing diagnostic or one already generated is left alone; otherwise the report is generated |
| Report.ResultsView | app/controllers/diagnostics_controller.rb:62-69 | a Stripe diagnostic without a PDF gets one generated; any other is unchanged |
| Report.PerformJobCorrected | app/jobs/diagnostics/generate_pdf_job.rb:6-10 | generates only for a completed diagnostic without a PDF; otherwise changes nothing |
| Report.ResultsViewCorrected | app/controllers/diagnostics_controller.rb:62-69 | the results page ensures a report exists for any provider and never regenerates one |
| Report.JobIsIdempotent | app/jobs/diagnostics/generate_pdf_job.rb:8-9 | running the job twice is the same as running it once |
| Report.JobFrame | app/jobs/diagnostics/generate_pdf_job.rb:7-9 | the job touches no other diagnostic |
| Pipeline.InvEmpty | db/migrate/20260225105817_create_diagnostics.rb:6-11 | the empty database satisfies the pipeline invariant |
| Pipeline.Step | app/controllers/diagnostics_controller.rb:85-89 | a submission or results request for a diagnostic the user does not own, and a creation under an id in use, change nothing; a job run consumes the head of the queue and nothing else touches it except a pawaPay callback |
| Pipeline.InvCreate | app/controllers/diagnostics_controller.rb:13-20 | creating a diagnostic keeps the payment half of the invariant (past pending_payment means paid for, every payment has its diagnostic, one payment each) and never breaks the report half (a report iff `pdf_generated`, only on completed diagnostics) |
| Pipeline.InvAddPayment | app/models/diagnostic.rb:6 | adding an unconfirmed payment for a diagnostic that has none keeps every diagnostic past pending_payment paid for, and keeps one payment per diagnostic |
| Pipeline.InvStripe | app/services/webhooks/stripe_handler_service.rb:23-35 | a Stripe webhook keeps the payment half of the invariant (past pending_payment means paid for, every payment has its diagnostic, one payment each) and never breaks the report half (a report iff `pdf_generated`, only on completed diagnostics) |
| Pipeline.InvPawapay | app/services/webhooks/pawapay_handler_service.rb:12-30 | a pawaPay webhook keeps the payment half of the invariant (past pending_payment means paid for, every payment has its diagnostic, one payment each) and never breaks the report half (a report iff `pdf_generated`, only on completed diagnostics) |
| Pipeline.InvSubmit | app/controllers/diagnostics_controller.rb:35-60 | submitting a bloc keeps the payment half of the invariant (past pending_payment means paid for, every payment has its diagnostic, one payment each) and never breaks the report half (a report iff `pdf_generated`, only on completed diagnostics) |
| Pipeline.InvJob | app/jobs/diagnostics/generate_pdf_job.rb:6-10 | running a report job with the corrected guard (only completed diagnostics get a report) keeps the payment half of the invariant (past pending_payment means paid for, every payment has its diagnostic, one payment each) and never breaks the report half (a report iff `pdf_generated`, only on completed diagnostics) |
| Pipeline.InvView | app/controllers/diagnostics_controller.rb:62-69 | viewing results keeps the payment half of the invariant (past pending_payment means paid for, every payment has its diagnostic, one payment each) and never breaks the report half (a report iff `pdf_generated`, only on completed diagnostics) |
| Pipeline.InvStep | app/controllers/diagnostics_controller.rb:91-95 | every entry point, with the corrected report job and results page, keeps the payment half of the invariant (past pending_payment means paid for, every payment has its diagnostic, one payment each) and never breaks the report half (a report iff `pdf_generated`, only on completed diagnostics) |
| Pipeline.InvReachable | app/controllers/diagnostics_controller.rb:91-95 | in every state reachable through the entry points with the corrected report job and results page, a diagnostic past pending_payment has a confirmed payment; every payment has its diagnostic; no diagnostic has two payments; a diagnostic has a report iff `pdf_generated`, and only completed ones do |
| Pipeline.InvJobAsWritten | app/jobs/diagnostics/generate_pdf_job.rb:6-10 | the report job as written keeps every diagnostic past pending_payment paid for and one payment per diagnostic |
| Pipeline.InvViewAsWritten | app/controllers/diagnostics_controller.rb:62-69 | the results page as written keeps the payment half of the invariant |
| Pipeline.InvStepAsWritten | app/controllers/diagnostics_controller.rb:91-95 | every entry point, with the report job and results page as written, keeps the payment half of the invariant |
| Pipeline.PaymentInvReachableAsWritten | app/controllers/diagnostics_controller.rb:91-95 | in every state reachable through the entry points as written, a diagnostic past pending_payment has a confirmed payment, every payment has its diagnostic, and no diagnostic has two payments |
| Pipeline.UnconfirmedMeansPending | app/services/webhooks/pawapay_handler_service.rb:14-26 | in a reachable state, a diagnostic whose payment is not confirmed is still pending_payment |
| Pipeline.StatusNeverRegresses | app/controllers/diagnostics_controller.rb:52 | no step moves a diagnostic backwards through pending_payment, paid, in_progress, completed |
| Pipeline.PawapayReportIsStaleAsWritten | app/jobs/diagnostics/generate_pdf_job.rb:8 | as written, a pawaPay COMPLETED callback enqueues a job that generates a header-only report for the still-paid diagnostic, and after scoring the results page keeps that report |
| Pipeline.CorrectedReportFollowsScoring | app/controllers/diagnostics_controller.rb:65 | with the corrected guards, the early job does nothing and the results page generates a report naming the primary profile |
| Roadmaps.Ordered | app/models/roadmap_step.rb:8 | `ordered` lists the same steps in ascending order |
| Roadmaps.NextStep | app/models/roadmap_step.rb:10-12 | the next step is a sibling with a greater order, the least such; it is nil iff none exists; it is never the step itself or another roadmap's step |
| Roadmaps.PreviousStep | app/models/roadmap_step.rb:14-16 | the previous step is a sibling with a smaller order, the greatest such; it is nil iff none exists |
| Roadmaps.NextThenPrevious | db/migrate/20250820221419_create_roadmap_steps.rb:13 | with unique orders per roadmap, the step before the next step is the step itself |
| Roadmaps.SameOrderSameStep | app/models/roadmap_step.rb:6 | within one roadmap, the order identifies a step |
| Roadmaps.NextStepAsWritten | app/models/roadmap_step.rb:11 | the query with a bare `order` in its condition returns the next step only if the condition parses |
| Roadmaps.PreviousStepAsWritten | app/models/roadmap_step.rb:15 | the query with a bare `order` in its condition returns the previous step only if the condition parses |
| Roadmaps.NavigationAsWrittenFails | app/models/roadmap_step.rb:10-16 | both navigation queries as written fail on every step, because `order` is a reserved word |
| Roadmaps.NextStepCorrected | app/models/roadmap_step.rb:10-12 | with the column quoted, the query returns the intended next step |
| Roadmaps.PreviousStepCorrected | app/models/roadmap_step.rb:14-16 | with the column quoted, the query returns the intended previous step |
| Roadmaps.RejectedIsInvalid | app/models/roadmap.rb:9-11 | a row the reject rule drops (all four texts blank) would have failed the step validations anyway |
| Roadmaps.NotEveryInvalidEntryIsRejected | app/models/roadmap_step.rb:4-5 | a row with only skills filled in is not rejected, so it reaches validation and fails it |
| Roadmaps.ApplyEntry | app/models/roadmap.rb:7-11 | a new row is built unless rejected or marked `_destroy`; an existing row marked `_destroy` is removed (the reject rule does not apply), a rejected one is left alone, any other is updated; ids are looked up among the roadmap's stored steps, fetched once before the entries apply, so an id that is not one of them raises and a row already destroyed by an earlier entry stays destroyed |
| Roadmaps.SaveRoadmap | app/models/roadmap_step.rb:4-6 | an unknown step id raises; otherwise the save is refused iff the roadmap lacks a title or description, or a built or changed step lacks a title, objective or order or takes an order held by another stored step of its roadmap; it raises on the unique index iff it would write two rows with one order; a save changes only this roadmap and its steps, never other roadmaps' steps or the field links |
| Roadmaps.SaveKeepsStepsWellFormed | db/schema.rb:88-97 | a save from well-formed stored rows, with fresh ids for built steps, leaves every step valid, with distinct ids and unique orders per roadmap |
| Roadmaps.SwappedOrdersAreRefused | app/models/roadmap_step.rb:6 | swapping the orders of two steps in one form is refused, because each changed step is checked against the other's stored order |
| Roadmaps.DestroyedStepStaysDestroyed | app/models/roadmap.rb:7-11 | a form that destroys a step and then names it again in a later row still finds it, saves, and leaves the step destroyed |
| Roadmaps.ReusingDestroyedOrderIsRefused | app/models/roadmap_step.rb:6 | a new step may not take the order of a step destroyed in the same form, which is still stored when the new one is validated |
| Roadmaps.DuplicateNewOrdersClash | db/schema.rb:97 | two new steps of one form with the same order pass validation and then violate the unique index |
| Roadmaps.BlankStepRowIsIgnored | app/models/roadmap.rb:9-11 | a form whose only step row is blank saves without changing any step |
| Roadmaps.DestroyRoadmap | app/models/roadmap.rb:2-5 | destroying a roadmap removes exactly its steps and its field links |
| Roadmaps.NonBlank | app/controllers/admin/roadmaps_controller.rb:29 | `reject(&:blank?)` keeps exactly the non-blank ids |
| Roadmaps.LinkEach | app/controllers/admin/roadmaps_controller.rb:30-33 | each id is linked in turn; the run succeeds iff every id names a field, and then every id is linked; no link to an unknown field is made |
| Roadmaps.LinksOnCreate | app/controllers/admin/roadmaps_controller.rb:23-34 | the current field is always linked; without `field_ids` nothing else is; with them and all found, the links are exactly the current field and the non-blank submitted fields |
| Roadmaps.LinksOnUpdate | app/controllers/admin/roadmaps_controller.rb:51-66 | without `field_ids` the links are unchanged; with them, other roadmaps' links are untouched and, when every field is found, the roadmap's linked fields are exactly the non-blank submitted ids |
| Roadmaps.BlankSubmissionUnlinksAll | app/controllers/admin/roadmaps_controller.rb:51-59 | submitting only the blank hidden value unlinks every field |
| Roadmaps.BuildEmptyStep | app/controllers/admin/roadmaps_controller.rb:96-101 | a blank step is built iff the roadmap has no step, and its order is then always 1 |
| Roadmaps.MaxOrZero | app/controllers/admin/roadmaps_controller.rb:99 | `maximum(:order) \|\| 0` is 0 for no steps and otherwise the greatest order |
| Locale.FirstMatch | app/controllers/application_controller.rb:14 | returns the earliest line start followed by two lower-case ASCII letters, or none iff there is no such place |
| Locale.Scan | app/controllers/application_controller.rb:14 | `scan(...).first` is the two letters at the earliest match; nil for an absent header or no match |
| Locale.ExtractLocale | app/controllers/application_controller.rb:13-16 | the result is "en" or "fr", and is the scanned code exactly when that code is supported |
| Locale.SetLocale | app/controllers/application_controller.rb:9-11 | the locale is the extracted one when there is one; when none is extracted (no header, no match, or an unsupported code) it is the default |
| Locale.LeadingPairDecides | app/controllers/application_controller.rb:14-15 | a header starting with two lower-case letters is decided by those two alone |
| Locale.NoLeadingPairNoLocale | app/controllers/application_controller.rb:14 | a single-line header not starting with two lower-case letters, such as "FR", selects no locale |
| Locale.BrowserHeaders | app/controllers/application_controller.rb:10-15 | "fr-CA,…" gives fr, "en-US,…" gives en, "de-DE,fr…" and "FR" give the default, and no header gives the default |
| Locale.LaterLineCounts | app/controllers/application_controller.rb:14 | because `^` matches after a newline, a later line of the header can supply the locale |

## Left out

- Network I/O and the SDKs are left out: the Stripe SDK call, `Net::HTTP`, credentials lookup and JSON parsing. Their results are inputs (a session or a `StripeError`; an HTTP code plus optional body fields, or an exception message).
- Only string values of the JSON fields are modelled. A JSON body whose `status` or `depositId` is not a string is outside the model.
- Webhook signature verification and body parsing in the webhook controllers are left out; the handlers receive the parsed event.
- The `customerTimestamp` of the deposit request, the user's email and the date in the report header, and all PDF layout and bytes are left out. The report is modelled as its outline of sections, and ActiveStorage `attach` as storing that outline.
- Concurrency and transactions are left out: each handler or controller call is one atomic step. Races between duplicate webhook deliveries are not modelled.
- Background queueing is modelled as an appended list of diagnostic ids. Jobs run in queue order as separate steps, and there are no retries.
- `params[:bloc].to_i` (String#to_i) is not modelled. The bloc arrives already converted to an integer (or as absent, which gives 0).
- Questions.FindOption: an option's `"value"` is modelled as a string and its `"points"` as an optional integer. In the source a non-string JSON value never equals the submitted string, and `points.to_i` also converts strings and floats; option JSON of those shapes is outside the model.
- Questionnaire.SubmitBloc: it requires that the answer-order and sort-order parameters be admissible for the diagnostic's answers. These are the model's stand-ins for orders the database and Ruby choose, not inputs of the source. The pipeline ignores a submission that supplies inadmissible orders.
- Payments.CreateDiagnostic: requires a fresh diagnostic id, which the database's UUID default provides. Ids are natural numbers rather than UUIDs.
- The duplicate-`provider_payment_id` failure is modelled as an exception in the Stripe adapter and as a refusal in the pawaPay adapter (whose `rescue => e` catches it). The database error text is a fixed string.
- Roadmaps.ApplyEntry: each nested row carries all of title, objective, skills, activities and order. Rows that submit only some of these keys are not modelled. Truthiness of `_destroy` arrives already cast to a boolean.
- Roadmaps.LinksOnCreate and Roadmaps.LinksOnUpdate model the link changes on their own. They apply only after the roadmap itself saved (SaveRoadmap). `Field.find` failing is modelled as a failed result that keeps the links made so far. The resulting 404 response is not modelled.
- Roadmaps.SaveRoadmap: the built rows' ids are a parameter. The preservation lemma SaveKeepsStepsWellFormed assumes they are fresh and the stored rows well formed, which the database's UUID default, primary key and unique index provide. The order in which Rails writes the rows is not modelled: a clash on the unique index is reported whichever row comes second.
- Roadmaps: PostgreSQL's full list of reserved words is not modelled. Only the few relevant key words are listed.
- The admin CRUD controllers, Devise, routes, helpers, the Stimulus JavaScript controllers, FriendlyId slug generation, `allow_browser`, `detect_country`, `pdf_status` and `download_pdf` are not part of this model. Neither is db/seeds.rb; of db/schema.rb only the unique index on roadmap steps is modelled.
- `I18n.default_locale` is a parameter, because the application's I18n configuration is not part of this model.
- Pipeline.PaymentInvReachableAsWritten: over the entry points as written it states only the payment half of the invariant. The report half (a report only on completed diagnostics) does not hold as written, as the first finding below shows.
- Rescoring a completed diagnostic after its report exists leaves the report as it was, even in the corrected model. The report is never regenerated once `pdf_generated` is set.

## Findings

| source | as written | input that shows it | evidently intended | confidence | as-written member | corrected member |
|---|---|---|---|---|---|---|
| app/jobs/diagnostics/generate_pdf_job.rb:8 | the pawaPay callback enqueues the report job when the payment is confirmed, before any answer exists. The job generates a report from a diagnostic with no profiles, so the report is header-only. The results page regenerates only for Stripe diagnostics (app/controllers/diagnostics_controller.rb:65), so the pawaPay user's report is never rebuilt after scoring | a pending pawaPay payment receives COMPLETED; the job runs; the user answers all blocs and scoring picks a primary; the stored report is still `[Header]` | the report describes the scored result: generate only for completed diagnostics, and generate on the results page whatever the provider | not executed; high | Pipeline.PawapayReportIsStaleAsWritten (with Report.PerformJob, Report.ResultsView) | Report.PerformJobCorrected, Report.ResultsViewCorrected, Pipeline.CorrectedReportFollowsScoring |
| app/models/roadmap_step.rb:11-15 | the conditions `"order > ?"` and `"order < ?"` put the column name `order` unquoted into SQL. `ORDER` is a reserved word in PostgreSQL, so the query is a syntax error | any step, e.g. the first of a roadmap with two steps: `next_step` raises `ActiveRecord::StatementInvalid` instead of returning the second | compare the quoted column (`"order" > ?`, or `where(order: (order + 1)..)`) and return the neighbouring step | not executed; high | Roadmaps.NextStepAsWritten, Roadmaps.PreviousStepAsWritten, Roadmaps.NavigationAsWrittenFails | Roadmaps.NextStepCorrected, Roadmaps.PreviousStepCorrected, Roadmaps.NextStep, Roadmaps.PreviousStep, Roadmaps.NextThenPrevious |

=== FILE: collections.dfy ===
/**
 * Sequence utilities shared by the model: distinctness, filtering (an SQL
 * `WHERE` or Ruby `select`), mapping, and a stable insertion sort (an SQL
 * `ORDER BY` on one integer column).
 */
module Collections {

  /** No element occurs twice. */
  predicate Distinct<T(==)>(s: seq<T>) {
    forall i, j :: 0 <= i < j < |s| ==> s[i] != s[j]
  }

  /** `s` lists every element of `keys` exactly once, in some order. */
  predicate Enumerates<T(==)>(s: seq<T>, keys: set<T>) {
    && Distinct(s)
    && (forall i :: 0 <= i < |s| ==> s[i] in keys)
    && (forall x :: x in keys ==> x in s)
  }

  function Filter<T>(s: seq<T>, p: T -> bool): (r: seq<T>)
    ensures |r| <= |s|
    ensures forall x :: x in r ==> x in s && p(x)
    ensures forall x :: x in s && p(x) ==> x in r
    ensures forall i :: 0 <= i < |r| ==> p(r[i])
  {
    if |s| == 0 then []
    else (if p(s[0]) then [s[0]] else []) + Filter(s[1..], p)
  }

  lemma {:induction false} FilterDistinct<T>(s: seq<T>, p: T -> bool)
    requires Distinct(s)
    ensures Distinct(Filter(s, p))
  {
    if |s| > 0 {
      FilterDistinct(s[1..], p);
      assert s[0] !in s[1..];
    }
  }

  /** The multiplicity of `x` after filtering is its multiplicity before, or zero. */
  lemma {:induction false} FilterMultiplicity<T>(s: seq<T>, p: T -> bool, x: T)
    ensures multiset(Filter(s, p))[x] == if p(x) then multiset(s)[x] else 0
  {
    if |s| > 0 {
      FilterMultiplicity(s[1..], p, x);
      var head := if p(s[0]) then [s[0]] else [];
      assert Filter(s, p) == head + Filter(s[1..], p);
      assert s == [s[0]] + s[1..];
      assert multiset(s) == multiset{s[0]} + multiset(s[1..]);
    }
  }

  lemma MultisetExtensional<T>(m: multiset<T>, n: multiset<T>)
    requires forall x :: m[x] == n[x]
    ensures m == n
  {
  }

  /** Filtering two permutations of each other gives permutations of each other. */
  lemma FilterPermutation<T>(a: seq<T>, b: seq<T>, p: T -> bool)
    requires multiset(a) == multiset(b)
    ensures multiset(Filter(a, p)) == multiset(Filter(b, p))
  {
    forall x
      ensures multiset(Filter(a, p))[x] == multiset(Filter(b, p))[x]
    {
      FilterMultiplicity(a, p, x);
      FilterMultiplicity(b, p, x);
    }
    MultisetExtensional(multiset(Filter(a, p)), multiset(Filter(b, p)));
  }

  function Map<A, B>(s: seq<A>, f: A -> B): (r: seq<B>)
    ensures |r| == |s|
    ensures forall i :: 0 <= i < |s| ==> r[i] == f(s[i])
  {
    if |s| == 0 then [] else [f(s[0])] + Map(s[1..], f)
  }

  lemma MapAppend<A, B>(a: seq<A>, b: seq<A>, f: A -> B)
    ensures Map(a + b, f) == Map(a, f) + Map(b, f)
  {
  }

  /** Removing the element at `j` removes one occurrence of it. */
  lemma RemoveAt<T>(b: seq<T>, j: int)
    requires 0 <= j < |b|
    ensures multiset(b) == multiset(b[..j] + b[j+1..]) + multiset{b[j]}
  {
    assert b == b[..j] + [b[j]] + b[j+1..];
  }

  lemma MapRemoveAt<A, B>(b: seq<A>, j: int, f: A -> B)
    requires 0 <= j < |b|
    ensures multiset(Map(b, f)) == multiset(Map(b[..j] + b[j+1..], f)) + multiset{f(b[j])}
  {
    SplitAt(b, j);
    MapMiddle(b[..j], b[j], b[j+1..], f);
  }

  lemma SplitAt<T>(b: seq<T>, j: int)
    requires 0 <= j < |b|
    ensures b == b[..j] + ([b[j]] + b[j+1..])
  {
  }

  lemma MapMiddle<A, B>(left: seq<A>, x: A, right: seq<A>, f: A -> B)
    ensures multiset(Map(left + ([x] + right), f)) == multiset(Map(left + right, f)) + multiset{f(x)}
  {
    MapAppend(left, [x] + right, f);
    MapCons(x, right, f);
    MapAppend(left, right, f);
    MultisetMiddle(Map(left, f), f(x), Map(right, f));
  }

  lemma MapCons<A, B>(x: A, r: seq<A>, f: A -> B)
    ensures Map([x] + r, f) == [f(x)] + Map(r, f)
  {
    assert ([x] + r)[1..] == r;
  }

  lemma MultisetMiddle<T>(l: seq<T>, x: T, r: seq<T>)
    ensures multiset(l + ([x] + r)) == multiset(l + r) + multiset{x}
  {
  }

  lemma MultisetCancel<T>(a: multiset<T>, b: multiset<T>, x: T)
    requires a + multiset{x} == b + multiset{x}
    ensures a == b
  {
    assert a == (a + multiset{x}) - multiset{x};
  }

  /** Mapping two permutations of each other gives permutations of each other. */
  lemma {:induction false} MapPermutation<A, B>(a: seq<A>, b: seq<A>, f: A -> B)
    requires multiset(a) == multiset(b)
    ensures multiset(Map(a, f)) == multiset(Map(b, f))
    decreases |a|
  {
    if |a| == 0 {
      assert |b| == |multiset(b)| == 0;
    } else {
      var j, rest := PermutationStep(a, b);
      MapPermutation(a[1..], rest, f);
      MapCons(a[0], a[1..], f);
      assert a == [a[0]] + a[1..];
      MapRemoveAt(b, j, f);
    }
  }

  /** The first element of `a` sits somewhere in its permutation `b`; what remains are permutations too. */
  lemma PermutationStep<T>(a: seq<T>, b: seq<T>) returns (j: int, rest: seq<T>)
    requires multiset(a) == multiset(b) && |a| > 0
    ensures 0 <= j < |b| && b[j] == a[0] && rest == b[..j] + b[j+1..]
    ensures multiset(a[1..]) == multiset(rest)
  {
    assert a[0] in multiset(b);
    j :| 0 <= j < |b| && b[j] == a[0];
    rest := b[..j] + b[j+1..];
    assert a == [a[0]] + a[1..];
    assert multiset(a) == multiset(a[1..]) + multiset{a[0]};
    RemoveAt(b, j);
    MultisetCancel(multiset(a[1..]), multiset(rest), a[0]);
  }

  /** Two duplicate-free listings of one set are permutations of each other. */
  lemma EnumerationsArePermutations<T>(a: seq<T>, b: seq<T>, keys: set<T>)
    requires Enumerates(a, keys) && Enumerates(b, keys)
    ensures multiset(a) == multiset(b)
  {
    forall x
      ensures multiset(a)[x] == multiset(b)[x]
    {
      DistinctMultiplicity(a, x);
      DistinctMultiplicity(b, x);
    }
  }

  lemma {:induction false} DistinctMultiplicity<T>(s: seq<T>, x: T)
    requires Distinct(s)
    ensures multiset(s)[x] == if x in s then 1 else 0
  {
    if |s| > 0 {
      assert s == [s[0]] + s[1..];
      assert Distinct(s[1..]);
      DistinctMultiplicity(s[1..], x);
      assert s[0] !in s[1..];
    }
  }

  /** Non-decreasing by `key`. */
  predicate SortedBy<T>(s: seq<T>, key: T -> int) {
    forall i, j :: 0 <= i < j < |s| ==> key(s[i]) <= key(s[j])
  }

  /** Inserts `x` before the first element whose key is at least `x`'s, so `x` stays ahead of equal keys. */
  function Insert<T>(x: T, s: seq<T>, key: T -> int): (r: seq<T>)
    requires SortedBy(s, key)
    ensures |r| == |s| + 1
    ensures forall y :: y in r ==> y == x || y in s
    ensures multiset(r) == multiset(s) + multiset{x}
    ensures SortedBy(r, key)
  {
    if |s| == 0 || key(x) <= key(s[0]) then [x] + s
    else
      var rest := Insert(x, s[1..], key);
      ConsSorted(x, s, key, rest);
      [s[0]] + rest
  }

  /** Putting the least element back in front of a sorted insertion keeps it sorted and a permutation. */
  lemma ConsSorted<T>(x: T, s: seq<T>, key: T -> int, rest: seq<T>)
    requires SortedBy(s, key) && |s| > 0 && key(s[0]) < key(x)
    requires forall y :: y in rest ==> y == x || y in s[1..]
    requires multiset(rest) == multiset(s[1..]) + multiset{x}
    requires SortedBy(rest, key)
    ensures forall y :: y in [s[0]] + rest ==> y == x || y in s
    ensures multiset([s[0]] + rest) == multiset(s) + multiset{x}
    ensures SortedBy([s[0]] + rest, key)
  {
    assert s == [s[0]] + s[1..];
    forall y | y in rest
      ensures key(s[0]) <= key(y)
    {
      if y != x {
        var k :| 0 <= k < |s[1..]| && s[1..][k] == y;
        assert s[k+1] == y;
      }
    }
    var r := [s[0]] + rest;
    forall i, j | 0 <= i < j < |r|
      ensures key(r[i]) <= key(r[j])
    {
      if i == 0 {
        assert r[j] == rest[j - 1] && r[j] in rest;
      } else {
        assert r[i] == rest[i - 1] && r[j] == rest[j - 1];
      }
    }
  }

  /** A stable insertion sort: a permutation of `s` ordered by ascending `key`. */
  function SortBy<T>(s: seq<T>, key: T -> int): (r: seq<T>)
    ensures SortedBy(r, key)
    ensures multiset(r) == multiset(s)
    ensures |r| == |s|
  {
    if |s| == 0 then []
    else
      assert s == [s[0]] + s[1..];
      Insert(s[0], SortBy(s[1..], key), key)
  }
}

=== FILE: locale.dfy ===
/**
 * Choosing the interface language from the `Accept-Language` request header:
 * the first two lower-case ASCII letters found at the start of a line of the
 * header, kept only when they name a supported locale.
 */
module Locale {
  import opened Wrappers

  const Supported: set<string> := {"en", "fr"}

  predicate Lower(c: char) {
    'a' <= c <= 'z'
  }

  /** `/^[a-z]{2}/` matches at `p`: a line start followed by two lower-case letters. */
  predicate MatchAt(h: string, p: int) {
    0 <= p && p + 2 <= |h| && (p == 0 || h[p - 1] == '\n') && Lower(h[p]) && Lower(h[p + 1])
  }

  /** The position of the first match at or after `from`. */
  function FirstMatch(h: string, from: nat): (r: Option<nat>)
    ensures r.Some? ==> from <= r.value && MatchAt(h, r.value)
    ensures r.Some? ==> forall q :: from <= q < r.value ==> !MatchAt(h, q)
    ensures r.None? <==> forall q :: from <= q ==> !MatchAt(h, q)
    decreases |h| - from
  {
    if from + 2 > |h| then None
    else if MatchAt(h, from) then Some(from)
    else FirstMatch(h, from + 1)
  }

  /** `header&.scan(/^[a-z]{2}/)&.first`. */
  function Scan(header: Option<string>): (r: Option<string>)
    ensures r.Some? <==> header.Some? && exists p :: MatchAt(header.value, p)
    ensures r.Some? ==> exists p :: MatchAt(header.value, p) && r.value == header.value[p..p + 2]
                                 && forall q :: 0 <= q < p ==> !MatchAt(header.value, q)
  {
    match header
    case None => None
    case Some(h) =>
      match FirstMatch(h, 0)
      case None => None
      case Some(p) => Some(h[p..p + 2])
  }

  /** `extract_locale`: the scanned code when it is `en` or `fr`, otherwise nil. */
  function ExtractLocale(header: Option<string>): (r: Option<string>)
    ensures r.Some? ==> r.value in Supported
    ensures r.Some? <==> Scan(header).Some? && Scan(header).value in Supported
    ensures r.Some? ==> r == Scan(header)
  {
    var parsed := Scan(header);
    if parsed.Some? && parsed.value in Supported then parsed else None
  }

  /** `set_locale`: the extracted locale, or the default locale. */
  function SetLocale(header: Option<string>, default: string): (r: string)
    ensures r in Supported || r == default
    ensures header.None? ==> r == default
    ensures ExtractLocale(header).Some? ==> r == ExtractLocale(header).value
    ensures ExtractLocale(header).None? ==> r == default
  {
    ExtractLocale(header).GetOr(default)
  }

  /** When the header starts with two lower-case letters, they alone decide. */
  lemma LeadingPairDecides(h: string)
    requires |h| >= 2 && Lower(h[0]) && Lower(h[1])
    ensures ExtractLocale(Some(h)) == if h[..2] in Supported then Some(h[..2]) else None
  {
    assert MatchAt(h, 0);
    assert FirstMatch(h, 0) == Some(0);
  }

  /** A single-line header that does not start with two lower-case letters selects no locale. */
  lemma NoLeadingPairNoLocale(h: string)
    requires '\n' !in h
    requires !(|h| >= 2 && Lower(h[0]) && Lower(h[1]))
    ensures ExtractLocale(Some(h)) == None
  {
    forall p ensures !MatchAt(h, p) {
      if 0 < p < |h| {
        assert h[p - 1] in h;
      }
    }
  }

  lemma BrowserHeaders()
    ensures SetLocale(Some("fr-CA,fr;q=0.9,en;q=0.8"), "en") == "fr"
    ensures SetLocale(Some("en-US,en;q=0.9"), "fr") == "en"
    ensures SetLocale(Some("de-DE,fr;q=0.9"), "en") == "en"
    ensures SetLocale(Some("FR"), "en") == "en"
    ensures SetLocale(None, "fr") == "fr"
  {
    LeadingPairDecides("fr-CA,fr;q=0.9,en;q=0.8");
    assert "fr-CA,fr;q=0.9,en;q=0.8"[..2] == "fr";
    LeadingPairDecides("en-US,en;q=0.9");
    assert "en-US,en;q=0.9"[..2] == "en";
    LeadingPairDecides("de-DE,fr;q=0.9");
    assert "de-DE,fr;q=0.9"[..2] == "de";
    NoLeadingPairNoLocale("FR");
  }

  /** A later line of the header can supply the locale. */
  lemma LaterLineCounts()
    ensures ExtractLocale(Some("*\nfr")) == Some("fr")
  {
    var h := "*\nfr";
    assert !MatchAt(h, 0) && MatchAt(h, 2);
    assert FirstMatch(h, 0) == Some(2) by {
      assert FirstMatch(h, 1) == Some(2);
    }
    assert h[2..4] == "fr";
  }
}

=== FILE: payments.dfy ===
/**
 * Starting a payment: the provider choice, the Stripe Checkout session and
 * the pawaPay mobile-money deposit, each creating the diagnostic's pending
 * Payment on success, and `DiagnosticsController#create`, which undoes the
 * diagnostic when the provider declines.
 *
 * The payment gateways are not modelled; what they answer is a parameter.
 */
module Payments {
  import opened Wrappers
  import opened Records

  /** `payment_provider_param`: "stripe" or "pawapay" as given, anything else falls back to Stripe. */
  function PaymentProviderParam(choice: Option<string>): (p: Provider)
    ensures p == Pawapay <==> choice == Some("pawapay")
    ensures choice == Some("stripe") ==> p == Stripe
  {
    if choice == Some("pawapay") then Pawapay else Stripe
  }

  /** What a payment service reports back to the controller. */
  datatype ServiceResult =
    | Succeeded(detail: string)
    | Declined(error: string)
    | Raised

  // ---------------------------------------------------------------- Stripe

  /** The two Stripe credentials the session reads; either may be unset. */
  datatype StripeConfig = StripeConfig(currency: Option<string>, priceAmount: Option<int>)

  datatype LineItem = LineItem(currency: string, productName: string, unitAmount: int, quantity: int)

  /** The parameters of `Stripe::Checkout::Session.create`. */
  datatype CheckoutRequest = CheckoutRequest(
    paymentMethodTypes: seq<string>,
    lineItems: seq<LineItem>,
    mode: string,
    clientReferenceId: Id,
    customerEmail: string,
    successUrl: string,
    cancelUrl: string)

  const StripeDefaultCurrency := "xof"
  const StripeDefaultAmount := 300000
  const StripeProductName := "Diagnostic de Repositionnement Stratégique"

  /** The checkout session asked of Stripe: one card payment of one diagnostic. */
  function CheckoutRequestFor(cfg: StripeConfig, id: Id, email: string, successUrl: string, cancelUrl: string)
    : (r: CheckoutRequest)
    ensures r.paymentMethodTypes == ["card"] && r.mode == "payment"
    ensures |r.lineItems| == 1 && r.lineItems[0].quantity == 1
    ensures r.lineItems[0].productName == "Diagnostic de Repositionnement Stratégique"
    ensures r.lineItems[0].currency == (if cfg.currency.Some? then cfg.currency.value else "xof")
    ensures r.lineItems[0].unitAmount == (if cfg.priceAmount.Some? then cfg.priceAmount.value else 300000)
    ensures r.clientReferenceId == id && r.customerEmail == email
    ensures r.successUrl == successUrl && r.cancelUrl == cancelUrl
  {
    CheckoutRequest(
      ["card"],
      [LineItem(cfg.currency.GetOr(StripeDefaultCurrency), StripeProductName,
                cfg.priceAmount.GetOr(StripeDefaultAmount), 1)],
      "payment", id, email, successUrl, cancelUrl)
  }

  /** What Stripe answered: a session, or a `Stripe::StripeError`. */
  datatype CheckoutOutcome =
    | SessionCreated(sessionId: string, url: string)
    | StripeFailure(message: string)

  /** The store after `create_payment!` recorded `ppid` as the diagnostic's pending payment. */
  function AddPayment(s: Store, ppid: string, id: Id, provider: Provider): (r: Store)
    requires id in s.diagnostics
    ensures r.diagnostics == s.diagnostics && r.jobs == s.jobs
    ensures r.payments == s.payments[ppid := NewPayment(s.diagnostics[id].owner, id, provider)]
  {
    s.(payments := s.payments[ppid := NewPayment(s.diagnostics[id].owner, id, provider)])
  }

  /**
   * `StripeCheckoutService#call`. A session becomes a pending Stripe payment
   * keyed by the session id; a Stripe error is reported; a clash on the
   * unique payment id is not rescued and escapes with nothing written.
   */
  function StripeCheckout(s: Store, id: Id, outcome: CheckoutOutcome): (r: (Store, ServiceResult))
    requires id in s.diagnostics
    ensures r.1.Succeeded? <==> outcome.SessionCreated? && outcome.sessionId !in s.payments
    ensures r.1.Succeeded? ==> r.1.detail == outcome.url && r.0 == AddPayment(s, outcome.sessionId, id, Stripe)
    ensures outcome.StripeFailure? ==> r == (s, Declined(outcome.message))
    ensures outcome.SessionCreated? && outcome.sessionId in s.payments ==> r == (s, Raised)
  {
    match outcome
    case StripeFailure(message) => (s, Declined(message))
    case SessionCreated(sid, url) =>
      if sid in s.payments then (s, Raised)
      else (AddPayment(s, sid, id, Stripe), Succeeded(url))
  }

  // ---------------------------------------------------------------- pawaPay

  const PawapayAmount := "3000"
  const PawapayCurrency := "XOF"
  const StatementDescription := "Diagnostic Repositionnement Strategique"
  const RejectedFallback := "Payment rejected"

  datatype Recipient = Recipient(kind: string, address: string)

  /** The JSON body posted to `/v1/deposits` (the customer timestamp aside). */
  datatype DepositRequest = DepositRequest(
    depositId: string,
    amount: string,
    currency: string,
    correspondent: Option<string>,
    recipient: Recipient,
    statementDescription: string)

  /** The deposit asked of pawaPay: 3000 XOF from the phone, under the locally generated id. */
  function DepositRequestFor(localId: string, operator: Option<string>, phone: string): (r: DepositRequest)
    ensures r.depositId == localId && r.amount == "3000" && r.currency == "XOF"
    ensures r.correspondent == operator && r.recipient == Recipient("MSISDN", phone)
  {
    DepositRequest(localId, PawapayAmount, PawapayCurrency, operator, Recipient("MSISDN", phone), StatementDescription)
  }

  /** The fields of pawaPay's answer the service reads; a missing key is `None`. */
  datatype DepositResponse = DepositResponse(
    code: int,
    status: Option<string>,
    depositId: Option<string>,
    rejectionReason: Option<string>,
    message: Option<string>)

  /** What the call produced: an answer, or an exception (network, JSON) with its message. */
  datatype DepositOutcome =
    | Responded(response: DepositResponse)
    | CallFailed(message: string)

  /** The message of the database error a duplicate payment id raises. */
  const DuplicatePaymentIdError := "duplicate key value violates unique constraint"

  predicate AcceptedDeposit(r: DepositResponse) {
    r.code == 201 && r.status == Some("ACCEPTED")
  }

  /** `body["rejectionReason"] || body["message"] || "Payment rejected"`. */
  function RejectionReason(r: DepositResponse): (reason: string)
    ensures r.rejectionReason.Some? ==> reason == r.rejectionReason.value
    ensures r.rejectionReason.None? && r.message.Some? ==> reason == r.message.value
    ensures r.rejectionReason.None? && r.message.None? ==> reason == "Payment rejected"
  {
    if r.rejectionReason.Some? then r.rejectionReason.value
    else r.message.GetOr(RejectedFallback)
  }

  /**
   * `PawapayDepositService#call`. An accepted deposit (HTTP 201, status
   * ACCEPTED) becomes a pending pawaPay payment keyed by the returned id, or
   * by the local id when none is returned. Everything else, exceptions
   * included, is reported as a failure with nothing written.
   */
  function PawapayDeposit(s: Store, id: Id, localId: string, outcome: DepositOutcome): (r: (Store, ServiceResult))
    requires id in s.diagnostics
    ensures !r.1.Raised?
    ensures r.1.Succeeded? <==>
              outcome.Responded? && AcceptedDeposit(outcome.response)
              && outcome.response.depositId.GetOr(localId) !in s.payments
    ensures r.1.Succeeded? ==>
              && r.1.detail == outcome.response.depositId.GetOr(localId)
              && r.0 == AddPayment(s, r.1.detail, id, Pawapay)
    ensures r.1.Declined? ==> r.0 == s
    ensures outcome.CallFailed? ==> r.1 == Declined(outcome.message)
    ensures outcome.Responded? && !AcceptedDeposit(outcome.response) ==>
              r.1 == Declined(RejectionReason(outcome.response))
  {
    match outcome
    case CallFailed(message) => (s, Declined(message))
    case Responded(resp) =>
      if AcceptedDeposit(resp) then
        var ppid := resp.depositId.GetOr(localId);
        if ppid in s.payments then (s, Declined(DuplicatePaymentIdError))
        else (AddPayment(s, ppid, id, Pawapay), Succeeded(ppid))
      else (s, Declined(RejectionReason(resp)))
  }

  // ---------------------------------------------------------------- create

  /** Where `create` sends the user. */
  datatype CreateRedirect =
    | ToCheckout(url: string)
    | ToPaymentStatus(paymentId: string)
    | BackToNew(alert: string)
    | ServerError

  /** What each gateway would answer for this request. */
  datatype Gateways = Gateways(checkout: CheckoutOutcome, localDepositId: string, deposit: DepositOutcome)

  /** The store once `create` has saved the new pending diagnostic, before the provider is called. */
  function Created(s: Store, user: UserId, id: Id, choice: Option<string>): (r: Store)
    ensures id in r.diagnostics && r.payments == s.payments && r.jobs == s.jobs
  {
    s.(diagnostics := s.diagnostics[id := NewDiagnostic(user, PaymentProviderParam(choice))])
  }

  /**
   * `DiagnosticsController#create`: a new pending diagnostic with the chosen
   * provider, then the provider's service; a declined payment destroys the
   * diagnostic again. `id` is the id the database assigns.
   */
  function CreateDiagnostic(s: Store, user: UserId, id: Id, choice: Option<string>, gw: Gateways)
    : (r: (Store, CreateRedirect))
    requires FreshId(s, id)
    ensures var provider := PaymentProviderParam(choice);
            (r.1.ToCheckout? || r.1.ToPaymentStatus?) ==>
              && r.0.diagnostics == s.diagnostics[id := NewDiagnostic(user, provider)]
              && (exists k :: k !in s.payments && r.0.payments == s.payments[k := NewPayment(user, id, provider)])
    ensures r.1.BackToNew? ==> r.0 == s
    ensures r.1.ServerError? ==> r.0 == s.(diagnostics := s.diagnostics[id := NewDiagnostic(user, PaymentProviderParam(choice))])
    ensures r.1.ToPaymentStatus? ==> PaymentProviderParam(choice) == Pawapay
    ensures r.1.ToCheckout? ==> PaymentProviderParam(choice) == Stripe
    ensures r.0.jobs == s.jobs
    ensures var svc := StripeCheckout(Created(s, user, id, choice), id, gw.checkout);
            PaymentProviderParam(choice) == Stripe ==>
              && (svc.1.Succeeded? ==> r == (svc.0, ToCheckout(svc.1.detail)))
              && (svc.1.Declined? ==> r == (s, BackToNew(svc.1.error)))
              && (svc.1.Raised? ==> r.1 == ServerError)
    ensures var svc := PawapayDeposit(Created(s, user, id, choice), id, gw.localDepositId, gw.deposit);
            PaymentProviderParam(choice) == Pawapay ==>
              && (svc.1.Succeeded? ==> r == (svc.0, ToPaymentStatus(svc.1.detail)))
              && (svc.1.Declined? ==> r == (s, BackToNew(svc.1.error)))
  {
    var provider := PaymentProviderParam(choice);
    var created := Created(s, user, id, choice);
    var (after, result) := if provider == Stripe then StripeCheckout(created, id, gw.checkout)
                           else PawapayDeposit(created, id, gw.localDepositId, gw.deposit);
    match result
    case Succeeded(detail) =>
      (after, if provider == Stripe then ToCheckout(detail) else ToPaymentStatus(detail))
    case Declined(error) =>
      DestroyUndoesCreate(s, id, created);
      (DestroyDiagnostic(after, id), BackToNew(error))
    case Raised => (after, ServerError)
  }

  /**
   * What the user sees for each gateway answer: a fresh session or an
   * accepted deposit sends them on, a provider refusal or a failed call sends
   * them back to the form with the provider's message and leaves no trace.
   */
  lemma CreateFollowsGateways(s: Store, user: UserId, id: Id, choice: Option<string>, gw: Gateways)
    requires FreshId(s, id)
    ensures var r := CreateDiagnostic(s, user, id, choice, gw);
            choice != Some("pawapay") ==>
              && (gw.checkout.SessionCreated? && gw.checkout.sessionId !in s.payments ==>
                    && r.1 == ToCheckout(gw.checkout.url)
                    && r.0.payments == s.payments[gw.checkout.sessionId := NewPayment(user, id, Stripe)])
              && (gw.checkout.SessionCreated? && gw.checkout.sessionId in s.payments ==> r.1 == ServerError)
              && (gw.checkout.StripeFailure? ==> r == (s, BackToNew(gw.checkout.message)))
    ensures var r := CreateDiagnostic(s, user, id, choice, gw);
            var ppid := if gw.deposit.Responded? then gw.deposit.response.depositId.GetOr(gw.localDepositId) else "";
            choice == Some("pawapay") ==>
              && (gw.deposit.Responded? && AcceptedDeposit(gw.deposit.response) && ppid !in s.payments ==>
                    && r.1 == ToPaymentStatus(ppid)
                    && r.0.payments == s.payments[ppid := NewPayment(user, id, Pawapay)])
              && (gw.deposit.Responded? && !AcceptedDeposit(gw.deposit.response) ==>
                    r == (s, BackToNew(RejectionReason(gw.deposit.response))))
              && (gw.deposit.CallFailed? ==> r == (s, BackToNew(gw.deposit.message)))
  {
  }

  /** Destroying a diagnostic that was just added to a store where its id was fresh restores the store. */
  lemma DestroyUndoesCreate(s: Store, id: Id, created: Store)
    requires FreshId(s, id)
    requires created.payments == s.payments && created.jobs == s.jobs && id in created.diagnostics
    requires created.diagnostics - {id} == s.diagnostics
    ensures DestroyDiagnostic(created, id) == s
  {
    var r := DestroyDiagnostic(created, id);
    assert r.payments == s.payments;
  }

  /** A successful creation leaves the new diagnostic with exactly one payment, pending and for the chosen provider. */
  lemma CreatedDiagnosticHasOnePendingPayment(s: Store, user: UserId, id: Id, choice: Option<string>, gw: Gateways)
    requires FreshId(s, id)
    ensures var r := CreateDiagnostic(s, user, id, choice, gw);
            (r.1.ToCheckout? || r.1.ToPaymentStatus?) ==>
              exists k :: && k in r.0.payments && r.0.payments[k].diagnostic == id
                          && r.0.payments[k].status == Pending
                          && r.0.payments[k].provider == PaymentProviderParam(choice)
                          && forall k' :: k' in r.0.payments && r.0.payments[k'].diagnostic == id ==> k' == k
  {
    var r := CreateDiagnostic(s, user, id, choice, gw);
    if r.1.ToCheckout? || r.1.ToPaymentStatus? {
      var k :| k !in s.payments && r.0.payments == s.payments[k := NewPayment(user, id, PaymentProviderParam(choice))];
      assert r.0.payments[k].diagnostic == id;
    }
  }
}

=== FILE: pipeline.dfy ===
/**
 * The paid-diagnostic pipeline as one state machine over the store: a
 * diagnostic is created with its payment, confirmed by a webhook, answered
 * bloc by bloc, scored, and reported on. The invariant: a diagnostic past
 * `pending_payment` has a confirmed payment, and a report exists only for a
 * completed diagnostic.
 *
 * Step runs the corrected report job and results page (see Report);
 * StepAsWritten runs them as written, and keeps the payment half of the
 * invariant only.
 */
module Pipeline {
  import opened Wrappers
  import opened Collections
  import opened Questions
  import opened Profiles
  import opened Records
  import opened Scoring
  import opened Questionnaire
  import opened Payments
  import opened Webhooks
  import opened Report

  /** The content the pipeline reads and never writes. */
  datatype World = World(bank: seq<Question>, catalog: Catalog, trajectories: seq<Trajectory>)

  /** One request, callback or job run. */
  datatype Event =
    | Create(user: UserId, id: Id, choice: Option<string>, gateways: Gateways)
    | StripeWebhook(event: StripeEvent, at: Time)
    | PawapayWebhook(payload: PawapayPayload, at: Time)
    | Submit(user: UserId, id: Id, bloc: Option<int>, submitted: map<string, string>,
             ids: seq<QuestionId>, sorted: seq<string>, at: Time)
    | RunJob
    | ViewResults(user: UserId, id: Id)

  const Empty := Store(map[], map[], [])

  /** `set_diagnostic`: the user's own diagnostic, or nothing. */
  predicate Owns(s: Store, user: UserId, id: Id) {
    id in s.diagnostics && s.diagnostics[id].owner == user
  }

  /** The condition under which `SubmitBloc` may use the given orders. */
  predicate OrdersFit(w: World, d: Diagnostic, bloc: Option<int>, submitted: map<string, string>,
                      ids: seq<QuestionId>, sorted: seq<string>) {
    AdmitsQuestionnaire(d) && BlocNumber(bloc) >= 5 ==>
      ValidOrders(d.(answers := SubmittedAnswers(d, w.bank, bloc, submitted)), w.bank, ids, sorted)
  }

  /**
   * One step. A request for someone else's or a missing diagnostic changes
   * nothing; so does a creation under an id already in use, and a submission
   * whose orders are not ones the database and the sort could produce.
   */
  function Step(w: World, s: Store, e: Event): (r: Store)
    ensures e.Create? && !FreshId(s, e.id) ==> r == s
    ensures e.Submit? && !Owns(s, e.user, e.id) ==> r == s
    ensures e.ViewResults? && !Owns(s, e.user, e.id) ==> r == s
    ensures e.RunJob? && |s.jobs| == 0 ==> r == s
    ensures e.RunJob? && |s.jobs| > 0 ==> r.jobs == s.jobs[1..]
    ensures !e.RunJob? && !e.PawapayWebhook? ==> r.jobs == s.jobs
  {
    match e
    case Create(user, id, choice, gw) =>
      if FreshId(s, id) then CreateDiagnostic(s, user, id, choice, gw).0 else s
    case StripeWebhook(ev, at) => StripeHandle(s, ev, at).0
    case PawapayWebhook(payload, at) => PawapayHandle(s, payload, at).0
    case Submit(user, id, bloc, submitted, ids, sorted, at) =>
      if Owns(s, user, id) && OrdersFit(w, s.diagnostics[id], bloc, submitted, ids, sorted) then
        var r := SubmitBloc(s.diagnostics[id], w.bank, w.catalog, bloc, submitted, ids, sorted, at);
        s.(diagnostics := s.diagnostics[id := r.diagnostic])
      else s
    case RunJob =>
      if |s.jobs| == 0 then s
      else PerformJobCorrected(s.(jobs := s.jobs[1..]), s.jobs[0], w.trajectories)
    case ViewResults(user, id) =>
      if Owns(s, user, id) && AdmitsResults(s.diagnostics[id]) then
        s.(diagnostics := s.diagnostics[id := ResultsViewCorrected(s.diagnostics[id], w.trajectories)])
      else s
  }

  function Run(w: World, s: Store, events: seq<Event>): Store
    decreases |events|
  {
    if |events| == 0 then s else Run(w, Step(w, s, events[0]), events[1..])
  }

  /** A step with the report job and the results page as written; every other event as in Step. */
  function StepAsWritten(w: World, s: Store, e: Event): Store {
    match e
    case RunJob =>
      if |s.jobs| == 0 then s
      else PerformJob(s.(jobs := s.jobs[1..]), s.jobs[0], w.trajectories)
    case ViewResults(user, id) =>
      if Owns(s, user, id) && AdmitsResults(s.diagnostics[id]) then
        s.(diagnostics := s.diagnostics[id := ResultsView(s.diagnostics[id], w.trajectories)])
      else s
    case _ => Step(w, s, e)
  }

  function RunAsWritten(w: World, s: Store, events: seq<Event>): Store
    decreases |events|
  {
    if |events| == 0 then s else RunAsWritten(w, StepAsWritten(w, s, events[0]), events[1..])
  }

  // ------------------------------------------------------------ invariant

  predicate PaidBeforeUse(s: Store) {
    forall id :: id in s.diagnostics && s.diagnostics[id].status != PendingPayment ==> PaidFor(s, id)
  }

  predicate PaymentsHaveDiagnostics(s: Store) {
    forall k :: k in s.payments ==> s.payments[k].diagnostic in s.diagnostics
  }

  /** `has_one :payment`: no diagnostic has two payments. */
  predicate OnePaymentEach(s: Store) {
    forall k1, k2 :: k1 in s.payments && k2 in s.payments && s.payments[k1].diagnostic == s.payments[k2].diagnostic ==> k1 == k2
  }

  predicate ReportsWhenCompleted(s: Store) {
    forall id :: id in s.diagnostics ==>
      && (s.diagnostics[id].pdfGenerated ==> s.diagnostics[id].status == Completed)
      && (s.diagnostics[id].report.Some? <==> s.diagnostics[id].pdfGenerated)
  }

  /** The payment half of the invariant. */
  predicate PaymentInv(s: Store) {
    PaidBeforeUse(s) && PaymentsHaveDiagnostics(s) && OnePaymentEach(s)
  }

  predicate Inv(s: Store) {
    PaymentInv(s) && ReportsWhenCompleted(s)
  }

  /** `r` keeps the payment half, and the report half when `s` had it. */
  predicate KeepsInv(s: Store, r: Store) {
    PaymentInv(r) && (ReportsWhenCompleted(s) ==> ReportsWhenCompleted(r))
  }

  lemma InvEmpty()
    ensures Inv(Empty)
  {
  }

  /** The diagnostic of an unconfirmed payment is still waiting for payment. */
  lemma UnconfirmedMeansPending(s: Store, ppid: string)
    requires PaymentInv(s) && ppid in s.payments && s.payments[ppid].status != Confirmed
    ensures s.diagnostics[s.payments[ppid].diagnostic].status == PendingPayment
  {
    var id := s.payments[ppid].diagnostic;
    assert forall k :: k in s.payments && s.payments[k].diagnostic == id ==> k == ppid;
    assert !PaidFor(s, id);
  }

  /** Confirming the pending payment of a pending diagnostic keeps the invariant. */
  lemma InvConfirm(s: Store, ppid: string, now: Time, jobs: seq<Id>)
    requires PaymentInv(s) && ppid in s.payments && s.payments[ppid].status != Confirmed
    ensures s.payments[ppid].diagnostic in s.diagnostics
    ensures KeepsInv(s, Confirm(s, ppid, now).(jobs := jobs))
  {
    UnconfirmedMeansPending(s, ppid);
    var r := Confirm(s, ppid, now).(jobs := jobs);
    var id := s.payments[ppid].diagnostic;
    forall other | other in r.diagnostics && r.diagnostics[other].status != PendingPayment
      ensures PaidFor(r, other)
    {
      if other != id {
        var k :| k in s.payments && s.payments[k].diagnostic == other && s.payments[k].status == Confirmed;
        assert k != ppid;
        assert r.payments[k] == s.payments[k];
      }
    }
  }

  lemma InvFail(s: Store, ppid: string)
    requires PaymentInv(s) && ppid in s.payments && s.payments[ppid].status != Confirmed
    ensures KeepsInv(s, s.(payments := s.payments[ppid := s.payments[ppid].(status := Failed)]))
  {
    UnconfirmedMeansPending(s, ppid);
    var r := s.(payments := s.payments[ppid := s.payments[ppid].(status := Failed)]);
    forall id | id in r.diagnostics && r.diagnostics[id].status != PendingPayment
      ensures PaidFor(r, id)
    {
      var k :| k in s.payments && s.payments[k].diagnostic == id && s.payments[k].status == Confirmed;
      assert k != ppid;
      assert r.payments[k] == s.payments[k];
    }
  }

  lemma InvCreate(s: Store, user: UserId, id: Id, choice: Option<string>, gw: Gateways)
    requires PaymentInv(s) && FreshId(s, id)
    ensures KeepsInv(s, CreateDiagnostic(s, user, id, choice, gw).0)
  {
    var r := CreateDiagnostic(s, user, id, choice, gw);
    var provider := PaymentProviderParam(choice);
    var created := s.(diagnostics := s.diagnostics[id := NewDiagnostic(user, provider)]);
    InvAddDiagnostic(s, id, NewDiagnostic(user, provider));
    if r.1.ToCheckout? || r.1.ToPaymentStatus? {
      var k :| k !in s.payments && r.0.payments == s.payments[k := NewPayment(user, id, provider)];
      InvAddPayment(created, k, NewPayment(user, id, provider));
      assert r.0 == created.(payments := created.payments[k := NewPayment(user, id, provider)]);
    }
  }

  /** Adding a diagnostic under a fresh id, waiting for payment and without a report, keeps the invariant. */
  lemma InvAddDiagnostic(s: Store, id: Id, d: Diagnostic)
    requires PaymentInv(s) && FreshId(s, id)
    requires d.status == PendingPayment && !d.pdfGenerated && d.report.None?
    ensures KeepsInv(s, s.(diagnostics := s.diagnostics[id := d]))
    ensures forall k :: k in s.payments ==> s.payments[k].diagnostic != id
  {
    var r := s.(diagnostics := s.diagnostics[id := d]);
    forall i | i in r.diagnostics && r.diagnostics[i].status != PendingPayment
      ensures PaidFor(r, i)
    {
      assert PaidFor(s, i);
    }
  }

  /** Adding an unconfirmed payment for a diagnostic that has none keeps the invariant. */
  lemma InvAddPayment(s: Store, k: string, p: Payment)
    requires PaymentInv(s) && k !in s.payments
    requires p.diagnostic in s.diagnostics && p.status != Confirmed
    requires forall j :: j in s.payments ==> s.payments[j].diagnostic != p.diagnostic
    ensures KeepsInv(s, s.(payments := s.payments[k := p]))
  {
    var r := s.(payments := s.payments[k := p]);
    forall i | i in r.diagnostics && r.diagnostics[i].status != PendingPayment
      ensures PaidFor(r, i)
    {
      var j :| j in s.payments && s.payments[j].diagnostic == i && s.payments[j].status == Confirmed;
      assert r.payments[j] == s.payments[j];
    }
  }

  lemma InvStripe(s: Store, ev: StripeEvent, at: Time)
    requires PaymentInv(s)
    ensures KeepsInv(s, StripeHandle(s, ev, at).0)
  {
    var r := StripeHandle(s, ev, at);
    if r.1 == Processed {
      InvConfirm(s, ev.session.value.id.value, at, s.jobs);
      assert Confirm(s, ev.session.value.id.value, at).(jobs := s.jobs) == r.0;
    }
  }

  lemma InvPawapay(s: Store, payload: PawapayPayload, at: Time)
    requires PaymentInv(s)
    ensures KeepsInv(s, PawapayHandle(s, payload, at).0)
  {
    var r := PawapayHandle(s, payload, at);
    if r.1 == Processed {
      var ppid := payload.depositId.value;
      if payload.status == Some("COMPLETED") {
        InvConfirm(s, ppid, at, s.jobs + [s.payments[ppid].diagnostic]);
      } else {
        InvFail(s, ppid);
      }
    }
  }

  lemma InvSubmit(w: World, s: Store, user: UserId, id: Id, bloc: Option<int>, submitted: map<string, string>,
                  ids: seq<QuestionId>, sorted: seq<string>, at: Time)
    requires PaymentInv(s)
    ensures KeepsInv(s, Step(w, s, Submit(user, id, bloc, submitted, ids, sorted, at)))
  {
    if Owns(s, user, id) && OrdersFit(w, s.diagnostics[id], bloc, submitted, ids, sorted) {
      var d := s.diagnostics[id];
      var next := SubmitBloc(d, w.bank, w.catalog, bloc, submitted, ids, sorted, at).diagnostic;
      SubmitKeepsReport(w, d, bloc, submitted, ids, sorted, at);
      InvUpdate(s, id, next, s.jobs);
      assert Step(w, s, Submit(user, id, bloc, submitted, ids, sorted, at)) == Store(s.diagnostics[id := next], s.payments, s.jobs);
    }
  }

  lemma SubmitKeepsReport(w: World, d: Diagnostic, bloc: Option<int>, submitted: map<string, string>,
                          ids: seq<QuestionId>, sorted: seq<string>, at: Time)
    requires OrdersFit(w, d, bloc, submitted, ids, sorted)
    ensures var next := SubmitBloc(d, w.bank, w.catalog, bloc, submitted, ids, sorted, at).diagnostic;
            && (d.status == PendingPayment ==> next == d)
            && (next.status != PendingPayment ==> d.status != PendingPayment)
            && next.pdfGenerated == d.pdfGenerated && next.report == d.report
            && (d.pdfGenerated ==> d.status == Completed ==> next.status == Completed)
  {
  }

  /**
   * Replacing one diagnostic keeps the payment half when it leaves "pending
   * payment" only if paid for, and the report half when its report is
   * consistent; the queue is free.
   */
  lemma InvUpdate(s: Store, id: Id, d: Diagnostic, jobs: seq<Id>)
    requires PaymentInv(s) && id in s.diagnostics
    requires d.status != PendingPayment ==> PaidFor(s, id)
    ensures PaymentInv(Store(s.diagnostics[id := d], s.payments, jobs))
    ensures ReportsWhenCompleted(s) && (d.pdfGenerated ==> d.status == Completed) && (d.report.Some? <==> d.pdfGenerated)
            ==> ReportsWhenCompleted(Store(s.diagnostics[id := d], s.payments, jobs))
  {
    var r := Store(s.diagnostics[id := d], s.payments, jobs);
    forall i | i in r.diagnostics && r.diagnostics[i].status != PendingPayment
      ensures PaidFor(r, i)
    {
      assert PaidFor(s, i);
    }
  }

  lemma InvJob(w: World, s: Store)
    requires PaymentInv(s)
    ensures KeepsInv(s, Step(w, s, RunJob))
  {
    if |s.jobs| > 0 {
      var id := s.jobs[0];
      if id in s.diagnostics && s.diagnostics[id].status == Completed && !s.diagnostics[id].pdfGenerated {
        InvUpdate(s, id, GenerateReport(s.diagnostics[id], w.trajectories), s.jobs[1..]);
      }
    }
  }

  lemma InvView(w: World, s: Store, user: UserId, id: Id)
    requires PaymentInv(s)
    ensures KeepsInv(s, Step(w, s, ViewResults(user, id)))
  {
    if Owns(s, user, id) && AdmitsResults(s.diagnostics[id]) {
      var d := s.diagnostics[id];
      InvUpdate(s, id, ResultsViewCorrected(d, w.trajectories), s.jobs);
    }
  }

  /** Every kind of step keeps the invariant. */
  lemma InvStep(w: World, s: Store, e: Event)
    requires Inv(s)
    ensures Inv(Step(w, s, e))
  {
    match e
    case Create(user, id, choice, gw) =>
      if FreshId(s, id) { InvCreate(s, user, id, choice, gw); }
    case StripeWebhook(ev, at) => InvStripe(s, ev, at);
    case PawapayWebhook(payload, at) => InvPawapay(s, payload, at);
    case Submit(user, id, bloc, submitted, ids, sorted, at) =>
      InvSubmit(w, s, user, id, bloc, submitted, ids, sorted, at);
    case RunJob => InvJob(w, s);
    case ViewResults(user, id) => InvView(w, s, user, id);
  }

  /** The report job as written keeps the payment half: it only writes a report. */
  lemma InvJobAsWritten(w: World, s: Store)
    requires PaymentInv(s)
    ensures PaymentInv(StepAsWritten(w, s, RunJob))
  {
    if |s.jobs| > 0 {
      var id := s.jobs[0];
      if id in s.diagnostics && !s.diagnostics[id].pdfGenerated {
        InvUpdate(s, id, GenerateReport(s.diagnostics[id], w.trajectories), s.jobs[1..]);
      }
    }
  }

  /** The results page as written keeps the payment half. */
  lemma InvViewAsWritten(w: World, s: Store, user: UserId, id: Id)
    requires PaymentInv(s)
    ensures PaymentInv(StepAsWritten(w, s, ViewResults(user, id)))
  {
    if Owns(s, user, id) && AdmitsResults(s.diagnostics[id]) {
      InvUpdate(s, id, ResultsView(s.diagnostics[id], w.trajectories), s.jobs);
    }
  }

  /** Every kind of step of the program as written keeps the payment half. */
  lemma InvStepAsWritten(w: World, s: Store, e: Event)
    requires PaymentInv(s)
    ensures PaymentInv(StepAsWritten(w, s, e))
  {
    match e
    case Create(user, id, choice, gw) =>
      if FreshId(s, id) { InvCreate(s, user, id, choice, gw); }
    case StripeWebhook(ev, at) => InvStripe(s, ev, at);
    case PawapayWebhook(payload, at) => InvPawapay(s, payload, at);
    case Submit(user, id, bloc, submitted, ids, sorted, at) =>
      InvSubmit(w, s, user, id, bloc, submitted, ids, sorted, at);
    case RunJob => InvJobAsWritten(w, s);
    case ViewResults(user, id) => InvViewAsWritten(w, s, user, id);
  }

  /**
   * With the report job and results page as written, from an empty database
   * and whatever happens: no diagnostic past `pending_payment` lacks a
   * confirmed payment, and no diagnostic has two payments.
   */
  lemma {:induction false} PaymentInvReachableAsWritten(w: World, s: Store, events: seq<Event>)
    requires PaymentInv(s)
    ensures PaymentInv(RunAsWritten(w, s, events))
    decreases |events|
  {
    if |events| > 0 {
      InvStepAsWritten(w, s, events[0]);
      PaymentInvReachableAsWritten(w, StepAsWritten(w, s, events[0]), events[1..]);
    }
  }

  /**
   * From an empty database, whatever happens: no diagnostic past
   * `pending_payment` lacks a confirmed payment, no diagnostic has two
   * payments, and no report exists for an unfinished diagnostic.
   */
  lemma {:induction false} InvReachable(w: World, s: Store, events: seq<Event>)
    requires Inv(s)
    ensures Inv(Run(w, s, events))
    decreases |events|
  {
    if |events| > 0 {
      InvStep(w, s, events[0]);
      InvReachable(w, Step(w, s, events[0]), events[1..]);
    }
  }

  /** Along the order pending_payment, paid, in_progress, completed. */
  function StatusRank(st: DiagnosticStatus): nat {
    StatusCode(st)
  }

  /** Under the invariant, no step moves a diagnostic back to an earlier status. */
  lemma StatusNeverRegresses(w: World, s: Store, e: Event, id: Id)
    requires Inv(s) && id in s.diagnostics
    ensures var r := Step(w, s, e);
            id in r.diagnostics ==> StatusRank(s.diagnostics[id].status) <= StatusRank(r.diagnostics[id].status)
  {
    match e {
      case StripeWebhook(ev, at) => StripeKeepsOrder(s, ev, at, id);
      case PawapayWebhook(payload, at) => PawapayKeepsOrder(s, payload, at, id);
      case Submit(user, i, bloc, submitted, ids, sorted, at) =>
        SubmitKeepsOrder(w, s, user, i, bloc, submitted, ids, sorted, at, id);
      case Create(user, i, choice, gw) => CreateKeepsOrder(s, user, i, choice, gw, id);
      case RunJob => JobKeepsOrder(w, s, id);
      case ViewResults(user, i) => ViewKeepsOrder(w, s, user, i, id);
    }
  }

  lemma CreateKeepsOrder(s: Store, user: UserId, i: Id, choice: Option<string>, gw: Gateways, id: Id)
    requires id in s.diagnostics
    ensures var r := if FreshId(s, i) then CreateDiagnostic(s, user, i, choice, gw).0 else s;
            id in r.diagnostics && r.diagnostics[id] == s.diagnostics[id]
  {
  }

  lemma JobKeepsOrder(w: World, s: Store, id: Id)
    requires id in s.diagnostics
    ensures var r := Step(w, s, RunJob);
            id in r.diagnostics && r.diagnostics[id].status == s.diagnostics[id].status
  {
  }

  lemma ViewKeepsOrder(w: World, s: Store, user: UserId, i: Id, id: Id)
    requires id in s.diagnostics
    ensures var r := Step(w, s, ViewResults(user, i));
            id in r.diagnostics && r.diagnostics[id].status == s.diagnostics[id].status
  {
  }

  lemma StripeKeepsOrder(s: Store, ev: StripeEvent, at: Time, id: Id)
    requires Inv(s) && id in s.diagnostics
    ensures var r := StripeHandle(s, ev, at).0;
            id in r.diagnostics && StatusRank(s.diagnostics[id].status) <= StatusRank(r.diagnostics[id].status)
  {
    var h := StripeHandle(s, ev, at);
    if h.1 == Processed {
      var ppid := ev.session.value.id.value;
      if s.payments[ppid].diagnostic == id {
        UnconfirmedMeansPending(s, ppid);
      }
    }
  }

  lemma PawapayKeepsOrder(s: Store, payload: PawapayPayload, at: Time, id: Id)
    requires Inv(s) && id in s.diagnostics
    ensures var r := PawapayHandle(s, payload, at).0;
            id in r.diagnostics && StatusRank(s.diagnostics[id].status) <= StatusRank(r.diagnostics[id].status)
  {
    var h := PawapayHandle(s, payload, at);
    if h.1 == Processed && payload.status == Some("COMPLETED") {
      var ppid := payload.depositId.value;
      if s.payments[ppid].diagnostic == id {
        UnconfirmedMeansPending(s, ppid);
      }
    }
  }

  lemma SubmitKeepsOrder(w: World, s: Store, user: UserId, i: Id, bloc: Option<int>, submitted: map<string, string>,
                         ids: seq<QuestionId>, sorted: seq<string>, at: Time, id: Id)
    requires id in s.diagnostics
    ensures var r := Step(w, s, Submit(user, i, bloc, submitted, ids, sorted, at));
            id in r.diagnostics && StatusRank(s.diagnostics[id].status) <= StatusRank(r.diagnostics[id].status)
  {
    if Owns(s, user, i) && OrdersFit(w, s.diagnostics[i], bloc, submitted, ids, sorted) && i == id {
      SubmitBlocAdvances(s.diagnostics[id], w.bank, w.catalog, bloc, submitted, ids, sorted, at);
    }
  }

  /** `submit_bloc` only moves a diagnostic forward. */
  lemma SubmitBlocAdvances(d: Diagnostic, bank: seq<Question>, catalog: Catalog, bloc: Option<int>,
                           submitted: map<string, string>, ids: seq<QuestionId>, sorted: seq<string>, at: Time)
    requires AdmitsQuestionnaire(d) && BlocNumber(bloc) >= 5 ==>
               ValidOrders(d.(answers := SubmittedAnswers(d, bank, bloc, submitted)), bank, ids, sorted)
    ensures StatusRank(d.status) <= StatusRank(SubmitBloc(d, bank, catalog, bloc, submitted, ids, sorted, at).diagnostic.status)
  {
  }

  // ------------------------------------------------------------- finding

  /**
   * As written: a pawaPay payment is confirmed, the job it enqueues runs
   * while the diagnostic is merely paid and draws a header-only report, and
   * once the questionnaire is scored the results page keeps that report,
   * even when scoring found a primary profile.
   */
  lemma PawapayReportIsStaleAsWritten(s: Store, ppid: string, at: Time, w: World,
                                      ids: seq<QuestionId>, sorted: seq<string>, now: Time)
    requires ppid in s.payments && s.payments[ppid].provider == Pawapay && s.payments[ppid].status == Pending
    requires s.payments[ppid].diagnostic in s.diagnostics
    requires var d := s.diagnostics[s.payments[ppid].diagnostic];
             d.primary.None? && d.complementary.None? && !d.pdfGenerated && d.provider == Some(Pawapay)
    ensures var id := s.payments[ppid].diagnostic;
            var paid := PawapayHandle(s, PawapayPayload(Some(ppid), Some("COMPLETED")), at).0;
            var reported := PerformJob(paid, id, w.trajectories);
            && paid.jobs == s.jobs + [id]
            && reported.diagnostics[id].status == Paid
            && reported.diagnostics[id].report == Some([Header])
            && (ValidOrders(reported.diagnostics[id], w.bank, ids, sorted) ==>
                  var scored := ScoreDiagnostic(reported.diagnostics[id], w.bank, w.catalog, ids, sorted, now);
                  ResultsView(scored, w.trajectories).report == Some([Header]))
  {
    var id := s.payments[ppid].diagnostic;
    var paid := PawapayHandle(s, PawapayPayload(Some(ppid), Some("COMPLETED")), at).0;
    ReportWithoutProfilesIsHeaderOnly(paid.diagnostics[id], w.trajectories);
  }

  /**
   * Corrected: the job leaves a diagnostic that is merely paid alone, and the
   * results page of a scored diagnostic draws a report that names its primary
   * profile, whichever provider it was paid with.
   */
  lemma CorrectedReportFollowsScoring(s: Store, id: Id, w: World, d: Diagnostic)
    requires id in s.diagnostics && s.diagnostics[id].status == Paid
    requires d.status == Completed && !d.pdfGenerated && d.primary.Some?
    ensures PerformJobCorrected(s, id, w.trajectories) == s
    ensures var r := ResultsViewCorrected(d, w.trajectories).report;
            r.Some? && |r.value| >= 2 && r.value[1].PrimarySection? && r.value[1].name == d.primary.value.name
  {
    ReportNamesPrimary(d, w.trajectories);
  }
}

=== FILE: profiles.dfy ===
/**
 * The Profile model (a scoring outcome, looked up by its unique slug) and the
 * Trajectory records attached to it.
 */
module Profiles {
  import opened Wrappers
  import opened Text

  /** `axe_1`..`axe_3` are nullable text columns. */
  datatype Trajectory = Trajectory(
    id: nat,
    profileId: nat,
    active: bool,
    axe1: Option<string>,
    axe2: Option<string>,
    axe3: Option<string>)

  datatype Profile = Profile(
    id: nat,
    name: string,
    slug: string,
    description: Option<string>,
    keySkills: seq<string>,
    firstAction: Option<string>,
    premiumPitch: Option<string>)

  /** The profiles table, keyed by slug (the unique index on `slug`). */
  type Catalog = map<string, Profile>

  /** The presence validations on `name` and `slug`. */
  predicate ValidProfile(p: Profile) {
    !Blank(p.name) && !Blank(p.slug)
  }

  predicate WellFormedCatalog(c: Catalog) {
    forall s :: s in c ==> c[s].slug == s && ValidProfile(c[s])
  }

  datatype SaveResult = Saved(catalog: Catalog) | Invalid

  /** `Profile.create`: rejected when a validation fails, including a taken slug. */
  function CreateProfile(c: Catalog, p: Profile): (r: SaveResult)
    ensures r.Saved? <==> ValidProfile(p) && p.slug !in c
    ensures r.Saved? ==> r.catalog.Keys == c.Keys + {p.slug} && r.catalog[p.slug] == p
    ensures r.Saved? ==> forall s :: s in c ==> r.catalog[s] == c[s]
    ensures r.Saved? && WellFormedCatalog(c) ==> WellFormedCatalog(r.catalog)
  {
    if ValidProfile(p) && p.slug !in c then Saved(c[p.slug := p]) else Invalid
  }

  /** `Profile.find_by(slug: slug)`; `nil` for a missing slug or a missing profile. */
  function FindBySlug(c: Catalog, slug: Option<string>): (r: Option<Profile>)
    ensures r.Some? <==> slug.Some? && slug.value in c
    ensures r.Some? && WellFormedCatalog(c) ==> r.value.slug == slug.value
  {
    if slug.Some? && slug.value in c then Some(c[slug.value]) else None
  }

  /**
   * `trajectories.active.last`: the relation has no explicit order, so `last`
   * orders by primary key and takes the greatest id among the profile's
   * active trajectories.
   */
  function ActiveTrajectory(trajectories: seq<Trajectory>, profileId: nat): (r: Option<Trajectory>)
    ensures r.Some? ==> r.value in trajectories && r.value.profileId == profileId && r.value.active
    ensures r.Some? ==> forall t :: t in trajectories && t.profileId == profileId && t.active ==> t.id <= r.value.id
    ensures r.None? <==> forall t :: t in trajectories ==> !(t.profileId == profileId && t.active)
  {
    if |trajectories| == 0 then None
    else
      var rest := ActiveTrajectory(trajectories[1..], profileId);
      var t := trajectories[0];
      assert forall u :: u in trajectories ==> u == t || u in trajectories[1..];
      if !(t.profileId == profileId && t.active) then rest
      else if rest.Some? && rest.value.id >= t.id then rest
      else Some(t)
  }
}

=== FILE: questionnaire.dfy ===
/**
 * The questionnaire side of DiagnosticsController: the paid/completed gates,
 * the bloc routing, and `submit_bloc`, which records the answers of one bloc
 * and hands the diagnostic to scoring after the fifth.
 */
module Questionnaire {
  import opened Wrappers
  import opened Collections
  import opened Text
  import opened Questions
  import opened Profiles
  import opened Records
  import opened Scoring

  /** Where a request ends up. */
  datatype Redirect =
    | ToNewDiagnostic
    | ToQuestionnaire(bloc: Option<int>)
    | ToResults
    | ToRoot

  /** `require_paid!`: the questionnaire is open once the diagnostic has left `pending_payment`. */
  predicate AdmitsQuestionnaire(d: Diagnostic) {
    d.status == Paid || d.status == InProgress || d.status == Completed
  }

  /** `require_completed!`: results, PDF status and download need a completed diagnostic. */
  predicate AdmitsResults(d: Diagnostic) {
    d.status == Completed
  }

  lemma GatesByStatus(d: Diagnostic)
    ensures AdmitsQuestionnaire(d) <==> d.status != PendingPayment
    ensures AdmitsResults(d) ==> AdmitsQuestionnaire(d)
  {
  }

  /** `show`: sends the owner to the step the status calls for. */
  function ShowRoute(d: Diagnostic): (r: Redirect)
    ensures r == ToResults <==> AdmitsResults(d)
    ensures r == ToQuestionnaire(None) <==> AdmitsQuestionnaire(d) && !AdmitsResults(d)
    ensures r == ToNewDiagnostic <==> !AdmitsQuestionnaire(d)
  {
    match d.status
    case Paid => ToQuestionnaire(None)
    case InProgress => ToQuestionnaire(None)
    case Completed => ToResults
    case PendingPayment => ToNewDiagnostic
  }

  /** `(params[:bloc] || 1).to_i.clamp(1, 5)`: the bloc the questionnaire page shows. */
  function CurrentBloc(bloc: Option<int>): (b: int)
    ensures 1 <= b <= 5
    ensures bloc.None? ==> b == 1
    ensures bloc.Some? && 1 <= bloc.value <= 5 ==> b == bloc.value
    ensures bloc.Some? && bloc.value < 1 ==> b == 1
    ensures bloc.Some? && bloc.value > 5 ==> b == 5
  {
    var n := bloc.GetOr(1);
    if n < 1 then 1 else if n > 5 then 5 else n
  }

  /** `params[:bloc].to_i` in `submit_bloc`: unclamped, and a missing parameter is 0. */
  function BlocNumber(bloc: Option<int>): (b: int)
    ensures bloc.None? ==> b == 0
    ensures bloc.Some? ==> b == bloc.value
  {
    ToI(bloc)
  }

  /** The questions the questionnaire page lists. */
  function QuestionnairePage(bank: seq<Question>, bloc: Option<int>): (r: seq<Question>)
    ensures forall q :: q in r <==> q in bank && q.active && q.bloc == CurrentBloc(bloc)
    ensures SortedBy(r, Position)
  {
    ActiveByBloc(bank, CurrentBloc(bloc))
  }

  /**
   * The submitted answer for `q` counts: present, not blank, and equal to
   * one of the question's option values.
   */
  predicate Accepts(q: Question, submitted: map<string, string>) {
    q.id in submitted && !Blank(submitted[q.id]) && FindOption(q.options, submitted[q.id]).Some?
  }

  /** The answer `find_or_create_by!` creates: the value, and the option's slug and points. */
  function NewAnswer(q: Question, submitted: map<string, string>): (a: Answer)
    requires Accepts(q, submitted)
    ensures a.value == submitted[q.id]
    ensures exists o :: o in q.options && o.value == a.value && a.dimension == o.profileSlug && a.points == ToI(o.points)
  {
    var o := FindOption(q.options, submitted[q.id]).value;
    Answer(submitted[q.id], o.profileSlug, ToI(o.points))
  }

  /**
   * The loop of `submit_bloc`: each accepted question gets an answer unless
   * it already has one; an existing answer is never overwritten.
   */
  function RecordAnswers(answers: map<QuestionId, Answer>, qs: seq<Question>, submitted: map<string, string>)
    : (r: map<QuestionId, Answer>)
    ensures RecordedFrom(answers, qs, submitted, r)
    ensures forall k :: k in answers ==> k in r && r[k] == answers[k]
    ensures forall i :: 0 <= i < |qs| && Accepts(qs[i], submitted) ==> qs[i].id in r
    ensures forall k :: k in r && k !in answers ==>
              exists i :: 0 <= i < |qs| && qs[i].id == k && Accepts(qs[i], submitted)
                          && r[k] == NewAnswer(qs[i], submitted)
    decreases |qs|
  {
    if |qs| == 0 then answers
    else
      var next := RecordOne(answers, qs[0], submitted);
      var r := RecordAnswers(next, qs[1..], submitted);
      RecordStep(answers, qs, submitted, next, r);
      r
  }

  /** One pass of the loop: `find_or_create_by!` for an accepted question. */
  function RecordOne(answers: map<QuestionId, Answer>, q: Question, submitted: map<string, string>)
    : (r: map<QuestionId, Answer>)
    ensures forall k :: k in answers ==> k in r && r[k] == answers[k]
    ensures Accepts(q, submitted) ==> q.id in r
    ensures forall k :: k in r && k !in answers ==> k == q.id && Accepts(q, submitted) && r[k] == NewAnswer(q, submitted)
  {
    if Accepts(q, submitted) && q.id !in answers then answers[q.id := NewAnswer(q, submitted)] else answers
  }

  /** `r` extends `answers` with exactly an answer for each accepted question of `qs` that had none. */
  predicate RecordedFrom(answers: map<QuestionId, Answer>, qs: seq<Question>, submitted: map<string, string>,
                        r: map<QuestionId, Answer>)
  {
    && (forall k :: k in answers ==> k in r && r[k] == answers[k])
    && (forall i :: 0 <= i < |qs| && Accepts(qs[i], submitted) ==> qs[i].id in r)
    && (forall k :: k in r && k !in answers ==>
          exists i :: 0 <= i < |qs| && qs[i].id == k && Accepts(qs[i], submitted)
                      && r[k] == NewAnswer(qs[i], submitted))
  }

  lemma RecordStep(answers: map<QuestionId, Answer>, qs: seq<Question>, submitted: map<string, string>,
                   next: map<QuestionId, Answer>, r: map<QuestionId, Answer>)
    requires |qs| > 0 && next == RecordOne(answers, qs[0], submitted)
    requires RecordedFrom(next, qs[1..], submitted, r)
    ensures RecordedFrom(answers, qs, submitted, r)
  {
    forall i | 0 <= i < |qs| && Accepts(qs[i], submitted) ensures qs[i].id in r {
      AcceptedStep(answers, qs, submitted, next, r, i);
    }
    forall k | k in r && k !in answers
      ensures exists i :: 0 <= i < |qs| && qs[i].id == k && Accepts(qs[i], submitted)
                          && r[k] == NewAnswer(qs[i], submitted)
    {
      NewKeyStep(answers, qs, submitted, next, r, k);
    }
  }

  lemma AcceptedStep(answers: map<QuestionId, Answer>, qs: seq<Question>, submitted: map<string, string>,
                     next: map<QuestionId, Answer>, r: map<QuestionId, Answer>, i: int)
    requires |qs| > 0 && next == RecordOne(answers, qs[0], submitted)
    requires forall k :: k in next ==> k in r
    requires forall j :: 0 <= j < |qs[1..]| && Accepts(qs[1..][j], submitted) ==> qs[1..][j].id in r
    requires 0 <= i < |qs| && Accepts(qs[i], submitted)
    ensures qs[i].id in r
  {
    if i > 0 {
      assert qs[i] == qs[1..][i - 1];
    }
  }

  lemma NewKeyStep(answers: map<QuestionId, Answer>, qs: seq<Question>, submitted: map<string, string>,
                   next: map<QuestionId, Answer>, r: map<QuestionId, Answer>, k: QuestionId)
    requires |qs| > 0 && next == RecordOne(answers, qs[0], submitted)
    requires forall k :: k in next ==> k in r && r[k] == next[k]
    requires forall k :: k in r && k !in next ==>
               exists i :: 0 <= i < |qs[1..]| && qs[1..][i].id == k && Accepts(qs[1..][i], submitted)
                           && r[k] == NewAnswer(qs[1..][i], submitted)
    requires k in r && k !in answers
    ensures exists i :: 0 <= i < |qs| && qs[i].id == k && Accepts(qs[i], submitted)
                        && r[k] == NewAnswer(qs[i], submitted)
  {
    if k in next {
      assert Accepts(qs[0], submitted) && k == qs[0].id && r[k] == NewAnswer(qs[0], submitted);
    } else {
      var i :| 0 <= i < |qs[1..]| && qs[1..][i].id == k && Accepts(qs[1..][i], submitted)
               && r[k] == NewAnswer(qs[1..][i], submitted);
      assert qs[i + 1] == qs[1..][i];
    }
  }

  /** Sending the same bloc twice records nothing the second time. */
  lemma {:induction false} ResubmitIsNoOp(answers: map<QuestionId, Answer>, qs: seq<Question>,
                                          submitted: map<string, string>)
    ensures var once := RecordAnswers(answers, qs, submitted);
            RecordAnswers(once, qs, submitted) == once
  {
    var once := RecordAnswers(answers, qs, submitted);
    RecordKeepsCovered(once, qs, submitted);
  }

  /** When every accepted question already has an answer, recording changes nothing. */
  lemma {:induction false} RecordKeepsCovered(answers: map<QuestionId, Answer>, qs: seq<Question>,
                                              submitted: map<string, string>)
    requires forall i :: 0 <= i < |qs| && Accepts(qs[i], submitted) ==> qs[i].id in answers
    ensures RecordAnswers(answers, qs, submitted) == answers
    decreases |qs|
  {
    if |qs| > 0 {
      RecordKeepsCovered(answers, qs[1..], submitted);
    }
  }

  /** The answers `submit_bloc` stores for bloc `bloc`. */
  function SubmittedAnswers(d: Diagnostic, bank: seq<Question>, bloc: Option<int>, submitted: map<string, string>)
    : map<QuestionId, Answer>
  {
    RecordAnswers(d.answers, ActiveByBloc(bank, BlocNumber(bloc)), submitted)
  }

  /** What a submission leaves behind. */
  datatype Submission = Submission(diagnostic: Diagnostic, redirect: Redirect)

  /**
   * `submit_bloc`, behind `require_paid!`. The answers are recorded, a paid
   * diagnostic moves to `in_progress`, and a bloc number of 5 or more runs
   * scoring; otherwise the owner is sent to the next bloc. `ids` and `sorted`
   * are the orders scoring reads the answers and ranks the totals in.
   */
  function SubmitBloc(d: Diagnostic, bank: seq<Question>, catalog: Catalog, bloc: Option<int>,
                      submitted: map<string, string>, ids: seq<QuestionId>, sorted: seq<string>, now: Time)
    : (r: Submission)
    requires AdmitsQuestionnaire(d) && BlocNumber(bloc) >= 5 ==>
               ValidOrders(d.(answers := SubmittedAnswers(d, bank, bloc, submitted)), bank, ids, sorted)
    ensures !AdmitsQuestionnaire(d) ==> r == Submission(d, ToNewDiagnostic)
    ensures AdmitsQuestionnaire(d) ==> r.diagnostic.answers == SubmittedAnswers(d, bank, bloc, submitted)
    ensures AdmitsQuestionnaire(d) && BlocNumber(bloc) >= 5 ==>
              r.redirect == ToResults && r.diagnostic.status == Completed && r.diagnostic.completedAt == Some(now)
    ensures AdmitsQuestionnaire(d) && BlocNumber(bloc) >= 5 ==>
              var rows := AnswerRows(r.diagnostic.answers, bank, ids);
              var picks := DeterminePicks(rows, sorted);
              && r.diagnostic.scoreData == Scores(rows)
              && (r.diagnostic.primary.Some? <==> picks.primary.Some? && picks.primary.value in catalog)
              && (r.diagnostic.primary.Some? ==> r.diagnostic.primary.value == catalog[picks.primary.value])
              && (r.diagnostic.complementary.Some? <==>
                    picks.complementary.Some? && picks.complementary.value in catalog)
              && (r.diagnostic.complementary.Some? ==>
                    r.diagnostic.complementary.value == catalog[picks.complementary.value])
              && r.diagnostic.owner == d.owner && r.diagnostic.provider == d.provider
              && r.diagnostic.report == d.report && r.diagnostic.pdfGenerated == d.pdfGenerated
              && r.diagnostic.paidAt == d.paidAt
    ensures AdmitsQuestionnaire(d) && BlocNumber(bloc) < 5 ==>
              && r.redirect == ToQuestionnaire(Some(BlocNumber(bloc) + 1))
              && r.diagnostic.status == (if d.status == Paid then InProgress else d.status)
              && r.diagnostic == d.(answers := r.diagnostic.answers, status := r.diagnostic.status)
  {
    if !AdmitsQuestionnaire(d) then Submission(d, ToNewDiagnostic)
    else
      var recorded := d.(answers := SubmittedAnswers(d, bank, bloc, submitted));
      var started := if recorded.status == Paid then recorded.(status := InProgress) else recorded;
      if BlocNumber(bloc) >= 5 then
        Submission(ScoreDiagnostic(started, bank, catalog, ids, sorted, now), ToResults)
      else
        Submission(started, ToQuestionnaire(Some(BlocNumber(bloc) + 1)))
  }

  /**
   * A bloc number past 5 selects no question of validated content, so
   * nothing is recorded, yet the diagnostic is scored and completed.
   */
  lemma BlocPastFiveCompletesWithoutAnswers(d: Diagnostic, bank: seq<Question>, catalog: Catalog, n: int,
                                            submitted: map<string, string>, ids: seq<QuestionId>,
                                            sorted: seq<string>, now: Time)
    requires forall q :: q in bank ==> ValidQuestion(q)
    requires AdmitsQuestionnaire(d) && n > 5
    requires ValidOrders(d, bank, ids, sorted)
    ensures SubmittedAnswers(d, bank, Some(n), submitted) == d.answers
    ensures var r := SubmitBloc(d, bank, catalog, Some(n), submitted, ids, sorted, now);
            r.diagnostic.answers == d.answers && r.diagnostic.status == Completed
  {
    NoQuestionsOutsideBlocs(bank, n);
  }

  /** A completed diagnostic stays completed whatever bloc is submitted again. */
  lemma CompletedStaysCompleted(d: Diagnostic, bank: seq<Question>, catalog: Catalog, bloc: Option<int>,
                                submitted: map<string, string>, ids: seq<QuestionId>, sorted: seq<string>, now: Time)
    requires d.status == Completed
    requires BlocNumber(bloc) >= 5 ==>
               ValidOrders(d.(answers := SubmittedAnswers(d, bank, bloc, submitted)), bank, ids, sorted)
    ensures SubmitBloc(d, bank, catalog, bloc, submitted, ids, sorted, now).diagnostic.status == Completed
  {
  }
}

=== FILE: questions.dfy ===
/**
 * The Question model: questionnaire content grouped into five blocs, each
 * question with an ordered list of answer options.
 */
module Questions {
  import opened Wrappers
  import opened Text
  import opened Collections

  type QuestionId = string

  /**
   * One entry of the `options` JSON array: `"value"`, `"profile_slug"`
   * (the scoring dimension, possibly null) and `"points"` (possibly null).
   */
  datatype AnswerOption = AnswerOption(value: string, profileSlug: Option<string>, points: Option<int>)

  datatype Question = Question(
    id: QuestionId,
    bloc: int,
    text: string,
    kind: string,
    options: seq<AnswerOption>,
    scored: bool,
    position: int,
    active: bool)

  const Kinds: set<string> := {"likert", "mcq"}

  /** The model validations; `position` is a non-null integer column, so always present. */
  predicate ValidQuestion(q: Question) {
    && 1 <= q.bloc <= 5
    && !Blank(q.text)
    && q.kind in Kinds
  }

  /** Question ids are primary keys. */
  predicate DistinctIds(bank: seq<Question>) {
    forall i, j :: 0 <= i < j < |bank| ==> bank[i].id != bank[j].id
  }

  /** `nil.to_i` is 0. */
  function ToI(n: Option<int>): int {
    n.GetOr(0)
  }

  function Position(q: Question): int {
    q.position
  }

  /** Scope `active`. */
  function Active(bank: seq<Question>): (r: seq<Question>)
    ensures forall q :: q in r <==> q in bank && q.active
    ensures |r| <= |bank|
  {
    Filter(bank, (q: Question) => q.active)
  }

  /** Scope `scored`. */
  function Scored(bank: seq<Question>): (r: seq<Question>)
    ensures forall q :: q in r <==> q in bank && q.scored
    ensures |r| <= |bank|
  {
    Filter(bank, (q: Question) => q.scored)
  }

  /** Scope `by_bloc(b)`: the questions of bloc `b` ordered by ascending position. */
  function ByBloc(bank: seq<Question>, b: int): (r: seq<Question>)
    ensures forall q :: q in r <==> q in bank && q.bloc == b
    ensures SortedBy(r, Position)
    ensures multiset(r) == multiset(Filter(bank, (q: Question) => q.bloc == b))
  {
    var selected := Filter(bank, (q: Question) => q.bloc == b);
    var r := SortBy(selected, Position);
    assert forall q :: q in r <==> q in multiset(selected);
    r
  }

  /** `Question.active.by_bloc(b)`, the questions shown and accepted for bloc `b`. */
  function ActiveByBloc(bank: seq<Question>, b: int): (r: seq<Question>)
    ensures forall q :: q in r <==> q in bank && q.active && q.bloc == b
    ensures SortedBy(r, Position)
  {
    ByBloc(Active(bank), b)
  }

  /** With validated content, a bloc number outside 1..5 selects no question at all. */
  lemma NoQuestionsOutsideBlocs(bank: seq<Question>, b: int)
    requires forall q :: q in bank ==> ValidQuestion(q)
    requires b < 1 || b > 5
    ensures ActiveByBloc(bank, b) == []
  {
  }

  /** `options.find { |o| o["value"] == value }`: the first option with that exact value. */
  function FindOption(options: seq<AnswerOption>, v: string): (r: Option<AnswerOption>)
    ensures r.Some? ==> r.value in options && r.value.value == v
    ensures r.None? <==> forall o :: o in options ==> o.value != v
    ensures r.Some? ==> exists i :: 0 <= i < |options| && options[i] == r.value
                                && forall j :: 0 <= j < i ==> options[j].value != v
  {
    if |options| == 0 then None
    else if options[0].value == v then Some(options[0])
    else
      var r := FindOption(options[1..], v);
      assert r.Some? ==> exists i :: 0 <= i < |options[1..]| && options[1..][i] == r.value
                                && forall j :: 0 <= j < i ==> options[1..][j].value != v;
      r
  }

  /** The bank entry with id `id` (a primary-key lookup). */
  function FindQuestion(bank: seq<Question>, id: QuestionId): (r: Option<Question>)
    ensures r.Some? ==> r.value in bank && r.value.id == id
    ensures r.None? <==> forall q :: q in bank ==> q.id != id
  {
    if |bank| == 0 then None
    else if bank[0].id == id then Some(bank[0])
    else FindQuestion(bank[1..], id)
  }
}

=== FILE: records.dfy ===
/**
 * The persisted state of the paid-diagnostic pipeline: diagnostics (with their
 * answers), payments, and the background job queue.
 */
module Records {
  import opened Wrappers
  import opened Questions
  import opened Profiles

  type Id = nat
  type UserId = nat
  /** An abstract clock reading (`Time.current`). */
  type Time = int

  datatype DiagnosticStatus = PendingPayment | Paid | InProgress | Completed
  datatype Provider = Stripe | Pawapay
  datatype PaymentStatus = Pending | Confirmed | Failed

  /** The integer stored for each status; it also orders the lifecycle. */
  function StatusCode(s: DiagnosticStatus): nat {
    match s
    case PendingPayment => 0
    case Paid => 1
    case InProgress => 2
    case Completed => 3
  }

  /** Reading the stored integer back. */
  function StatusOfCode(n: int): (r: Option<DiagnosticStatus>)
    ensures r.Some? <==> 0 <= n <= 3
    ensures r.Some? ==> StatusCode(r.value) == n
  {
    if n == 0 then Some(PendingPayment)
    else if n == 1 then Some(Paid)
    else if n == 2 then Some(InProgress)
    else if n == 3 then Some(Completed)
    else None
  }

  lemma StatusCodeRoundTrip(s: DiagnosticStatus)
    ensures StatusOfCode(StatusCode(s)) == Some(s)
  {
  }

  function ProviderCode(p: Provider): nat {
    match p
    case Stripe => 0
    case Pawapay => 1
  }

  function ProviderOfCode(n: int): (r: Option<Provider>)
    ensures r.Some? <==> 0 <= n <= 1
    ensures r.Some? ==> ProviderCode(r.value) == n
  {
    if n == 0 then Some(Stripe) else if n == 1 then Some(Pawapay) else None
  }

  function PaymentStatusCode(s: PaymentStatus): nat {
    match s
    case Pending => 0
    case Confirmed => 1
    case Failed => 2
  }

  function PaymentStatusOfCode(n: int): (r: Option<PaymentStatus>)
    ensures r.Some? <==> 0 <= n <= 2
    ensures r.Some? ==> PaymentStatusCode(r.value) == n
  {
    if n == 0 then Some(Pending) else if n == 1 then Some(Confirmed) else if n == 2 then Some(Failed) else None
  }

  /** A diagnostic answer: the raw value, the dimension and points copied at answer time. */
  datatype Answer = Answer(value: string, dimension: Option<string>, points: int)

  /** One section of the report's outline, in the order the report draws them. */
  datatype Section =
    | Header
    | PrimarySection(name: string, score: int, description: string)
    | ComplementarySection(name: string, score: int)
    | AxesSection(axes: seq<string>)
    | SkillsSection(bullets: seq<string>)
    | ActionSection(text: string)
    | UpsellSection(text: string)

  /**
   * A diagnostic. Its answers live inside it, keyed by question id (the
   * unique index on (diagnostic, question)), so destroying it destroys them.
   * The profile references hold the Profile rows they point to; `report` is
   * the outline of the attached PDF.
   */
  datatype Diagnostic = Diagnostic(
    owner: UserId,
    status: DiagnosticStatus,
    provider: Option<Provider>,
    primary: Option<Profile>,
    complementary: Option<Profile>,
    scoreData: map<string, int>,
    answers: map<QuestionId, Answer>,
    pdfGenerated: bool,
    report: Option<seq<Section>>,
    paidAt: Option<Time>,
    completedAt: Option<Time>)

  /** A payment; its `provider_payment_id` is its key in `Store.payments`. */
  datatype Payment = Payment(
    user: UserId,
    diagnostic: Id,
    provider: Provider,
    status: PaymentStatus,
    amountCents: int,
    currency: string,
    webhookConfirmedAt: Option<Time>)

  /**
   * The database: diagnostics by id, payments by their (unique, non-null)
   * provider payment id, and the queue of pending report jobs (diagnostic ids).
   */
  datatype Store = Store(
    diagnostics: map<Id, Diagnostic>,
    payments: map<string, Payment>,
    jobs: seq<Id>)

  const DefaultAmountCents := 300000
  const DefaultCurrency := "XOF"

  /** A freshly created diagnostic, with the column defaults. */
  function NewDiagnostic(owner: UserId, provider: Provider): Diagnostic {
    Diagnostic(owner, PendingPayment, Some(provider), None, None, map[], map[], false, None, None, None)
  }

  /** A freshly created payment, with the column defaults for amount and currency. */
  function NewPayment(user: UserId, diagnostic: Id, provider: Provider): Payment {
    Payment(user, diagnostic, provider, Pending, DefaultAmountCents, DefaultCurrency, None)
  }

  /** The diagnostic has a confirmed payment. */
  predicate PaidFor(s: Store, id: Id) {
    exists k :: k in s.payments && s.payments[k].diagnostic == id && s.payments[k].status == Confirmed
  }

  /** `id` is new: no diagnostic has it and no payment refers to it. */
  predicate FreshId(s: Store, id: Id) {
    id !in s.diagnostics && forall k :: k in s.payments ==> s.payments[k].diagnostic != id
  }

  /** `diagnostic.destroy`: its answers go with it, and so does its payment. */
  function DestroyDiagnostic(s: Store, id: Id): (r: Store)
    ensures r.diagnostics == s.diagnostics - {id}
    ensures forall k :: k in r.payments <==> k in s.payments && s.payments[k].diagnostic != id
    ensures forall k :: k in r.payments ==> r.payments[k] == s.payments[k]
    ensures r.jobs == s.jobs
  {
    Store(s.diagnostics - {id},
          map k | k in s.payments && s.payments[k].diagnostic != id :: s.payments[k],
          s.jobs)
  }

  /**
   * `Payment.find_by(provider_payment_id: ppid, provider: provider)`. Every
   * modelled payment has a provider payment id, so a `nil` id finds nothing.
   */
  function FindPayment(s: Store, ppid: Option<string>, provider: Provider): (r: Option<string>)
    ensures r.Some? <==> ppid.Some? && ppid.value in s.payments && s.payments[ppid.value].provider == provider
    ensures r.Some? ==> r.value == ppid.value
  {
    if ppid.Some? && ppid.value in s.payments && s.payments[ppid.value].provider == provider
    then Some(ppid.value) else None
  }
}

=== FILE: report.dfy ===
/**
 * The PDF report (Diagnostics::GeneratePdfService) as an outline of sections,
 * the background job that generates it, and the results page that generates
 * it on the spot. Layout, fonts and the rendered bytes are not modelled.
 *
 * The job and the results page are modelled twice: as written, and
 * corrected so that a report is only ever drawn from a completed diagnostic.
 */
module Report {
  import opened Wrappers
  import opened Text
  import opened Profiles
  import opened Records

  /** The position of each kind of section in the report. */
  function Rank(s: Section): nat {
    match s
    case Header => 0
    case PrimarySection(_, _, _) => 1
    case ComplementarySection(_, _) => 2
    case AxesSection(_) => 3
    case SkillsSection(_) => 4
    case ActionSection(_) => 5
    case UpsellSection(_) => 6
  }

  /** `score_data[slug].to_i`: a dimension without a total shows 0. */
  function ScoreOf(scores: map<string, int>, slug: string): (n: int)
    ensures slug in scores ==> n == scores[slug]
    ensures slug !in scores ==> n == 0
  {
    if slug in scores then scores[slug] else 0
  }

  /** The three strategic axes of a trajectory, nil shown as the empty string. */
  function Axes(t: Trajectory): (axes: seq<string>)
    ensures |axes| == 3
    ensures axes[0] == ToS(t.axe1) && axes[1] == ToS(t.axe2) && axes[2] == ToS(t.axe3)
  {
    [ToS(t.axe1), ToS(t.axe2), ToS(t.axe3)]
  }

  /** The sections that are present among `candidates`, in order. */
  function Present(candidates: seq<Option<Section>>): (r: seq<Section>)
    ensures forall x :: x in r <==> Some(x) in candidates
  {
    if |candidates| == 0 then []
    else (if candidates[0].Some? then [candidates[0].value] else []) + Present(candidates[1..])
  }

  /** When the candidate at position `i` has rank `base + i`, the present ones come out in increasing rank. */
  lemma {:induction false} PresentIsRanked(candidates: seq<Option<Section>>, base: nat)
    requires forall i :: 0 <= i < |candidates| && candidates[i].Some? ==> Rank(candidates[i].value) == base + i
    ensures forall i :: 0 <= i < |Present(candidates)| ==> base + i <= Rank(Present(candidates)[i])
    ensures forall i, j :: 0 <= i < j < |Present(candidates)| ==>
              Rank(Present(candidates)[i]) < Rank(Present(candidates)[j])
    decreases |candidates|
  {
    if |candidates| > 0 {
      var rest := candidates[1..];
      PresentIsRanked(rest, base + 1);
      var r := Present(candidates);
      if candidates[0].Some? {
        ConsRanked(candidates[0].value, Present(rest), base);
      } else {
        assert r == Present(rest);
      }
    }
  }

  /** A section of rank `base` in front of sections ranked above `base` keeps the ranks increasing. */
  lemma ConsRanked(x: Section, rest: seq<Section>, base: nat)
    requires Rank(x) == base
    requires forall i :: 0 <= i < |rest| ==> base + 1 + i <= Rank(rest[i])
    requires forall i, j :: 0 <= i < j < |rest| ==> Rank(rest[i]) < Rank(rest[j])
    ensures var r := [x] + rest;
            && (forall i :: 0 <= i < |r| ==> base + i <= Rank(r[i]))
            && (forall i, j :: 0 <= i < j < |r| ==> Rank(r[i]) < Rank(r[j]))
  {
    var r := [x] + rest;
    forall i, j | 0 <= i < j < |r|
      ensures Rank(r[i]) < Rank(r[j])
    {
      assert r[j] == rest[j - 1];
      if i > 0 {
        assert r[i] == rest[i - 1];
      }
    }
  }

  /** The seven sections `build` may draw, each present or not, by rank. */
  function Candidates(d: Diagnostic, trajectories: seq<Trajectory>): seq<Option<Section>> {
    seq(7, i => CandidateAt(d, trajectories, i))
  }

  /** The candidate of rank `i`. */
  function CandidateAt(d: Diagnostic, trajectories: seq<Trajectory>, i: int): Option<Section> {
    if i == 0 then Some(Header)
    else if i == 1 then PrimaryCandidate(d)
    else if i == 2 then ComplementaryCandidate(d)
    else if i == 3 then AxesCandidate(d, trajectories)
    else if i == 4 then SkillsCandidate(d)
    else if i == 5 then ActionCandidate(d)
    else if i == 6 then UpsellCandidate(d)
    else None
  }

  function PrimaryCandidate(d: Diagnostic): Option<Section> {
    var p := d.primary;
    if p.Some? then Some(PrimarySection(p.value.name, ScoreOf(d.scoreData, p.value.slug), ToS(p.value.description))) else None
  }

  function ComplementaryCandidate(d: Diagnostic): Option<Section> {
    var c := d.complementary;
    if c.Some? then Some(ComplementarySection(c.value.name, ScoreOf(d.scoreData, c.value.slug))) else None
  }

  function AxesCandidate(d: Diagnostic, trajectories: seq<Trajectory>): Option<Section> {
    var t := if d.primary.Some? then ActiveTrajectory(trajectories, d.primary.value.id) else None;
    if t.Some? then Some(AxesSection(Axes(t.value))) else None
  }

  function SkillsCandidate(d: Diagnostic): Option<Section> {
    var p := d.primary;
    if p.Some? && |p.value.keySkills| > 0 then Some(SkillsSection(p.value.keySkills)) else None
  }

  function ActionCandidate(d: Diagnostic): Option<Section> {
    var p := d.primary;
    if p.Some? && p.value.firstAction.Some? then Some(ActionSection(p.value.firstAction.value)) else None
  }

  function UpsellCandidate(d: Diagnostic): Option<Section> {
    var p := d.primary;
    if p.Some? && p.value.premiumPitch.Some? then Some(UpsellSection(p.value.premiumPitch.value)) else None
  }

  /**
   * The sections `build` draws, in order. Every section past the header
   * needs the primary profile, except the complementary one; the axes need
   * the primary profile's active trajectory, the skills a non-empty list,
   * and the action and upsell texts need only be present (an empty text
   * still draws its section).
   */
  function Outline(d: Diagnostic, trajectories: seq<Trajectory>): (r: seq<Section>)
    ensures |r| >= 1 && r[0] == Header
    ensures forall i :: 0 <= i < |r| ==> i <= Rank(r[i])
    ensures forall i, j :: 0 <= i < j < |r| ==> Rank(r[i]) < Rank(r[j])
    ensures forall x :: x in r <==> Some(x) in Candidates(d, trajectories)
  {
    var cands := Candidates(d, trajectories);
    PresentIsRanked(cands, 0);
    assert Present(cands) == [Header] + Present(cands[1..]);
    Present(cands)
  }

  /** The candidate at each position has the rank of that position. */
  predicate Ranked(candidates: seq<Option<Section>>) {
    forall i :: 0 <= i < |candidates| && candidates[i].Some? ==> Rank(candidates[i].value) == i
  }

  /** Among ranked candidates, a section can only sit at the position of its rank. */
  lemma AtRank(candidates: seq<Option<Section>>, x: Section)
    requires Ranked(candidates)
    ensures Some(x) in candidates <==> Rank(x) < |candidates| && candidates[Rank(x)] == Some(x)
  {
    if Some(x) in candidates {
      var i :| 0 <= i < |candidates| && candidates[i] == Some(x);
    }
  }

  /** A section is in the report exactly when it is the candidate at its rank. */
  lemma InOutlineAt(d: Diagnostic, trajectories: seq<Trajectory>, x: Section)
    ensures x in Outline(d, trajectories) <==> CandidateAt(d, trajectories, Rank(x)) == Some(x)
  {
    CandidatesRanked(d, trajectories);
    AtRank(Candidates(d, trajectories), x);
  }

  lemma CandidatesRanked(d: Diagnostic, trajectories: seq<Trajectory>)
    ensures |Candidates(d, trajectories)| == 7 && Ranked(Candidates(d, trajectories))
  {
  }

  /** The profile sections: the primary with its total and description, the complementary with its total. */
  lemma OutlineProfiles(d: Diagnostic, trajectories: seq<Trajectory>)
    ensures var r := Outline(d, trajectories);
            forall n, sc, desc :: PrimarySection(n, sc, desc) in r <==>
              d.primary.Some? && n == d.primary.value.name
              && sc == ScoreOf(d.scoreData, d.primary.value.slug) && desc == ToS(d.primary.value.description)
    ensures var r := Outline(d, trajectories);
            forall n, sc :: ComplementarySection(n, sc) in r <==>
              d.complementary.Some? && n == d.complementary.value.name
              && sc == ScoreOf(d.scoreData, d.complementary.value.slug)
  {
    forall n, sc, desc
      ensures PrimarySection(n, sc, desc) in Outline(d, trajectories) <==>
              PrimaryCandidate(d) == Some(PrimarySection(n, sc, desc))
    {
      InOutlineAt(d, trajectories, PrimarySection(n, sc, desc));
    }
    forall n, sc
      ensures ComplementarySection(n, sc) in Outline(d, trajectories) <==>
              ComplementaryCandidate(d) == Some(ComplementarySection(n, sc))
    {
      InOutlineAt(d, trajectories, ComplementarySection(n, sc));
    }
  }

  /**
   * The guidance sections, all drawn from the primary profile: the axes of
   * its active trajectory, its key skills when there are any, its first
   * action and its premium pitch when present.
   */
  lemma OutlineGuidance(d: Diagnostic, trajectories: seq<Trajectory>)
    ensures var r := Outline(d, trajectories);
            forall axes :: AxesSection(axes) in r <==>
              d.primary.Some? && ActiveTrajectory(trajectories, d.primary.value.id).Some?
              && axes == Axes(ActiveTrajectory(trajectories, d.primary.value.id).value)
    ensures var r := Outline(d, trajectories);
            forall bullets :: SkillsSection(bullets) in r <==>
              d.primary.Some? && |d.primary.value.keySkills| > 0 && bullets == d.primary.value.keySkills
    ensures var r := Outline(d, trajectories);
            forall text :: ActionSection(text) in r <==> d.primary.Some? && d.primary.value.firstAction == Some(text)
    ensures var r := Outline(d, trajectories);
            forall text :: UpsellSection(text) in r <==> d.primary.Some? && d.primary.value.premiumPitch == Some(text)
  {
    OutlineAxes(d, trajectories);
    OutlineSkills(d, trajectories);
    OutlineTexts(d, trajectories);
  }

  lemma OutlineAxes(d: Diagnostic, trajectories: seq<Trajectory>)
    ensures var r := Outline(d, trajectories);
            forall axes :: AxesSection(axes) in r <==>
              d.primary.Some? && ActiveTrajectory(trajectories, d.primary.value.id).Some?
              && axes == Axes(ActiveTrajectory(trajectories, d.primary.value.id).value)
  {
    forall axes ensures AxesSection(axes) in Outline(d, trajectories) <==> AxesCandidate(d, trajectories) == Some(AxesSection(axes)) {
      InOutlineAt(d, trajectories, AxesSection(axes));
    }
  }

  lemma OutlineSkills(d: Diagnostic, trajectories: seq<Trajectory>)
    ensures var r := Outline(d, trajectories);
            forall bullets :: SkillsSection(bullets) in r <==>
              d.primary.Some? && |d.primary.value.keySkills| > 0 && bullets == d.primary.value.keySkills
  {
    forall bullets
      ensures SkillsSection(bullets) in Outline(d, trajectories) <==> SkillsCandidate(d) == Some(SkillsSection(bullets))
    {
      InOutlineAt(d, trajectories, SkillsSection(bullets));
    }
  }

  lemma OutlineTexts(d: Diagnostic, trajectories: seq<Trajectory>)
    ensures var r := Outline(d, trajectories);
            forall text :: ActionSection(text) in r <==> d.primary.Some? && d.primary.value.firstAction == Some(text)
    ensures var r := Outline(d, trajectories);
            forall text :: UpsellSection(text) in r <==> d.primary.Some? && d.primary.value.premiumPitch == Some(text)
  {
    OutlineAction(d, trajectories);
    OutlineUpsell(d, trajectories);
  }

  lemma OutlineAction(d: Diagnostic, trajectories: seq<Trajectory>)
    ensures forall text :: ActionSection(text) in Outline(d, trajectories) <==> ActionCandidate(d) == Some(ActionSection(text))
  {
    forall text
      ensures ActionSection(text) in Outline(d, trajectories) <==> ActionCandidate(d) == Some(ActionSection(text))
    {
      InOutlineAt(d, trajectories, ActionSection(text));
    }
  }

  lemma OutlineUpsell(d: Diagnostic, trajectories: seq<Trajectory>)
    ensures forall text :: UpsellSection(text) in Outline(d, trajectories) <==> UpsellCandidate(d) == Some(UpsellSection(text))
  {
    forall text
      ensures UpsellSection(text) in Outline(d, trajectories) <==> UpsellCandidate(d) == Some(UpsellSection(text))
    {
      InOutlineAt(d, trajectories, UpsellSection(text));
    }
  }

  /** With no primary profile the report is the header, followed by the complementary profile if there is one. */
  lemma OutlineWithoutPrimary(d: Diagnostic, trajectories: seq<Trajectory>)
    requires d.primary.None?
    ensures d.complementary.None? ==> Outline(d, trajectories) == [Header]
    ensures d.complementary.Some? ==>
              Outline(d, trajectories) == [Header, ComplementarySection(d.complementary.value.name,
                                                                        ScoreOf(d.scoreData, d.complementary.value.slug))]
  {
    var cands := Candidates(d, trajectories);
    var tail := cands[3..];
    assert |tail| == 4 && forall i :: 0 <= i < |tail| ==> tail[i].None?;
    assert Present(tail[3..][1..]) == [];
    assert Present(tail[3..]) == [];
    assert Present(tail[2..]) == [];
    assert Present(tail[1..]) == [];
    assert Present(tail) == [];
    assert cands[1..][1..] == cands[2..] && cands[2..][1..] == tail;
    assert Present(cands[1..]) == Present(cands[2..]);
  }

  /** `GeneratePdfService.call`: attaches the report and sets `pdf_generated`. */
  function GenerateReport(d: Diagnostic, trajectories: seq<Trajectory>): (r: Diagnostic)
    ensures r.pdfGenerated && r.report == Some(Outline(d, trajectories))
    ensures r == d.(pdfGenerated := true, report := r.report)
  {
    d.(pdfGenerated := true, report := Some(Outline(d, trajectories)))
  }

  /** The report of a diagnostic with no profile yet is the header alone. */
  lemma ReportWithoutProfilesIsHeaderOnly(d: Diagnostic, trajectories: seq<Trajectory>)
    requires d.primary.None? && d.complementary.None?
    ensures GenerateReport(d, trajectories).report == Some([Header])
  {
    OutlineWithoutPrimary(d, trajectories);
  }

  /** A scored diagnostic with a primary profile gets a report that names it. */
  lemma ReportNamesPrimary(d: Diagnostic, trajectories: seq<Trajectory>)
    requires d.primary.Some?
    ensures var r := GenerateReport(d, trajectories).report.value;
            |r| >= 2 && r[1] == PrimarySection(d.primary.value.name, ScoreOf(d.scoreData, d.primary.value.slug),
                                              ToS(d.primary.value.description))
  {
    var r := Outline(d, trajectories);
    var s := PrimarySection(d.primary.value.name, ScoreOf(d.scoreData, d.primary.value.slug), ToS(d.primary.value.description));
    InOutlineAt(d, trajectories, s);
    var k :| 0 <= k < |r| && r[k] == s;
    assert k <= Rank(r[k]) == 1;
    assert k != 0;
  }

  // ------------------------------------------------------------ as written

  /**
   * `GeneratePdfJob#perform` as written: skips a missing diagnostic or one
   * whose report exists, and otherwise generates the report whatever the
   * diagnostic's status.
   */
  function PerformJob(s: Store, id: Id, trajectories: seq<Trajectory>): (r: Store)
    ensures id !in s.diagnostics || s.diagnostics[id].pdfGenerated ==> r == s
    ensures id in s.diagnostics && !s.diagnostics[id].pdfGenerated ==>
              r == s.(diagnostics := s.diagnostics[id := GenerateReport(s.diagnostics[id], trajectories)])
  {
    if id !in s.diagnostics || s.diagnostics[id].pdfGenerated then s
    else s.(diagnostics := s.diagnostics[id := GenerateReport(s.diagnostics[id], trajectories)])
  }

  /**
   * The `results` action as written (behind `require_completed!`): a Stripe
   * diagnostic without a report gets one now; a pawaPay one is left to the job.
   */
  function ResultsView(d: Diagnostic, trajectories: seq<Trajectory>): (r: Diagnostic)
    requires d.status == Completed
    ensures d.provider == Some(Stripe) && !d.pdfGenerated ==> r == GenerateReport(d, trajectories)
    ensures d.provider != Some(Stripe) || d.pdfGenerated ==> r == d
  {
    if d.provider == Some(Stripe) && !d.pdfGenerated then GenerateReport(d, trajectories) else d
  }

  // ------------------------------------------------------------- corrected

  /** The job, corrected: it also waits for the diagnostic to be completed. */
  function PerformJobCorrected(s: Store, id: Id, trajectories: seq<Trajectory>): (r: Store)
    ensures id in s.diagnostics && s.diagnostics[id].status == Completed && !s.diagnostics[id].pdfGenerated ==>
              r == s.(diagnostics := s.diagnostics[id := GenerateReport(s.diagnostics[id], trajectories)])
    ensures !(id in s.diagnostics && s.diagnostics[id].status == Completed && !s.diagnostics[id].pdfGenerated) ==> r == s
  {
    if id in s.diagnostics && s.diagnostics[id].status == Completed then PerformJob(s, id, trajectories) else s
  }

  /** The results page, corrected: any completed diagnostic without a report gets one, whatever its provider. */
  function ResultsViewCorrected(d: Diagnostic, trajectories: seq<Trajectory>): (r: Diagnostic)
    requires d.status == Completed
    ensures r.pdfGenerated && r.status == Completed
    ensures !d.pdfGenerated ==> r == GenerateReport(d, trajectories)
    ensures d.pdfGenerated ==> r == d
  {
    if !d.pdfGenerated then GenerateReport(d, trajectories) else d
  }

  /** Running the corrected job twice is running it once. */
  lemma JobIsIdempotent(s: Store, id: Id, trajectories: seq<Trajectory>)
    ensures var once := PerformJobCorrected(s, id, trajectories);
            PerformJobCorrected(once, id, trajectories) == once
  {
  }

  /** Neither version of the job touches payments, the queue, or other diagnostics. */
  lemma JobFrame(s: Store, id: Id, trajectories: seq<Trajectory>)
    ensures var r := PerformJob(s, id, trajectories);
            r.payments == s.payments && r.jobs == s.jobs && r.diagnostics.Keys == s.diagnostics.Keys
            && forall k :: k in s.diagnostics && k != id ==> r.diagnostics[k] == s.diagnostics[k]
    ensures var r := PerformJobCorrected(s, id, trajectories);
            r.payments == s.payments && r.jobs == s.jobs && r.diagnostics.Keys == s.diagnostics.Keys
            && forall k :: k in s.diagnostics && k != id ==> r.diagnostics[k] == s.diagnostics[k]
  {
  }
}

=== FILE: roadmaps.dfy ===
/**
 * Roadmaps (an ordered list of steps, linked to career fields): the step
 * validations and navigation, the nested-step form rules, and the field-link
 * synchronisation of the admin controller. Ids are UUID strings.
 */
module Roadmaps {
  import opened Wrappers
  import opened Collections
  import opened Text

  type RoadmapId = string
  type FieldId = string
  type StepId = string

  datatype RoadmapStep = RoadmapStep(
    id: StepId,
    roadmap: RoadmapId,
    title: Option<string>,
    objective: Option<string>,
    skills: Option<string>,
    activities: Option<string>,
    order: Option<int>)

  /** `order` as a sort key; only meaningful for valid steps, which all have one. */
  function OrderOf(s: RoadmapStep): int {
    s.order.GetOr(0)
  }

  /** The presence validations on title, objective and order. */
  predicate ValidStep(s: RoadmapStep) {
    !BlankOpt(s.title) && !BlankOpt(s.objective) && s.order.Some?
  }

  /** `order` is unique within a roadmap (validation and unique index). */
  predicate UniqueOrders(steps: seq<RoadmapStep>) {
    forall i, j ::
      0 <= i < |steps| && 0 <= j < |steps| && steps[i].roadmap == steps[j].roadmap && steps[i].order == steps[j].order
      ==> i == j
  }

  /** The step rows as the database holds them: valid, distinct ids, unique orders per roadmap. */
  predicate WellFormedSteps(steps: seq<RoadmapStep>) {
    && (forall i :: 0 <= i < |steps| ==> ValidStep(steps[i]))
    && DistinctIds(steps)
    && UniqueOrders(steps)
  }

  /** No two rows share an id (the primary key). */
  predicate DistinctIds(steps: seq<RoadmapStep>) {
    forall i, j :: 0 <= i < j < |steps| ==> steps[i].id != steps[j].id
  }

  /** Scope `ordered`: ascending `order`. */
  function Ordered(steps: seq<RoadmapStep>): (r: seq<RoadmapStep>)
    ensures SortedBy(r, OrderOf) && multiset(r) == multiset(steps)
  {
    SortBy(steps, OrderOf)
  }

  /** The first element of a list sorted by `key` has the least key of all. */
  lemma SortedHeadIsLeast<T>(s: seq<T>, key: T -> int, pool: seq<T>)
    requires SortedBy(s, key) && multiset(s) == multiset(pool) && |s| > 0
    ensures forall t :: t in pool ==> key(s[0]) <= key(t)
  {
    forall t | t in pool
      ensures key(s[0]) <= key(t)
    {
      assert t in multiset(s);
      var k :| 0 <= k < |s| && s[k] == t;
    }
  }

  predicate Later(s: RoadmapStep, t: RoadmapStep) {
    t.roadmap == s.roadmap && OrderOf(t) > OrderOf(s)
  }

  predicate Earlier(s: RoadmapStep, t: RoadmapStep) {
    t.roadmap == s.roadmap && OrderOf(t) < OrderOf(s)
  }

  function NegatedOrder(s: RoadmapStep): int {
    -OrderOf(s)
  }

  /**
   * `next_step` as intended: among the step's siblings with a greater order,
   * the one with the least order.
   */
  function NextStep(steps: seq<RoadmapStep>, s: RoadmapStep): (r: Option<RoadmapStep>)
    ensures r.Some? ==> r.value in steps && Later(s, r.value) && r.value != s
    ensures r.Some? ==> forall t :: t in steps && Later(s, t) ==> OrderOf(r.value) <= OrderOf(t)
    ensures r.None? <==> forall t :: t in steps ==> !Later(s, t)
  {
    var later := Filter(steps, (t: RoadmapStep) => Later(s, t));
    if |later| == 0 then None
    else
      var sorted := Ordered(later);
      SortedHeadIsLeast(sorted, OrderOf, later);
      assert sorted[0] in multiset(later);
      Some(sorted[0])
  }

  /**
   * `previous_step` as intended: among the step's siblings with a smaller
   * order, the one with the greatest order.
   */
  function PreviousStep(steps: seq<RoadmapStep>, s: RoadmapStep): (r: Option<RoadmapStep>)
    ensures r.Some? ==> r.value in steps && Earlier(s, r.value) && r.value != s
    ensures r.Some? ==> forall t :: t in steps && Earlier(s, t) ==> OrderOf(t) <= OrderOf(r.value)
    ensures r.None? <==> forall t :: t in steps ==> !Earlier(s, t)
  {
    var earlier := Filter(steps, (t: RoadmapStep) => Earlier(s, t));
    if |earlier| == 0 then None
    else
      var sorted := SortBy(earlier, NegatedOrder);
      SortedHeadIsLeast(sorted, NegatedOrder, earlier);
      assert sorted[0] in multiset(earlier);
      Some(sorted[0])
  }

  /** Next and previous are inverse: the step after `s` has `s` just before it. */
  lemma NextThenPrevious(steps: seq<RoadmapStep>, s: RoadmapStep)
    requires WellFormedSteps(steps) && s in steps
    requires NextStep(steps, s).Some?
    ensures PreviousStep(steps, NextStep(steps, s).value) == Some(s)
  {
    var n := NextStep(steps, s).value;
    assert Earlier(n, s);
    var p := PreviousStep(steps, n).value;
    assert OrderOf(s) <= OrderOf(p);
    assert !Later(s, p);
    SameOrderSameStep(steps, s, p);
  }

  /** Within one roadmap, a valid step is identified by its order. */
  lemma SameOrderSameStep(steps: seq<RoadmapStep>, s: RoadmapStep, t: RoadmapStep)
    requires WellFormedSteps(steps) && s in steps && t in steps
    requires s.roadmap == t.roadmap && OrderOf(s) == OrderOf(t)
    ensures s == t
  {
    var i :| 0 <= i < |steps| && steps[i] == s;
    var j :| 0 <= j < |steps| && steps[j] == t;
    assert ValidStep(steps[i]) && ValidStep(steps[j]);
  }

  // -------------------------------------------------------- the SQL as written

  /** The outcome of running a query. */
  datatype Query<T> = Rows(value: T) | StatementInvalid

  /** SQL key words PostgreSQL reserves (the ones relevant here). */
  const Reserved: set<string> := {"order", "group", "select", "from", "where"}

  /** The characters of a condition fragment up to its first space. */
  function LeadingWord(fragment: string): (w: string)
    ensures |w| <= |fragment| && w == fragment[..|w|]
    ensures ' ' !in w
    ensures |fragment| > 0 && fragment[0] != ' ' ==> |w| > 0 && w[0] == fragment[0]
  {
    if |fragment| == 0 || fragment[0] == ' ' then ""
    else [fragment[0]] + LeadingWord(fragment[1..])
  }

  /** A `where` fragment that starts with a bare reserved word does not parse. */
  predicate Parses(fragment: string) {
    LeadingWord(fragment) !in Reserved
  }

  const NextCondition := "order > ?"
  const PreviousCondition := "order < ?"
  const QuotedNextCondition := "\"order\" > ?"
  const QuotedPreviousCondition := "\"order\" < ?"

  /** `next_step` as written: the unquoted `order` makes the database reject the query. */
  function NextStepAsWritten(steps: seq<RoadmapStep>, s: RoadmapStep): (r: Query<Option<RoadmapStep>>)
    ensures Parses(NextCondition) ==> r == Rows(NextStep(steps, s))
    ensures !Parses(NextCondition) ==> r == StatementInvalid
  {
    if Parses(NextCondition) then Rows(NextStep(steps, s)) else StatementInvalid
  }

  function PreviousStepAsWritten(steps: seq<RoadmapStep>, s: RoadmapStep): (r: Query<Option<RoadmapStep>>)
    ensures Parses(PreviousCondition) ==> r == Rows(PreviousStep(steps, s))
    ensures !Parses(PreviousCondition) ==> r == StatementInvalid
  {
    if Parses(PreviousCondition) then Rows(PreviousStep(steps, s)) else StatementInvalid
  }

  /** Every call of the methods as written fails, even when a neighbour exists. */
  lemma NavigationAsWrittenFails(steps: seq<RoadmapStep>, s: RoadmapStep)
    ensures NextStepAsWritten(steps, s) == StatementInvalid
    ensures PreviousStepAsWritten(steps, s) == StatementInvalid
  {
    assert LeadingWord(NextCondition) == "order" by {
      assert NextCondition == "order" + " > ?";
      LeadingWordOfWord("order", " > ?");
    }
    assert LeadingWord(PreviousCondition) == "order" by {
      assert PreviousCondition == "order" + " < ?";
      LeadingWordOfWord("order", " < ?");
    }
  }

  lemma {:induction false} LeadingWordOfWord(w: string, rest: string)
    requires ' ' !in w && |rest| > 0 && rest[0] == ' '
    ensures LeadingWord(w + rest) == w
  {
    if |w| == 0 {
      assert w + rest == rest;
    } else {
      assert (w + rest)[1..] == w[1..] + rest;
      LeadingWordOfWord(w[1..], rest);
      assert w == [w[0]] + w[1..];
    }
  }

  /** `next_step` with the column name quoted, which the model uses. */
  function NextStepCorrected(steps: seq<RoadmapStep>, s: RoadmapStep): (r: Query<Option<RoadmapStep>>)
    ensures r == Rows(NextStep(steps, s))
  {
    QuotedParses();
    if Parses(QuotedNextCondition) then Rows(NextStep(steps, s)) else StatementInvalid
  }

  function PreviousStepCorrected(steps: seq<RoadmapStep>, s: RoadmapStep): (r: Query<Option<RoadmapStep>>)
    ensures r == Rows(PreviousStep(steps, s))
  {
    QuotedParses();
    if Parses(QuotedPreviousCondition) then Rows(PreviousStep(steps, s)) else StatementInvalid
  }

  /** A quoted identifier is no key word. */
  lemma QuotedParses()
    ensures Parses(QuotedNextCondition) && Parses(QuotedPreviousCondition)
  {
    assert forall x :: x in Reserved ==> |x| > 0 && x[0] != '"';
    assert QuotedNextCondition[0] == '"' && QuotedPreviousCondition[0] == '"';
  }

  // ---------------------------------------------------------- nested steps

  /** One entry of `roadmap_steps_attributes`. */
  datatype StepAttrs = StepAttrs(
    id: Option<StepId>,
    title: Option<string>,
    objective: Option<string>,
    skills: Option<string>,
    activities: Option<string>,
    order: Option<int>,
    destroy: bool)

  /** The `reject_if` of `accepts_nested_attributes_for`: all four text fields blank. */
  predicate RejectStepAttrs(a: StepAttrs) {
    BlankOpt(a.title) && BlankOpt(a.objective) && BlankOpt(a.skills) && BlankOpt(a.activities)
  }

  function StepFrom(a: StepAttrs, id: StepId, roadmap: RoadmapId): RoadmapStep {
    RoadmapStep(id, roadmap, a.title, a.objective, a.skills, a.activities, a.order)
  }

  /** A rejected entry would not have been a valid step anyway: the blank-form row is dropped silently. */
  lemma RejectedIsInvalid(a: StepAttrs, id: StepId, roadmap: RoadmapId)
    requires RejectStepAttrs(a)
    ensures !ValidStep(StepFrom(a, id, roadmap))
  {
  }

  /** But not every invalid entry is rejected: a row with only skills filled in reaches validation and fails it. */
  lemma NotEveryInvalidEntryIsRejected()
    ensures var a := StepAttrs(None, None, None, Some("SQL"), None, Some(1), false);
            !RejectStepAttrs(a) && !ValidStep(StepFrom(a, "s", "r"))
  {
    var a := StepAttrs(None, None, None, Some("SQL"), None, Some(1), false);
    assert !Blank("SQL") by { assert !IsSpace("SQL"[0]); }
  }

  /** `id` names one of `steps`. */
  predicate Names(steps: seq<RoadmapStep>, id: StepId) {
    exists t :: t in steps && t.id == id
  }

  /**
   * One nested entry applied to the roadmap's own steps. A new entry (no id)
   * is skipped when it carries `_destroy` or is rejected, and built
   * otherwise. An existing one is removed when `_destroy` is set (the reject
   * rule does not apply then), left alone when rejected, and otherwise given
   * the submitted attributes. Ids are looked up among the `stored` steps,
   * fetched once before any entry applies: an id that is not one of them
   * raises (`None`), and an entry naming a step an earlier entry destroyed
   * finds it and leaves it destroyed. `newId` is the id a built step gets.
   */
  function ApplyEntry(stored: seq<RoadmapStep>, steps: seq<RoadmapStep>, roadmap: RoadmapId, a: StepAttrs,
                      newId: StepId)
    : (r: Option<seq<RoadmapStep>>)
    ensures r.None? <==> a.id.Some? && !Names(stored, a.id.value)
    ensures a.id.None? && (a.destroy || RejectStepAttrs(a)) ==> r == Some(steps)
    ensures a.id.None? && !a.destroy && !RejectStepAttrs(a) ==> r == Some(steps + [StepFrom(a, newId, roadmap)])
    ensures r.Some? && a.id.Some? && a.destroy ==>
              forall t :: t in r.value <==> t in steps && t.id != a.id.value
    ensures r.Some? && a.id.Some? && !a.destroy && RejectStepAttrs(a) ==> r.value == steps
    ensures r.Some? && a.id.Some? && !a.destroy && !RejectStepAttrs(a) ==>
              |r.value| == |steps| &&
              forall i :: 0 <= i < |steps| ==>
                r.value[i] == if steps[i].id == a.id.value then StepFrom(a, a.id.value, steps[i].roadmap) else steps[i]
  {
    match a.id
    case None =>
      if a.destroy || RejectStepAttrs(a) then Some(steps) else Some(steps + [StepFrom(a, newId, roadmap)])
    case Some(id) =>
      if !Names(stored, id) then None
      else if a.destroy then Some(Filter(steps, (t: RoadmapStep) => t.id != id))
      else if RejectStepAttrs(a) then Some(steps)
      else Some(Map(steps, (t: RoadmapStep) => if t.id == id then StepFrom(a, id, t.roadmap) else t))
  }

  /** `roadmap_steps_attributes`, entry by entry; the i-th entry builds with `newIds[i]`. */
  function ApplyEntries(stored: seq<RoadmapStep>, steps: seq<RoadmapStep>, roadmap: RoadmapId,
                        entries: seq<StepAttrs>, newIds: seq<StepId>)
    : (r: Option<seq<RoadmapStep>>)
    requires |newIds| == |entries|
    ensures r.Some? && (forall t :: t in steps ==> t.roadmap == roadmap) ==>
              forall t :: t in r.value ==> t.roadmap == roadmap
    ensures (forall i :: 0 <= i < |entries| ==> entries[i].id.None?) ==> r.Some?
    decreases |entries|
  {
    if |entries| == 0 then Some(steps)
    else
      match ApplyEntry(stored, steps, roadmap, entries[0], newIds[0])
      case None => None
      case Some(next) =>
        assert (forall t :: t in steps ==> t.roadmap == roadmap) ==> forall t :: t in next ==> t.roadmap == roadmap by {
          if entries[0].id.Some? && !entries[0].destroy && !RejectStepAttrs(entries[0]) {
            forall t | t in next && (forall u :: u in steps ==> u.roadmap == roadmap) ensures t.roadmap == roadmap {
              var i :| 0 <= i < |next| && next[i] == t;
              assert steps[i] in steps;
            }
          }
        }
        ApplyEntries(stored, next, roadmap, entries[1..], newIds[1..])
  }

  // -------------------------------------------------------------- roadmaps

  datatype Roadmap = Roadmap(id: RoadmapId, title: Option<string>, description: Option<string>)

  predicate ValidRoadmap(r: Roadmap) {
    !BlankOpt(r.title) && !BlankOpt(r.description)
  }

  /** Roadmaps, their steps, and the (roadmap, field) links, which the unique index makes a set. */
  datatype Catalogue = Catalogue(roadmaps: map<RoadmapId, Roadmap>, steps: seq<RoadmapStep>,
                                 links: set<(RoadmapId, FieldId)>)

  /** `roadmap.destroy`: its steps and its field links go with it. */
  function DestroyRoadmap(c: Catalogue, id: RoadmapId): (r: Catalogue)
    ensures r.roadmaps == c.roadmaps - {id}
    ensures forall t :: t in r.steps <==> t in c.steps && t.roadmap != id
    ensures forall l :: l in r.links <==> l in c.links && l.0 != id
  {
    Catalogue(c.roadmaps - {id}, Filter(c.steps, (t: RoadmapStep) => t.roadmap != id),
              set l | l in c.links && l.0 != id)
  }

  /** The steps of one roadmap, and those of all the others. */
  function StepsOf(steps: seq<RoadmapStep>, id: RoadmapId): seq<RoadmapStep> {
    Filter(steps, (t: RoadmapStep) => t.roadmap == id)
  }

  function StepsNotOf(steps: seq<RoadmapStep>, id: RoadmapId): seq<RoadmapStep> {
    Filter(steps, (t: RoadmapStep) => t.roadmap != id)
  }

  /**
   * The uniqueness validation of `order` for a step the save writes: no
   * stored step of its roadmap with another id holds the same order. Rails
   * asks the database, so the other rows of the same form are not seen.
   */
  predicate OrderFree(stored: seq<RoadmapStep>, t: RoadmapStep) {
    forall u :: u in stored && u.roadmap == t.roadmap && u.id != t.id ==> u.order != t.order
  }

  /**
   * The validations the nested save runs: only rows it writes (built, or
   * changed from what is stored) are validated; unchanged and destroyed rows
   * are not.
   */
  predicate StepsValid(stored: seq<RoadmapStep>, own: seq<RoadmapStep>) {
    forall t :: t in own && t !in stored ==> ValidStep(t) && OrderFree(stored, t)
  }

  /**
   * The unique index on (roadmap_id, order) as the rows are written one
   * statement at a time: once every written order is free among the stored
   * rows, only two written rows with one order can clash.
   */
  predicate WritesKeepIndex(stored: seq<RoadmapStep>, own: seq<RoadmapStep>) {
    forall i, j ::
      0 <= i < |own| && 0 <= j < |own| && own[i] !in stored && own[j] !in stored && own[i].order == own[j].order
      ==> i == j
  }

  /**
   * What the save of a roadmap with nested steps ends in: written, refused by
   * a validation (the form is shown again), an unknown step id
   * (`RecordNotFound`), or a unique-index violation (`RecordNotUnique`).
   */
  datatype SaveOutcome = Saved(catalogue: Catalogue) | Invalid | NotFound | NotUnique

  /**
   * `roadmap.save` / `roadmap.update` with nested steps: the entries are
   * applied to the roadmap's stored steps, then the roadmap and the written
   * steps are validated, then the rows are written in one transaction.
   */
  function SaveRoadmap(c: Catalogue, rm: Roadmap, entries: seq<StepAttrs>, newIds: seq<StepId>)
    : (r: SaveOutcome)
    requires |newIds| == |entries|
    ensures var applied := ApplyEntries(StepsOf(c.steps, rm.id), StepsOf(c.steps, rm.id), rm.id, entries, newIds);
            && (r.NotFound? <==> applied.None?)
            && (r.Invalid? <==> applied.Some? && !(ValidRoadmap(rm) && StepsValid(c.steps, applied.value)))
            && (r.NotUnique? <==>
                  applied.Some? && ValidRoadmap(rm) && StepsValid(c.steps, applied.value)
                  && !WritesKeepIndex(c.steps, applied.value))
            && (r.Saved? <==>
                  applied.Some? && ValidRoadmap(rm) && StepsValid(c.steps, applied.value)
                  && WritesKeepIndex(c.steps, applied.value))
    ensures r.Saved? ==> r.catalogue.roadmaps == c.roadmaps[rm.id := rm] && r.catalogue.links == c.links
    ensures r.Saved? ==> forall t: RoadmapStep :: t.roadmap != rm.id ==> (t in r.catalogue.steps <==> t in c.steps)
    ensures r.Saved? ==>
              var own := ApplyEntries(StepsOf(c.steps, rm.id), StepsOf(c.steps, rm.id), rm.id, entries, newIds).value;
              forall t: RoadmapStep :: t.roadmap == rm.id ==> (t in r.catalogue.steps <==> t in own)
  {
    match ApplyEntries(StepsOf(c.steps, rm.id), StepsOf(c.steps, rm.id), rm.id, entries, newIds)
    case None => NotFound
    case Some(own) =>
      if !(ValidRoadmap(rm) && StepsValid(c.steps, own)) then Invalid
      else if !WritesKeepIndex(c.steps, own) then NotUnique
      else
        assert forall t :: t in own ==> t.roadmap == rm.id;
        Saved(Catalogue(c.roadmaps[rm.id := rm], StepsNotOf(c.steps, rm.id) + own, c.links))
  }

  /** The ids the database gives built steps: distinct, and none names a stored step. */
  predicate FreshIds(steps: seq<RoadmapStep>, newIds: seq<StepId>) {
    && (forall i, j :: 0 <= i < j < |newIds| ==> newIds[i] != newIds[j])
    && (forall i :: 0 <= i < |newIds| ==> !Names(steps, newIds[i]))
  }

  /** Rows with distinct ids are told apart by their id. */
  lemma IdsIdentify(steps: seq<RoadmapStep>)
    requires DistinctIds(steps)
    ensures forall x, y :: x in steps && y in steps && x.id == y.id ==> x == y
  {
    forall x, y | x in steps && y in steps && x.id == y.id
      ensures x == y
    {
      var i :| 0 <= i < |steps| && steps[i] == x;
      var j :| 0 <= j < |steps| && steps[j] == y;
      assert !(i < j) && !(j < i);
    }
  }

  lemma {:induction false} FilterKeepsDistinctIds(steps: seq<RoadmapStep>, p: RoadmapStep -> bool)
    requires DistinctIds(steps)
    ensures DistinctIds(Filter(steps, p))
  {
    if |steps| > 0 {
      var tail := steps[1..];
      assert DistinctIds(tail) by {
        forall i, j | 0 <= i < j < |tail|
          ensures tail[i].id != tail[j].id
        {
          assert tail[i] == steps[i + 1] && tail[j] == steps[j + 1];
        }
      }
      FilterKeepsDistinctIds(tail, p);
      forall t | t in Filter(tail, p)
        ensures t.id != steps[0].id
      {
        var k :| 0 <= k < |tail| && tail[k] == t;
        assert t == steps[k + 1];
      }
    }
  }

  /** Two lists with distinct ids and no id in common concatenate to one with distinct ids. */
  lemma ConcatDistinctIds(a: seq<RoadmapStep>, b: seq<RoadmapStep>)
    requires DistinctIds(a) && DistinctIds(b)
    requires forall x, y :: x in a && y in b ==> x.id != y.id
    ensures DistinctIds(a + b)
  {
    forall i, j | 0 <= i < j < |a + b|
      ensures (a + b)[i].id != (a + b)[j].id
    {
      if j < |a| {
        assert (a + b)[i] == a[i] && (a + b)[j] == a[j];
      } else if i < |a| {
        assert (a + b)[i] == a[i] && (a + b)[j] == b[j - |a|];
      } else {
        assert (a + b)[i] == b[i - |a|] && (a + b)[j] == b[j - |a|];
      }
    }
  }

  /**
   * One entry keeps the ids distinct, and every id it leaves was there
   * before or is the id it builds with.
   */
  lemma ApplyEntryIds(stored: seq<RoadmapStep>, steps: seq<RoadmapStep>, roadmap: RoadmapId, a: StepAttrs,
                      newId: StepId)
    requires DistinctIds(steps) && !Names(steps, newId)
    ensures ApplyEntry(stored, steps, roadmap, a, newId).Some? ==>
              var r := ApplyEntry(stored, steps, roadmap, a, newId).value;
              && DistinctIds(r)
              && forall t :: t in r ==> Names(steps, t.id) || t.id == newId
  {
    var r := ApplyEntry(stored, steps, roadmap, a, newId);
    if r.Some? {
      match a.id
      case None =>
        if !(a.destroy || RejectStepAttrs(a)) {
          var built := StepFrom(a, newId, roadmap);
          forall t | t in steps
            ensures t.id != built.id
          {
          }
          ConcatDistinctIds(steps, [built]);
        }
      case Some(id) =>
        if a.destroy {
          FilterKeepsDistinctIds(steps, (t: RoadmapStep) => t.id != id);
        } else if !RejectStepAttrs(a) {
          forall t | t in r.value
            ensures Names(steps, t.id)
          {
            var k :| 0 <= k < |r.value| && r.value[k] == t;
            assert steps[k].id == t.id;
          }
        }
    }
  }

  /** The entries, in turn, keep the ids distinct and add only the ids they build with. */
  lemma {:induction false} ApplyEntriesIds(stored: seq<RoadmapStep>, steps: seq<RoadmapStep>, roadmap: RoadmapId,
                                           entries: seq<StepAttrs>, newIds: seq<StepId>)
    requires |newIds| == |entries|
    requires DistinctIds(steps) && FreshIds(steps, newIds)
    ensures ApplyEntries(stored, steps, roadmap, entries, newIds).Some? ==>
              var r := ApplyEntries(stored, steps, roadmap, entries, newIds).value;
              && DistinctIds(r)
              && forall t :: t in r ==> Names(steps, t.id) || t.id in newIds
    decreases |entries|
  {
    if |entries| > 0 {
      ApplyEntryIds(stored, steps, roadmap, entries[0], newIds[0]);
      match ApplyEntry(stored, steps, roadmap, entries[0], newIds[0])
      case None =>
      case Some(next) =>
        var rest := newIds[1..];
        assert FreshIds(next, rest) by {
          forall i | 0 <= i < |rest|
            ensures !Names(next, rest[i])
          {
            assert rest[i] == newIds[i + 1] && newIds[0] != newIds[i + 1];
            forall t | t in next
              ensures t.id != rest[i]
            {
            }
          }
        }
        ApplyEntriesIds(stored, next, roadmap, entries[1..], rest);
        if ApplyEntries(stored, next, roadmap, entries[1..], rest).Some? {
          forall t | t in ApplyEntries(stored, next, roadmap, entries[1..], rest).value
            ensures Names(steps, t.id) || t.id in newIds
          {
            if !(t.id in rest) {
              var u :| u in next && u.id == t.id;
            }
          }
        }
    }
  }

  /** With distinct ids, orders are unique once any two rows sharing a roadmap and an order are the same row. */
  lemma UniqueOrdersByValue(steps: seq<RoadmapStep>)
    requires DistinctIds(steps)
    requires forall x, y :: x in steps && y in steps && x.roadmap == y.roadmap && x.order == y.order ==> x.id == y.id
    ensures UniqueOrders(steps)
  {
    forall i, j | 0 <= i < |steps| && 0 <= j < |steps| && steps[i].roadmap == steps[j].roadmap
                  && steps[i].order == steps[j].order
      ensures i == j
    {
      assert steps[i].id == steps[j].id;
    }
  }

  /**
   * A save keeps the step rows as the database holds them: valid, with
   * distinct ids, and with unique orders within each roadmap.
   */
  lemma SaveKeepsStepsWellFormed(c: Catalogue, rm: Roadmap, entries: seq<StepAttrs>, newIds: seq<StepId>)
    requires |newIds| == |entries|
    requires WellFormedSteps(c.steps) && FreshIds(c.steps, newIds)
    requires SaveRoadmap(c, rm, entries, newIds).Saved?
    ensures WellFormedSteps(SaveRoadmap(c, rm, entries, newIds).catalogue.steps)
  {
    var mine := StepsOf(c.steps, rm.id);
    var others := StepsNotOf(c.steps, rm.id);
    var own := ApplyEntries(mine, mine, rm.id, entries, newIds).value;
    var result := SaveRoadmap(c, rm, entries, newIds).catalogue.steps;
    assert result == others + own;
    FilterKeepsDistinctIds(c.steps, (t: RoadmapStep) => t.roadmap == rm.id);
    FilterKeepsDistinctIds(c.steps, (t: RoadmapStep) => t.roadmap != rm.id);
    assert FreshIds(mine, newIds) by {
      forall i | 0 <= i < |newIds|
        ensures !Names(mine, newIds[i])
      {
        forall t | t in mine
          ensures t.id != newIds[i]
        {
          assert t in c.steps;
        }
      }
    }
    ApplyEntriesIds(mine, mine, rm.id, entries, newIds);
    OwnIdsApart(c.steps, rm.id, own, newIds);
    ConcatDistinctIds(others, own);
    forall i | 0 <= i < |result|
      ensures ValidStep(result[i])
    {
      var t := result[i];
      assert t in others || t in own;
      if t in c.steps {
        var k :| 0 <= k < |c.steps| && c.steps[k] == t;
      }
    }
    assert forall t :: t in result ==> t in c.steps || t in own;
    SavedOrdersByValue(c.steps, own, result);
    UniqueOrdersByValue(result);
  }

  /** The ids the entries leave on the roadmap are none of another roadmap's step ids. */
  lemma OwnIdsApart(stored: seq<RoadmapStep>, id: RoadmapId, own: seq<RoadmapStep>, newIds: seq<StepId>)
    requires DistinctIds(stored) && FreshIds(stored, newIds)
    requires forall t :: t in own ==> Names(StepsOf(stored, id), t.id) || t.id in newIds
    ensures forall x, y :: x in StepsNotOf(stored, id) && y in own ==> x.id != y.id
  {
    IdsIdentify(stored);
    forall x, y | x in StepsNotOf(stored, id) && y in own
      ensures x.id != y.id
    {
      if y.id !in newIds {
        var u :| u in StepsOf(stored, id) && u.id == y.id;
        assert u in stored && u.roadmap != x.roadmap;
      } else {
        var k :| 0 <= k < |newIds| && newIds[k] == y.id;
        assert !Names(stored, newIds[k]);
      }
    }
  }

  /**
   * After a save, two rows sharing a roadmap and an order have one id: stored
   * rows by the stored uniqueness, a written row against a stored one by the
   * validation, two written rows by the index.
   */
  lemma SavedOrdersByValue(stored: seq<RoadmapStep>, own: seq<RoadmapStep>, result: seq<RoadmapStep>)
    requires WellFormedSteps(stored) && StepsValid(stored, own) && WritesKeepIndex(stored, own)
    requires forall t :: t in result ==> t in stored || t in own
    ensures forall x, y :: x in result && y in result && x.roadmap == y.roadmap && x.order == y.order ==> x.id == y.id
  {
    forall x, y | x in result && y in result && x.roadmap == y.roadmap && x.order == y.order
      ensures x.id == y.id
    {
      if x in stored && y in stored {
        SameOrderSameStep(stored, x, y);
      } else if x !in stored && y !in stored {
        var i :| 0 <= i < |own| && own[i] == x;
        var j :| 0 <= j < |own| && own[j] == y;
      } else if x !in stored {
        assert OrderFree(stored, x);
      } else {
        assert OrderFree(stored, y);
      }
    }
  }

  /**
   * Swapping the orders of two steps in one form is refused: each changed
   * step is checked against the other's stored order, so the form comes back.
   */
  lemma SwappedOrdersAreRefused(c: Catalogue, rm: Roadmap, a: RoadmapStep, b: RoadmapStep,
                                ea: StepAttrs, eb: StepAttrs, newIds: seq<StepId>)
    requires c.steps == [a, b] && a.roadmap == rm.id && b.roadmap == rm.id && a.id != b.id
    requires a.order != b.order && |newIds| == 2
    requires ea.id == Some(a.id) && ea.order == b.order && !ea.destroy && !RejectStepAttrs(ea)
    requires eb.id == Some(b.id) && eb.order == a.order && !eb.destroy && !RejectStepAttrs(eb)
    ensures SaveRoadmap(c, rm, [ea, eb], newIds) == Invalid
  {
    StepsOfPair(a, b, rm.id);
    SwapApplied(a, b, rm.id, ea, eb, newIds);
    var a2 := StepFrom(ea, a.id, rm.id);
    assert !OrderFree(c.steps, a2) by {
      assert b in c.steps && b.roadmap == a2.roadmap && b.id != a2.id && b.order == a2.order;
    }
    assert a2 in [a2, StepFrom(eb, b.id, rm.id)] && a2 !in c.steps;
  }

  /** Both entries of the swap apply: each step gets the other's order. */
  lemma SwapApplied(a: RoadmapStep, b: RoadmapStep, id: RoadmapId, ea: StepAttrs, eb: StepAttrs, newIds: seq<StepId>)
    requires a.roadmap == id && b.roadmap == id && a.id != b.id && |newIds| == 2
    requires ea.id == Some(a.id) && !ea.destroy && !RejectStepAttrs(ea)
    requires eb.id == Some(b.id) && !eb.destroy && !RejectStepAttrs(eb)
    ensures ApplyEntries([a, b], [a, b], id, [ea, eb], newIds) == Some([StepFrom(ea, a.id, id), StepFrom(eb, b.id, id)])
  {
    var a2 := StepFrom(ea, a.id, id);
    var b2 := StepFrom(eb, b.id, id);
    var first := ApplyEntry([a, b], [a, b], id, ea, newIds[0]);
    assert a in [a, b];
    assert first.Some? && first.value[0] == a2 && first.value[1] == b;
    assert first.value == [a2, b];
    var second := ApplyEntry([a, b], [a2, b], id, eb, newIds[1]);
    assert b in [a2, b];
    assert second.Some? && second.value[0] == a2 && second.value[1] == b2;
    assert second.value == [a2, b2];
    assert ApplyEntries([a, b], [a2, b2], id, [], newIds[2..]) == Some([a2, b2]);
    assert ApplyEntries([a, b], [a2, b], id, [eb], newIds[1..]) == Some([a2, b2]) by {
      assert [eb][1..] == [] && newIds[1..][1..] == newIds[2..];
    }
    assert [ea, eb][1..] == [eb];
  }

  /**
   * A new row may not take the order of a row destroyed in the same form:
   * the destroyed row is still stored when the new one is validated.
   */
  lemma ReusingDestroyedOrderIsRefused(c: Catalogue, rm: Roadmap, a: RoadmapStep,
                                       ed: StepAttrs, en: StepAttrs, newIds: seq<StepId>)
    requires c.steps == [a] && a.roadmap == rm.id && |newIds| == 2 && newIds[1] != a.id
    requires ed.id == Some(a.id) && ed.destroy
    requires en.id.None? && !en.destroy && !RejectStepAttrs(en) && en.order == a.order
    ensures SaveRoadmap(c, rm, [ed, en], newIds) == Invalid
  {
    var built := StepFrom(en, newIds[1], rm.id);
    assert StepsOf([a], rm.id) == [a] by {
      assert [a][1..] == [];
    }
    assert ApplyEntry([a], [a], rm.id, ed, newIds[0]) == Some([]) by {
      assert a in [a];
      assert [a][1..] == [];
    }
    assert ApplyEntries([a], [], rm.id, [en], newIds[1..]) == Some([built]) by {
      assert [en][1..] == [] && newIds[1..][1..] == newIds[2..] && newIds[1..][0] == newIds[1];
      assert ApplyEntry([a], [], rm.id, en, newIds[1]) == Some([built]) by {
        assert [] + [built] == [built];
      }
      assert ApplyEntries([a], [built], rm.id, [], newIds[2..]) == Some([built]);
    }
    assert ApplyEntries([a], [a], rm.id, [ed, en], newIds) == Some([built]) by {
      assert [ed, en][1..] == [en];
    }
    assert built in [built] && built !in c.steps && !OrderFree(c.steps, built);
  }

  /**
   * Existing rows are fetched once, before the entries apply: a later entry
   * naming a step an earlier entry destroyed still finds it, and the step
   * stays destroyed.
   */
  lemma DestroyedStepStaysDestroyed(c: Catalogue, rm: Roadmap, a: RoadmapStep,
                                    ed: StepAttrs, eu: StepAttrs, newIds: seq<StepId>)
    requires c.steps == [a] && a.roadmap == rm.id && ValidRoadmap(rm) && |newIds| == 2
    requires ed.id == Some(a.id) && ed.destroy
    requires eu.id == Some(a.id) && !eu.destroy
    ensures SaveRoadmap(c, rm, [ed, eu], newIds).Saved?
    ensures SaveRoadmap(c, rm, [ed, eu], newIds).catalogue.steps == []
  {
    assert StepsOf([a], rm.id) == [a] by {
      assert [a][1..] == [];
    }
    assert ApplyEntry([a], [a], rm.id, ed, newIds[0]) == Some([]) by {
      assert a in [a];
      assert [a][1..] == [];
    }
    assert ApplyEntries([a], [], rm.id, [eu], newIds[1..]) == Some([]) by {
      assert [eu][1..] == [] && newIds[1..][1..] == newIds[2..];
      assert a in [a];
      assert ApplyEntry([a], [], rm.id, eu, newIds[1..][0]) == Some([]);
    }
    assert ApplyEntries([a], [a], rm.id, [ed, eu], newIds) == Some([]) by {
      assert [ed, eu][1..] == [eu];
    }
    assert StepsNotOf([a], rm.id) == [] by {
      assert [a][1..] == [];
    }
  }

  /**
   * Two new rows of one form with the same order both pass validation, which
   * only sees stored rows; the second insert then violates the unique index.
   */
  lemma DuplicateNewOrdersClash(c: Catalogue, rm: Roadmap, e1: StepAttrs, e2: StepAttrs, newIds: seq<StepId>)
    requires c.steps == [] && ValidRoadmap(rm) && |newIds| == 2 && newIds[0] != newIds[1]
    requires e1.id.None? && !e1.destroy && !RejectStepAttrs(e1) && ValidStep(StepFrom(e1, newIds[0], rm.id))
    requires e2.id.None? && !e2.destroy && !RejectStepAttrs(e2) && ValidStep(StepFrom(e2, newIds[1], rm.id))
    requires e1.order == e2.order
    ensures SaveRoadmap(c, rm, [e1, e2], newIds) == NotUnique
  {
    var s1 := StepFrom(e1, newIds[0], rm.id);
    var s2 := StepFrom(e2, newIds[1], rm.id);
    assert StepsOf([], rm.id) == [];
    assert ApplyEntries([], [s1], rm.id, [e2], newIds[1..]) == Some([s1, s2]) by {
      assert [e2][1..] == [] && newIds[1..][1..] == newIds[2..];
      assert [s1] + [s2] == [s1, s2];
      assert ApplyEntries([], [s1, s2], rm.id, [], newIds[2..]) == Some([s1, s2]);
    }
    assert ApplyEntries([], [], rm.id, [e1, e2], newIds) == Some([s1, s2]) by {
      assert [e1, e2][1..] == [e2];
      assert [] + [s1] == [s1];
    }
    var own := [s1, s2];
    assert own[0] !in c.steps && own[1] !in c.steps && own[0].order == own[1].order;
  }

  lemma StepsOfPair(a: RoadmapStep, b: RoadmapStep, id: RoadmapId)
    requires a.roadmap == id && b.roadmap == id
    ensures StepsOf([a, b], id) == [a, b]
  {
    assert [a, b][1..] == [b] && [b][1..] == [];
    assert StepsOf([b], id) == [b];
  }

  /** A form whose only step row is left blank saves the roadmap without touching any step. */
  lemma BlankStepRowIsIgnored(c: Catalogue, rm: Roadmap, a: StepAttrs, newId: StepId)
    requires ValidRoadmap(rm) && a.id.None? && RejectStepAttrs(a)
    ensures SaveRoadmap(c, rm, [a], [newId]).Saved?
    ensures forall t :: t in SaveRoadmap(c, rm, [a], [newId]).catalogue.steps <==> t in c.steps
  {
    var mine := StepsOf(c.steps, rm.id);
    assert ApplyEntries(mine, mine, rm.id, [a], [newId]) == Some(mine) by {
      assert [a][1..] == [] && [newId][1..] == [];
    }
  }

  // ------------------------------------------------------------ field links

  /** The fields a roadmap is linked to. */
  function LinkedFields(links: set<(RoadmapId, FieldId)>, r: RoadmapId): set<FieldId> {
    set l | l in links && l.0 == r :: l.1
  }

  /** `reject(&:blank?)` on the submitted field ids. */
  function NonBlank(ids: seq<string>): (r: seq<string>)
    ensures forall x :: x in r <==> x in ids && !Blank(x)
  {
    Filter(ids, (x: string) => !Blank(x))
  }

  /**
   * `Field.find` then `find_or_create_by!` for each id in turn: stops at the
   * first id that names no field (the request then fails with the links made
   * so far kept).
   */
  function LinkEach(links: set<(RoadmapId, FieldId)>, r: RoadmapId, ids: seq<FieldId>, fields: set<FieldId>)
    : (res: (set<(RoadmapId, FieldId)>, bool))
    ensures res.1 <==> forall i :: 0 <= i < |ids| ==> ids[i] in fields
    ensures links <= res.0
    ensures forall l :: l in res.0 ==> l in links || (l.0 == r && l.1 in ids && l.1 in fields)
    ensures res.1 ==> forall i :: 0 <= i < |ids| ==> (r, ids[i]) in res.0
    decreases |ids|
  {
    if |ids| == 0 then (links, true)
    else if ids[0] !in fields then (links, false)
    else
      var rest := LinkEach(links + {(r, ids[0])}, r, ids[1..], fields);
      assert forall x :: x in ids[1..] ==> x in ids;
      assert rest.1 ==> forall i :: 0 <= i < |ids| ==> (r, ids[i]) in rest.0 by {
        if rest.1 {
          forall i | 0 <= i < |ids| ensures (r, ids[i]) in rest.0 {
            if i > 0 { assert ids[i] == ids[1..][i - 1]; }
          }
        }
      }
      rest
  }

  /** Array `present?`: given and not empty. */
  predicate Present(ids: Option<seq<string>>) {
    ids.Some? && |ids.value| > 0
  }

  /**
   * The links `create` makes after saving the roadmap: the current field,
   * then each other non-blank submitted field.
   */
  function LinksOnCreate(links: set<(RoadmapId, FieldId)>, r: RoadmapId, current: FieldId,
                         submitted: Option<seq<string>>, fields: set<FieldId>)
    : (res: (set<(RoadmapId, FieldId)>, bool))
    ensures (r, current) in res.0 && links <= res.0
    ensures !Present(submitted) ==> res == (links + {(r, current)}, true)
    ensures res.1 && Present(submitted) ==>
              res.0 == links + {(r, current)} + set f | f in NonBlank(submitted.value) && f != current :: (r, f)
    ensures forall l :: l in res.0 && l !in links && l != (r, current) ==>
              l.0 == r && l.1 in fields && Present(submitted) && l.1 in NonBlank(submitted.value) && l.1 != current
  {
    var base := links + {(r, current)};
    if !Present(submitted) then (base, true)
    else
      var extras := Filter(NonBlank(submitted.value), (f: string) => f != current);
      var res := LinkEach(base, r, extras, fields);
      assert res.1 ==> res.0 == base + set f | f in NonBlank(submitted.value) && f != current :: (r, f) by {
        if res.1 {
          forall l | l in base + set f | f in NonBlank(submitted.value) && f != current :: (r, f)
            ensures l in res.0
          {
            if l !in base {
              var f :| f in NonBlank(submitted.value) && f != current && l == (r, f);
              assert f in extras;
              var i :| 0 <= i < |extras| && extras[i] == f;
            }
          }
        }
      }
      res
  }

  /**
   * `update` with `field_ids` present: links to fields no longer listed are
   * removed and links to newly listed fields added.
   */
  function LinksOnUpdate(links: set<(RoadmapId, FieldId)>, r: RoadmapId,
                         submitted: Option<seq<string>>, fields: set<FieldId>)
    : (res: (set<(RoadmapId, FieldId)>, bool))
    ensures !Present(submitted) ==> res == (links, true)
    ensures forall l :: l in links && l.0 != r ==> l in res.0
    ensures forall l :: l in res.0 && l.0 != r ==> l in links
    ensures Present(submitted) && res.1 ==>
              forall f :: f in LinkedFields(res.0, r) <==> f in NonBlank(submitted.value)
  {
    if !Present(submitted) then (links, true)
    else
      var wanted := NonBlank(submitted.value);
      var current := LinkedFields(links, r);
      var kept := set l | l in links && (l.0 != r || l.1 in wanted);
      var toAdd := Filter(wanted, (f: string) => f !in current);
      var res := LinkEach(kept, r, toAdd, fields);
      assert res.1 ==> forall f :: f in LinkedFields(res.0, r) <==> f in wanted by {
        if res.1 {
          forall f ensures f in LinkedFields(res.0, r) <==> f in wanted {
            if f in wanted {
              if f !in current {
                assert f in toAdd;
                var i :| 0 <= i < |toAdd| && toAdd[i] == f;
                assert (r, f) in res.0;
              } else {
                var l :| l in links && l.0 == r && l.1 == f;
                assert l in kept;
              }
            }
            if f in LinkedFields(res.0, r) {
              var l :| l in res.0 && l.0 == r && l.1 == f;
            }
          }
        }
      }
      res
  }

  /** Sending only blank ids (the form's hidden empty value) removes every link of the roadmap. */
  lemma BlankSubmissionUnlinksAll(links: set<(RoadmapId, FieldId)>, r: RoadmapId, fields: set<FieldId>)
    ensures var res := LinksOnUpdate(links, r, Some([""]), fields);
            res.1 && LinkedFields(res.0, r) == {}
  {
    var res := LinksOnUpdate(links, r, Some([""]), fields);
    assert NonBlank([""]) == [] by {
      assert Blank("");
    }
  }

  /**
   * `build_empty_step`: a blank step for the form, only when the roadmap has
   * no step, with order one past the greatest (so always 1).
   */
  function BuildEmptyStep(orders: seq<int>): (r: Option<int>)
    ensures r.Some? <==> |orders| == 0
    ensures r.Some? ==> r.value == 1
  {
    if |orders| > 0 then None else Some(MaxOrZero(orders) + 1)
  }

  /** `maximum(:order) || 0`. */
  function MaxOrZero(orders: seq<int>): (m: int)
    ensures |orders| == 0 ==> m == 0
    ensures forall i :: 0 <= i < |orders| ==> orders[i] <= m
    ensures |orders| > 0 ==> m in orders
  {
    if |orders| == 0 then 0
    else if |orders| == 1 then orders[0]
    else
      var rest := MaxOrZero(orders[1..]);
      if orders[0] >= rest then orders[0] else rest
  }
}

=== FILE: scoring.dfy ===
/**
 * The scoring engine (Diagnostics::ScoringService): per-dimension totals,
 * the primary dimension with its bloc-2 tie-break, the complementary
 * dimension, and the final update of the diagnostic.
 *
 * Two orders are left open by the service: the order in which the database
 * returns answers (no ORDER BY), and the order `sort_by` leaves equal totals
 * in (it is not stable). Both are parameters here: `ids`, any listing of the
 * answers, and `sorted`, any listing of the dimensions by descending total.
 */
module Scoring {
  import opened Wrappers
  import opened Collections
  import opened Questions
  import opened Profiles
  import opened Records

  /** An answer joined with its question: the columns the service reads. */
  datatype Row = Row(bloc: int, scored: bool, dimension: Option<string>, points: int)

  /** The filter of `calculate_scores`: scored question, dimension neither nil nor "". */
  predicate Counts(r: Row) {
    r.scored && r.dimension.Some? && r.dimension.value != ""
  }

  /** Sum of the points of the rows whose dimension is `d`. */
  function PointsFor(rs: seq<Row>, d: string): int {
    if |rs| == 0 then 0
    else (if rs[0].dimension == Some(d) then rs[0].points else 0) + PointsFor(rs[1..], d)
  }

  lemma {:induction false} PointsForAppend(a: seq<Row>, b: seq<Row>, d: string)
    ensures PointsFor(a + b, d) == PointsFor(a, d) + PointsFor(b, d)
  {
    if |a| == 0 {
      assert a + b == b;
    } else {
      assert (a + b)[1..] == a[1..] + b;
      PointsForAppend(a[1..], b, d);
    }
  }

  lemma PointsForRemoveAt(b: seq<Row>, j: int, d: string)
    requires 0 <= j < |b|
    ensures PointsFor(b, d) == PointsFor(b[..j] + b[j+1..], d) + PointsFor([b[j]], d)
  {
    SplitAt(b, j);
    PointsForAppend(b[..j], [b[j]] + b[j+1..], d);
    PointsForAppend([b[j]], b[j+1..], d);
    PointsForAppend(b[..j], b[j+1..], d);
  }

  /** A sum does not depend on the order of its terms. */
  lemma {:induction false} PointsForPermutation(a: seq<Row>, b: seq<Row>, d: string)
    requires multiset(a) == multiset(b)
    ensures PointsFor(a, d) == PointsFor(b, d)
    decreases |a|
  {
    if |a| == 0 {
      assert |b| == |multiset(b)| == 0;
    } else {
      var j, rest := PermutationStep(a, b);
      PointsForPermutation(a[1..], rest, d);
      PointsForRemoveAt(b, j, d);
    }
  }

  function CountedRows(rows: seq<Row>): seq<Row> {
    Filter(rows, Counts)
  }

  /** The dimensions named by some row of `rs`. */
  function DimsOf(rs: seq<Row>): set<string> {
    set r | r in rs && r.dimension.Some? :: r.dimension.value
  }

  lemma DimsOfSnoc(rs: seq<Row>, x: Row)
    requires x.dimension.Some?
    ensures DimsOf(rs + [x]) == DimsOf(rs) + {x.dimension.value}
  {
    assert forall r :: r in rs + [x] <==> r in rs || r == x;
  }

  /** The dimensions that received at least one counted answer. */
  function Dimensions(rows: seq<Row>): set<string> {
    DimsOf(CountedRows(rows))
  }

  /** The reference definition of `score_data`. */
  function Scores(rows: seq<Row>): map<string, int> {
    map d | d in Dimensions(rows) :: PointsFor(CountedRows(rows), d)
  }

  lemma DimensionsMembership(rows: seq<Row>, d: string)
    ensures d in Dimensions(rows) <==>
            exists i :: 0 <= i < |rows| && Counts(rows[i]) && rows[i].dimension == Some(d)
  {
    if d in Dimensions(rows) {
      var r :| r in CountedRows(rows) && r.dimension.value == d;
      var i :| 0 <= i < |rows| && rows[i] == r;
    }
    if exists i :: 0 <= i < |rows| && Counts(rows[i]) && rows[i].dimension == Some(d) {
      var i :| 0 <= i < |rows| && Counts(rows[i]) && rows[i].dimension == Some(d);
      assert rows[i] in CountedRows(rows);
    }
  }

  lemma PointsForSnoc(s: seq<Row>, x: Row)
    ensures forall d :: PointsFor(s + [x], d) == PointsFor(s, d) + (if x.dimension == Some(d) then x.points else 0)
  {
    forall d
      ensures PointsFor(s + [x], d) == PointsFor(s, d) + (if x.dimension == Some(d) then x.points else 0)
    {
      PointsForAppend(s, [x], d);
    }
  }

  /** A dimension has a total exactly when some counted answer names it. */
  lemma ScoresKeys(rows: seq<Row>)
    ensures forall d :: d in Scores(rows) <==>
                        exists i :: 0 <= i < |rows| && Counts(rows[i]) && rows[i].dimension == Some(d)
  {
    forall d
      ensures d in Scores(rows) <==>
              exists i :: 0 <= i < |rows| && Counts(rows[i]) && rows[i].dimension == Some(d)
    {
      DimensionsMembership(rows, d);
    }
  }

  /** One `scores[dim] += points` step keeps the tallies equal to the sums over the rows read so far. */
  lemma AccumulateStep(scores: map<string, int>, prefix: seq<Row>, x: Row)
    requires x.dimension.Some?
    requires scores.Keys == DimsOf(prefix)
    requires forall d :: d in scores ==> scores[d] == PointsFor(prefix, d)
    ensures var d := x.dimension.value;
            var next := scores[d := (if d in scores then scores[d] else 0) + x.points];
            && next.Keys == DimsOf(prefix + [x])
            && forall e :: e in next ==> next[e] == PointsFor(prefix + [x], e)
  {
    DimsOfSnoc(prefix, x);
    PointsForSnoc(prefix, x);
    var d := x.dimension.value;
    if d !in scores {
      assert d !in DimsOf(prefix);
      PointsForAbsent(prefix, d);
    }
  }

  /** A dimension no row names sums to zero. */
  lemma {:induction false} PointsForAbsent(rs: seq<Row>, d: string)
    requires d !in DimsOf(rs)
    ensures PointsFor(rs, d) == 0
  {
    if |rs| > 0 {
      assert rs[0] in rs;
      assert DimsOf(rs[1..]) <= DimsOf(rs) by {
        forall r | r in rs[1..] ensures r in rs { }
      }
      PointsForAbsent(rs[1..], d);
    }
  }

  /**
   * `calculate_scores`: a `Hash.new(0)` accumulating `points_awarded` per
   * dimension over the counted answers, in the order they are read.
   */
  method CalculateScores(rows: seq<Row>) returns (scores: map<string, int>)
    ensures forall d :: d in scores <==>
                        exists i :: 0 <= i < |rows| && Counts(rows[i]) && rows[i].dimension == Some(d)
    ensures forall d :: d in scores ==> scores[d] == PointsFor(CountedRows(rows), d)
    ensures scores == Scores(rows)
  {
    scores := Tally(CountedRows(rows));
    TalliesAreScores(rows, scores);
  }

  /** The accumulation loop of `calculate_scores` over rows that all count. */
  method Tally(counted: seq<Row>) returns (scores: map<string, int>)
    requires forall j :: 0 <= j < |counted| ==> Counts(counted[j])
    ensures scores.Keys == DimsOf(counted)
    ensures forall d :: d in scores ==> scores[d] == PointsFor(counted, d)
  {
    scores := map[];
    var i := 0;
    assert counted[..0] == [];
    while i < |counted|
      invariant 0 <= i <= |counted|
      invariant scores.Keys == DimsOf(counted[..i])
      invariant forall d :: d in scores ==> scores[d] == PointsFor(counted[..i], d)
    {
      var x := counted[i];
      var d := x.dimension.value;
      var current := if d in scores then scores[d] else 0;
      AccumulateAt(scores, counted, i);
      scores := scores[d := current + x.points];
      i := i + 1;
    }
    assert counted[..|counted|] == counted;
  }

  /** The loop step of `CalculateScores`, reading the `i`-th counted row. */
  lemma AccumulateAt(scores: map<string, int>, counted: seq<Row>, i: int)
    requires 0 <= i < |counted| && forall j :: 0 <= j < |counted| ==> Counts(counted[j])
    requires scores.Keys == DimsOf(counted[..i])
    requires forall d :: d in scores ==> scores[d] == PointsFor(counted[..i], d)
    ensures counted[i].dimension.Some?
    ensures var d := counted[i].dimension.value;
            var next := scores[d := (if d in scores then scores[d] else 0) + counted[i].points];
            && next.Keys == DimsOf(counted[..i+1])
            && forall e :: e in next ==> next[e] == PointsFor(counted[..i+1], e)
  {
    assert Counts(counted[i]);
    AccumulateStep(scores, counted[..i], counted[i]);
    assert counted[..i+1] == counted[..i] + [counted[i]];
  }

  /** Tallies with the right keys and the right sums are the reference totals. */
  lemma TalliesAreScores(rows: seq<Row>, scores: map<string, int>)
    requires scores.Keys == Dimensions(rows)
    requires forall d :: d in scores ==> scores[d] == PointsFor(CountedRows(rows), d)
    ensures forall d :: d in scores <==>
                        exists i :: 0 <= i < |rows| && Counts(rows[i]) && rows[i].dimension == Some(d)
    ensures scores == Scores(rows)
  {
    ScoresKeys(rows);
  }

  /** `score_data` depends only on which answers there are, not on the order they are read in. */
  lemma ScoresPermutation(a: seq<Row>, b: seq<Row>)
    requires multiset(a) == multiset(b)
    ensures Scores(a) == Scores(b)
  {
    FilterPermutation(a, b, Counts);
    var ca, cb := CountedRows(a), CountedRows(b);
    SameElementsSameDims(ca, cb);
    forall d | d in Dimensions(a)
      ensures Scores(a)[d] == Scores(b)[d]
    {
      PointsForPermutation(ca, cb, d);
    }
  }

  lemma SameElementsSameDims(a: seq<Row>, b: seq<Row>)
    requires multiset(a) == multiset(b)
    ensures DimsOf(a) == DimsOf(b)
  {
    forall r ensures r in a <==> r in b {
      assert r in a <==> r in multiset(a);
      assert r in b <==> r in multiset(b);
    }
  }

  /** `sorted` lists every dimension once, by non-increasing total. */
  predicate IsDescendingOrder(sorted: seq<string>, scores: map<string, int>) {
    && Distinct(sorted)
    && (forall i :: 0 <= i < |sorted| ==> sorted[i] in scores)
    && (forall k :: k in scores ==> k in sorted)
    && (forall i, j :: 0 <= i < j < |sorted| ==> scores[sorted[i]] >= scores[sorted[j]])
  }

  /** `d` reaches the highest total. */
  predicate IsTop(scores: map<string, int>, d: string) {
    d in scores && forall e :: e in scores ==> scores[e] <= scores[d]
  }

  /** The filter of `resolve_tiebreak`: a scored bloc-2 answer for one of the tied dimensions. */
  predicate InTieBreak(r: Row, tied: seq<string>) {
    r.bloc == 2 && r.scored && r.dimension.Some? && r.dimension.value in tied
  }

  function TieRows(rows: seq<Row>, tied: seq<string>): seq<Row> {
    Filter(rows, (r: Row) => InTieBreak(r, tied))
  }

  /**
   * The keys of a Ruby hash filled from `rs`, in insertion order: each
   * dimension where it first occurs.
   */
  function FirstAppearance(rs: seq<Row>): (keys: seq<string>)
    ensures Distinct(keys)
    ensures forall i :: 0 <= i < |keys| ==> exists j :: 0 <= j < |rs| && rs[j].dimension == Some(keys[i])
    ensures forall j :: 0 <= j < |rs| && rs[j].dimension.Some? ==> rs[j].dimension.value in keys
    decreases |rs|
  {
    if |rs| == 0 then []
    else
      var init := rs[..|rs| - 1];
      var prev := FirstAppearance(init);
      var last := rs[|rs| - 1];
      assert forall j :: 0 <= j < |init| ==> init[j] == rs[j];
      if last.dimension.None? || last.dimension.value in prev then prev
      else prev + [last.dimension.value]
  }

  /** Some row names `a` before any row names `b`. */
  predicate OccursBefore(rs: seq<Row>, a: string, b: string) {
    exists m :: 0 <= m < |rs| && rs[m].dimension == Some(a) &&
                forall n :: 0 <= n <= m ==> rs[n].dimension != Some(b)
  }

  lemma OccursBeforeExtends(rs: seq<Row>, a: string, b: string)
    requires |rs| > 0 && OccursBefore(rs[..|rs| - 1], a, b)
    ensures OccursBefore(rs, a, b)
  {
    var init := rs[..|rs| - 1];
    var m :| 0 <= m < |init| && init[m].dimension == Some(a) &&
             forall n :: 0 <= n <= m ==> init[n].dimension != Some(b);
    assert rs[m] == init[m];
    assert forall n :: 0 <= n <= m ==> rs[n] == init[n];
  }

  lemma OccursBeforeFirst(rs: seq<Row>, a: string, b: string, m: int)
    requires 0 <= m < |rs| - 1 && rs[m].dimension == Some(a)
    requires forall n :: 0 <= n < |rs| - 1 ==> rs[n].dimension != Some(b)
    ensures OccursBefore(rs, a, b)
  {
  }

  /**
   * The keys come in order of first appearance: every key occurs in `rs`
   * before any occurrence of a key listed after it.
   */
  lemma {:induction false} FirstAppearanceOrder(rs: seq<Row>)
    ensures forall i, j :: 0 <= i < j < |FirstAppearance(rs)| ==>
              OccursBefore(rs, FirstAppearance(rs)[i], FirstAppearance(rs)[j])
    decreases |rs|
  {
    if |rs| > 0 {
      var init := rs[..|rs| - 1];
      var prev := FirstAppearance(init);
      var last := rs[|rs| - 1];
      var keys := FirstAppearance(rs);
      FirstAppearanceOrder(init);
      forall i, j | 0 <= i < j < |keys|
        ensures OccursBefore(rs, keys[i], keys[j])
      {
        if j < |prev| {
          assert keys[i] == prev[i] && keys[j] == prev[j];
          OccursBeforeExtends(rs, keys[i], keys[j]);
        } else {
          assert keys == prev + [last.dimension.value] && keys[i] == prev[i];
          var m :| 0 <= m < |init| && init[m].dimension == Some(prev[i]);
          forall n | 0 <= n < |rs| - 1
            ensures rs[n].dimension != Some(keys[j])
          {
            assert rs[n] == init[n];
          }
          OccursBeforeFirst(rs, keys[i], keys[j], m);
        }
      }
    }
  }

  /**
   * `max_by { |_, v| v }` over the keys in order: the first key whose tally
   * is maximal (a later key replaces the current one only when strictly greater).
   */
  function MaxByFirst(keys: seq<string>, rs: seq<Row>): (k: string)
    requires |keys| > 0
    ensures k in keys
    ensures forall j :: 0 <= j < |keys| ==> PointsFor(rs, keys[j]) <= PointsFor(rs, k)
    ensures exists i :: 0 <= i < |keys| && keys[i] == k &&
                        forall j :: 0 <= j < i ==> PointsFor(rs, keys[j]) < PointsFor(rs, k)
    decreases |keys|
  {
    if |keys| == 1 then keys[0]
    else
      var init := keys[..|keys| - 1];
      var best := MaxByFirst(init, rs);
      assert forall j :: 0 <= j < |init| ==> init[j] == keys[j];
      if PointsFor(rs, keys[|keys| - 1]) > PointsFor(rs, best) then keys[|keys| - 1] else best
  }

  /** Every bloc-2 answer for a tied dimension puts that dimension among the candidates, and only those do. */
  lemma TieCandidates(rows: seq<Row>, tied: seq<string>)
    ensures forall i :: 0 <= i < |rows| && InTieBreak(rows[i], tied) ==>
              rows[i].dimension.value in FirstAppearance(TieRows(rows, tied))
    ensures forall k :: k in FirstAppearance(TieRows(rows, tied)) ==>
              exists i :: 0 <= i < |rows| && InTieBreak(rows[i], tied) && rows[i].dimension == Some(k)
  {
    var counted := TieRows(rows, tied);
    var keys := FirstAppearance(counted);
    forall i | 0 <= i < |rows| && InTieBreak(rows[i], tied)
      ensures rows[i].dimension.value in keys
    {
      assert rows[i] in counted;
      var j :| 0 <= j < |counted| && counted[j] == rows[i];
    }
    forall k | k in keys
      ensures exists i :: 0 <= i < |rows| && InTieBreak(rows[i], tied) && rows[i].dimension == Some(k)
    {
      var n :| 0 <= n < |keys| && keys[n] == k;
      var j :| 0 <= j < |counted| && counted[j].dimension == Some(k);
      assert counted[j] in counted;
      var i :| 0 <= i < |rows| && rows[i] == counted[j];
    }
  }

  /**
   * `resolve_tiebreak(tied)`: among the tied dimensions, the one with the
   * greatest bloc-2 tally (only dimensions with a bloc-2 answer are
   * candidates, and the first of them in reading order wins a tie); the
   * first tied dimension when none has one.
   */
  function ResolveTiebreak(rows: seq<Row>, tied: seq<string>): (p: string)
    requires |tied| > 0
    ensures p in tied
  {
    var counted := TieRows(rows, tied);
    var keys := FirstAppearance(counted);
    if |keys| > 0 then
      var p := MaxByFirst(keys, counted);
      TieCandidates(rows, tied);
      p
    else
      tied[0]
  }

  /** What the tie-break decides: the greatest bloc-2 tally when there is one, else `tied[0]`. */
  lemma ResolveTiebreakSpec(rows: seq<Row>, tied: seq<string>)
    requires |tied| > 0
    ensures var p := ResolveTiebreak(rows, tied);
            (exists i :: 0 <= i < |rows| && InTieBreak(rows[i], tied)) ==>
              && (exists i :: 0 <= i < |rows| && InTieBreak(rows[i], tied) && rows[i].dimension == Some(p))
              && (forall i :: 0 <= i < |rows| && InTieBreak(rows[i], tied) ==>
                    PointsFor(TieRows(rows, tied), rows[i].dimension.value) <= PointsFor(TieRows(rows, tied), p))
    ensures (forall i :: 0 <= i < |rows| ==> !InTieBreak(rows[i], tied)) ==> ResolveTiebreak(rows, tied) == tied[0]
  {
    TieCandidates(rows, tied);
    var counted := TieRows(rows, tied);
    var keys := FirstAppearance(counted);
    if |keys| > 0 {
      var p := MaxByFirst(keys, counted);
      forall i | 0 <= i < |rows| && InTieBreak(rows[i], tied)
        ensures PointsFor(counted, rows[i].dimension.value) <= PointsFor(counted, p)
      {
        var k :| 0 <= k < |keys| && keys[k] == rows[i].dimension.value;
      }
    }
  }

  /**
   * Eligibility comes from having a bloc-2 answer at all, whatever its points:
   * once some tied dimension has one (even worth 0), a tied dimension with
   * none cannot win.
   */
  lemma DimensionWithoutBloc2LosesTie(rows: seq<Row>, tied: seq<string>, d: string)
    requires |tied| > 0 && d in tied
    requires exists i :: 0 <= i < |rows| && InTieBreak(rows[i], tied)
    requires forall i :: 0 <= i < |rows| && rows[i].dimension == Some(d) ==> rows[i].bloc != 2 || !rows[i].scored
    ensures ResolveTiebreak(rows, tied) != d
  {
    ResolveTiebreakSpec(rows, tied);
  }

  /** `sorted.find { |slug, _| slug != primary }`: the first listed dimension other than `p`. */
  function FirstOther(sorted: seq<string>, p: string): (r: Option<string>)
    ensures r.Some? ==> r.value in sorted && r.value != p
    ensures r.Some? ==> exists i :: 0 <= i < |sorted| && sorted[i] == r.value &&
                                    forall j :: 0 <= j < i ==> sorted[j] == p
    ensures r.None? <==> forall k :: k in sorted ==> k == p
  {
    if |sorted| == 0 then None
    else if sorted[0] != p then Some(sorted[0])
    else
      var r := FirstOther(sorted[1..], p);
      assert forall k :: k in sorted ==> k == sorted[0] || k in sorted[1..];
      assert r.Some? ==> exists i :: 0 <= i < |sorted[1..]| && sorted[1..][i] == r.value &&
                                    forall j :: 0 <= j < i ==> sorted[1..][j] == p;
      r
  }

  /** The dimensions tied at the top, in `sorted` order. */
  function Tied(sorted: seq<string>, scores: map<string, int>): (tied: seq<string>)
    requires |sorted| > 0 && sorted[0] in scores
    ensures forall k :: k in tied ==> k in sorted && k in scores && scores[k] == scores[sorted[0]]
    ensures forall k :: k in sorted && k in scores && scores[k] == scores[sorted[0]] ==> k in tied
  {
    Filter(sorted, (k: string) => k in scores && scores[k] == scores[sorted[0]])
  }

  datatype Picks = Picks(primary: Option<string>, complementary: Option<string>)

  /** A descending order lists some dimension exactly when there is a total. */
  lemma OrderCoversScores(sorted: seq<string>, scores: map<string, int>)
    requires IsDescendingOrder(sorted, scores)
    ensures |sorted| > 0 <==> |scores| > 0
  {
    if |scores| > 0 {
      var k :| k in scores;
      assert k in sorted;
    }
    if |sorted| > 0 {
      assert sorted[0] in scores;
    }
  }

  /** In a descending order, the first entry is a top dimension and the tied ones are exactly the tops. */
  lemma TiedAreTops(sorted: seq<string>, scores: map<string, int>)
    requires IsDescendingOrder(sorted, scores) && |scores| > 0
    ensures |sorted| > 0 && IsTop(scores, sorted[0])
    ensures forall k :: k in Tied(sorted, scores) <==> IsTop(scores, k)
  {
    var k0 :| k0 in scores;
    assert k0 in sorted;
    forall e | e in scores
      ensures scores[e] <= scores[sorted[0]]
    {
      var i :| 0 <= i < |sorted| && sorted[i] == e;
      if i > 0 {
        assert scores[sorted[0]] >= scores[sorted[i]];
      }
    }
  }

  /**
   * `determine_profiles` up to the slug lookup: the primary and
   * complementary dimensions for a given descending order.
   */
  function DeterminePicks(rows: seq<Row>, sorted: seq<string>): (r: Picks)
    requires IsDescendingOrder(sorted, Scores(rows))
    ensures r.primary.None? <==> |Scores(rows)| == 0
    ensures r.primary.Some? ==> IsTop(Scores(rows), r.primary.value)
    ensures r.complementary.Some? ==>
              && r.primary.Some?
              && IsRunnerUp(Scores(rows), r.primary.value, r.complementary.value)
    ensures r.primary.Some? ==> (r.complementary.None? <==> |Scores(rows)| == 1)
    ensures r.primary.Some? <==> |sorted| > 0
    ensures r.primary.Some? ==> r.complementary == FirstOther(sorted, r.primary.value)
    ensures r.primary.Some? ==>
              var tied := Tied(sorted, Scores(rows));
              && (|tied| > 1 ==> r.primary.value == ResolveTiebreak(rows, tied))
              && ((forall i :: 0 <= i < |rows| ==> !InTieBreak(rows[i], tied)) ==> r.primary.value == sorted[0])
              && ((exists i :: 0 <= i < |rows| && InTieBreak(rows[i], tied)) ==>
                    && (exists i :: 0 <= i < |rows| && InTieBreak(rows[i], tied) && rows[i].dimension == r.primary)
                    && (forall i :: 0 <= i < |rows| && InTieBreak(rows[i], tied) ==>
                          PointsFor(TieRows(rows, tied), rows[i].dimension.value)
                          <= PointsFor(TieRows(rows, tied), r.primary.value)))
  {
    var scores := Scores(rows);
    OrderCoversScores(sorted, scores);
    if |scores| == 0 then
      Picks(None, None)
    else
      TiedAreTops(sorted, scores);
      var tied := Tied(sorted, scores);
      FilterFirst(sorted, (k: string) => k in scores && scores[k] == scores[sorted[0]]);
      var p := if |tied| > 1 then ResolveTiebreak(rows, tied) else tied[0];
      PrimaryRule(rows, tied);
      var c := FirstOther(sorted, p);
      FirstOtherIsRunnerUp(sorted, scores, p);
      Picks(Some(p), c)
  }

  /**
   * The tie-break as `determine_profiles` applies it: with a bloc-2 answer for
   * some tied dimension, a dimension with the greatest bloc-2 tally; with none,
   * the first tied dimension (a single tied dimension is its own winner).
   */
  lemma PrimaryRule(rows: seq<Row>, tied: seq<string>)
    requires |tied| > 0
    ensures var p := if |tied| > 1 then ResolveTiebreak(rows, tied) else tied[0];
            && ((forall i :: 0 <= i < |rows| ==> !InTieBreak(rows[i], tied)) ==> p == tied[0])
            && ((exists i :: 0 <= i < |rows| && InTieBreak(rows[i], tied)) ==>
                  && (exists i :: 0 <= i < |rows| && InTieBreak(rows[i], tied) && rows[i].dimension == Some(p))
                  && (forall i :: 0 <= i < |rows| && InTieBreak(rows[i], tied) ==>
                        PointsFor(TieRows(rows, tied), rows[i].dimension.value) <= PointsFor(TieRows(rows, tied), p)))
  {
    ResolveTiebreakSpec(rows, tied);
    if |tied| == 1 {
      forall i | 0 <= i < |rows| && InTieBreak(rows[i], tied)
        ensures rows[i].dimension == Some(tied[0])
      {
        assert tied == [tied[0]];
      }
    }
  }

  /** `c` is a different dimension whose total is the greatest once `p` is set aside. */
  predicate IsRunnerUp(scores: map<string, int>, p: string, c: string) {
    && p in scores && c in scores && c != p
    && scores[c] <= scores[p]
    && forall d :: d in scores && d != p ==> scores[d] <= scores[c]
  }

  lemma FirstOtherIsRunnerUp(sorted: seq<string>, scores: map<string, int>, p: string)
    requires IsDescendingOrder(sorted, scores) && IsTop(scores, p)
    ensures FirstOther(sorted, p).Some? ==> IsRunnerUp(scores, p, FirstOther(sorted, p).value)
    ensures FirstOther(sorted, p).None? <==> |scores| == 1
  {
    var c := FirstOther(sorted, p);
    if c.Some? {
      var i :| 0 <= i < |sorted| && sorted[i] == c.value && forall j :: 0 <= j < i ==> sorted[j] == p;
      SecondPlace(sorted, scores, p, i);
      TwoKeys(scores, p, c.value);
    } else {
      assert scores.Keys == {p} by {
        forall k | k in scores ensures k == p {
          assert k in sorted;
        }
      }
    }
  }

  /** The first entry after a run of `p`s is ahead of every other dimension but `p`. */
  lemma SecondPlace(sorted: seq<string>, scores: map<string, int>, p: string, i: int)
    requires IsDescendingOrder(sorted, scores)
    requires 0 <= i < |sorted| && forall j :: 0 <= j < i ==> sorted[j] == p
    ensures forall d :: d in scores && d != p ==> scores[d] <= scores[sorted[i]]
  {
    forall d | d in scores && d != p
      ensures scores[d] <= scores[sorted[i]]
    {
      var k :| 0 <= k < |sorted| && sorted[k] == d;
      assert k >= i;
      if k > i {
        assert scores[sorted[i]] >= scores[sorted[k]];
      }
    }
  }

  /** A map with two distinct keys has more than one entry. */
  lemma TwoKeys<K, V>(m: map<K, V>, a: K, b: K)
    requires a in m && b in m && a != b
    ensures |m| != 1
  {
    assert {a, b} <= m.Keys;
    assert |{a, b}| == 2;
    SubsetCardinality({a, b}, m.Keys);
  }

  lemma SubsetCardinality<T>(a: set<T>, b: set<T>)
    requires a <= b
    ensures |a| <= |b|
  {
    assert b == a + (b - a);
  }

  /** A duplicate-free sequence rearranged is still duplicate-free. */
  lemma PermutationKeepsDistinct<T>(a: seq<T>, b: seq<T>)
    requires Distinct(a) && multiset(a) == multiset(b)
    ensures Distinct(b)
  {
    forall i, j | 0 <= i < j < |b|
      ensures b[i] != b[j]
    {
      if b[i] == b[j] {
        assert b == b[..i] + [b[i]] + b[i+1..j] + [b[j]] + b[j+1..];
        assert multiset(b)[b[i]] >= 2;
        DistinctMultiplicity(a, b[i]);
      }
    }
  }

  /** The sort key of `scores.sort_by { |_, v| -v }`. */
  function NegatedScore(scores: map<string, int>): string -> int {
    k => if k in scores then -scores[k] else 0
  }

  /**
   * `scores.sort_by { |_, v| -v }`: lists the dimensions by non-increasing
   * total. Ruby's sort is not stable; this is one of the orders it may give.
   */
  method SortByScore(scores: map<string, int>) returns (sorted: seq<string>)
    ensures IsDescendingOrder(sorted, scores)
  {
    var keys := ListKeys(scores.Keys);
    sorted := SortBy(keys, NegatedScore(scores));
    SortedKeysDescend(keys, sorted, scores);
  }

  /** `scores` iterated as pairs: each key once, in some order. */
  method ListKeys(keySet: set<string>) returns (keys: seq<string>)
    ensures Enumerates(keys, keySet)
  {
    keys := [];
    var rest := keySet;
    while rest != {}
      invariant rest <= keySet
      invariant Distinct(keys)
      invariant forall i :: 0 <= i < |keys| ==> keys[i] in keySet && keys[i] !in rest
      invariant forall k :: k in keySet ==> k in rest || k in keys
      decreases |rest|
    {
      var k :| k in rest;
      keys := keys + [k];
      rest := rest - {k};
    }
  }

  /** Sorting the listed keys by descending total gives a descending order of the totals. */
  lemma SortedKeysDescend(keys: seq<string>, sorted: seq<string>, scores: map<string, int>)
    requires Enumerates(keys, scores.Keys)
    requires sorted == SortBy(keys, NegatedScore(scores))
    ensures IsDescendingOrder(sorted, scores)
  {
    PermutationKeepsDistinct(keys, sorted);
    forall i | 0 <= i < |sorted|
      ensures sorted[i] in scores
    {
      assert sorted[i] in multiset(keys);
    }
    forall k | k in scores
      ensures k in sorted
    {
      assert k in multiset(sorted);
    }
    forall i, j | 0 <= i < j < |sorted|
      ensures scores[sorted[i]] >= scores[sorted[j]]
    {
      assert NegatedScore(scores)(sorted[i]) <= NegatedScore(scores)(sorted[j]);
    }
  }

  /** A dimension strictly ahead of all others is the primary, whatever the order of equal totals. */
  lemma UniqueTopIsPrimary(rows: seq<Row>, sorted: seq<string>, d: string)
    requires IsDescendingOrder(sorted, Scores(rows))
    requires d in Scores(rows)
    requires forall e :: e in Scores(rows) && e != d ==> Scores(rows)[e] < Scores(rows)[d]
    ensures DeterminePicks(rows, sorted).primary == Some(d)
  {
  }

  /**
   * When no tied dimension has a scored bloc-2 answer (answers of other,
   * untied dimensions do not matter), the primary is the first of the tied
   * dimensions in the sorted order.
   */
  lemma TieWithoutBloc2TakesFirstSorted(rows: seq<Row>, sorted: seq<string>)
    requires IsDescendingOrder(sorted, Scores(rows)) && |sorted| > 0
    requires forall i :: 0 <= i < |rows| ==> !InTieBreak(rows[i], Tied(sorted, Scores(rows)))
    ensures DeterminePicks(rows, sorted).primary == Some(sorted[0])
  {
  }

  lemma FilterFirst<T>(s: seq<T>, p: T -> bool)
    requires |s| > 0 && p(s[0])
    ensures |Filter(s, p)| > 0 && Filter(s, p)[0] == s[0]
  {
  }

  const Analyste := "analyste"
  const Coordinateur := "coordinateur"
  const Digital := "digital"

  /**
   * One bloc-1 answer for "analyste" and one bloc-2 answer for
   * "coordinateur", a point each: whichever way the tie is sorted, the bloc-2
   * dimension is primary and the other complementary.
   */
  lemma TieBreakFavoursBloc2(sorted: seq<string>)
    requires IsDescendingOrder(sorted, Scores([Row(1, true, Some(Analyste), 1), Row(2, true, Some(Coordinateur), 1)]))
    ensures DeterminePicks([Row(1, true, Some(Analyste), 1), Row(2, true, Some(Coordinateur), 1)], sorted)
            == Picks(Some(Coordinateur), Some(Analyste))
  {
    var rows := [Row(1, true, Some(Analyste), 1), Row(2, true, Some(Coordinateur), 1)];
    ScoresOfPair(rows[0], rows[1]);
    TwoKeyOrders(sorted, Scores(rows));
    BlocTwoWins(rows, sorted);
  }

  lemma TwoKeyOrders(sorted: seq<string>, scores: map<string, int>)
    requires scores == map[Analyste := 1, Coordinateur := 1]
    requires IsDescendingOrder(sorted, scores)
    ensures sorted == [Analyste, Coordinateur] || sorted == [Coordinateur, Analyste]
  {
    assert Enumerates([Analyste, Coordinateur], scores.Keys);
    EnumerationsArePermutations(sorted, [Analyste, Coordinateur], scores.Keys);
    assert |sorted| == |multiset(sorted)| == 2;
    assert sorted[0] in multiset(sorted) && sorted[1] in multiset(sorted);
  }

  lemma BlocTwoWins(rows: seq<Row>, sorted: seq<string>)
    requires rows == [Row(1, true, Some(Analyste), 1), Row(2, true, Some(Coordinateur), 1)]
    requires Scores(rows) == map[Analyste := 1, Coordinateur := 1]
    requires sorted == [Analyste, Coordinateur] || sorted == [Coordinateur, Analyste]
    ensures IsDescendingOrder(sorted, Scores(rows))
    ensures DeterminePicks(rows, sorted) == Picks(Some(Coordinateur), Some(Analyste))
  {
    var scores := Scores(rows);
    if sorted == [Analyste, Coordinateur] {
      EqualPair(Analyste, Coordinateur, scores);
    } else {
      assert scores == map[Coordinateur := 1, Analyste := 1];
      EqualPair(Coordinateur, Analyste, scores);
    }
    OnlyBlocTwoRow(rows, Tied(sorted, scores));
    OtherOfPair(sorted, Coordinateur, Analyste);
  }

  /** Two keys with the same total, listed in either order, are both tied at the top. */
  lemma EqualPair(a: string, b: string, scores: map<string, int>)
    requires a != b && scores == map[a := 1, b := 1]
    ensures IsDescendingOrder([a, b], scores)
    ensures Tied([a, b], scores) == [a, b]
  {
    assert forall k :: k in scores ==> k == a || k == b;
    var sorted := [a, b];
    var f := (k: string) => k in scores && scores[k] == scores[sorted[0]];
    assert sorted[1..][1..] == [];
    assert Filter(sorted[1..], f) == [sorted[1]];
  }

  lemma OtherOfPair(sorted: seq<string>, p: string, c: string)
    requires p != c && (sorted == [p, c] || sorted == [c, p])
    ensures FirstOther(sorted, p) == Some(c)
  {
    if sorted[0] == p {
      assert sorted[1..][0] == c;
    }
  }

  lemma OnlyBlocTwoRow(rows: seq<Row>, tied: seq<string>)
    requires rows == [Row(1, true, Some(Analyste), 1), Row(2, true, Some(Coordinateur), 1)]
    requires tied == [Analyste, Coordinateur] || tied == [Coordinateur, Analyste]
    ensures ResolveTiebreak(rows, tied) == Coordinateur
  {
    var counted := TieRows(rows, tied);
    var f := (r: Row) => InTieBreak(r, tied);
    assert rows[1..] == [rows[1]] && rows[1..][1..] == [];
    assert Filter(rows[1..][1..], f) == [];
    assert Filter(rows[1..], f) == [rows[1]];
    assert counted == [rows[1]];
    assert counted[..0] == [];
    assert FirstAppearance(counted) == [Coordinateur];
  }

  /** Two counted answers for different dimensions give each its own points. */
  lemma ScoresOfPair(x: Row, y: Row)
    requires Counts(x) && Counts(y) && x.dimension != y.dimension
    ensures Scores([x, y]) == map[x.dimension.value := x.points, y.dimension.value := y.points]
  {
    var rows := [x, y];
    assert rows[1..] == [y] && rows[1..][1..] == [];
    assert Filter(rows[1..][1..], Counts) == [];
    assert Filter(rows[1..], Counts) == [y];
    assert CountedRows(rows) == rows;
    assert Dimensions(rows) == {x.dimension.value, y.dimension.value} by {
      assert x in rows && y in rows;
      assert forall r :: r in rows ==> r == x || r == y;
    }
    var dx, dy := x.dimension.value, y.dimension.value;
    assert PointsFor(rows[1..][1..], dx) == 0 && PointsFor(rows[1..][1..], dy) == 0;
    assert PointsFor(rows[1..], dx) == 0 && PointsFor(rows[1..], dy) == y.points;
  }

  /**
   * With two dimensions tied and no bloc-2 answer among them, the primary is
   * whichever the unstable sort puts first: both orders are possible results.
   */
  lemma TieWithoutBloc2DependsOnSortOrder()
    ensures var rows := [Row(1, true, Some(Analyste), 1), Row(3, true, Some(Digital), 1)];
            && IsDescendingOrder([Analyste, Digital], Scores(rows))
            && IsDescendingOrder([Digital, Analyste], Scores(rows))
            && DeterminePicks(rows, [Analyste, Digital]).primary == Some(Analyste)
            && DeterminePicks(rows, [Digital, Analyste]).primary == Some(Digital)
  {
    var rows := [Row(1, true, Some(Analyste), 1), Row(3, true, Some(Digital), 1)];
    ScoresOfPair(rows[0], rows[1]);
    assert Scores(rows) == map[Analyste := 1, Digital := 1] == map[Digital := 1, Analyste := 1];
    TiedPairTakesFirst(rows, Analyste, Digital);
    TiedPairTakesFirst(rows, Digital, Analyste);
  }

  lemma TiedPairTakesFirst(rows: seq<Row>, a: string, b: string)
    requires a != b && Scores(rows) == map[a := 1, b := 1]
    requires forall i :: 0 <= i < |rows| ==> !(rows[i].bloc == 2 && rows[i].scored)
    ensures IsDescendingOrder([a, b], Scores(rows))
    ensures DeterminePicks(rows, [a, b]).primary == Some(a)
  {
    EqualPair(a, b, Scores(rows));
    assert a in Scores(rows);
    TieWithoutBloc2TakesFirstSorted(rows, [a, b]);
  }

  /** The row the joined query yields for one answer; an answer without its question qualifies for nothing. */
  function AnswerRow(a: Answer, q: Option<Question>): Row {
    if q.Some? then Row(q.value.bloc, q.value.scored, a.dimension, a.points)
    else Row(0, false, None, 0)
  }

  function RowOf(answers: map<QuestionId, Answer>, bank: seq<Question>): QuestionId -> Row {
    id => if id in answers then AnswerRow(answers[id], FindQuestion(bank, id)) else Row(0, false, None, 0)
  }

  /** The diagnostic's answers, read in the order `ids`. */
  function AnswerRows(answers: map<QuestionId, Answer>, bank: seq<Question>, ids: seq<QuestionId>): seq<Row> {
    Map(ids, RowOf(answers, bank))
  }

  /**
   * The two orders the database and the sort leave open: `ids` lists each
   * answer once, `sorted` each dimension once by non-increasing total.
   */
  predicate ValidOrders(d: Diagnostic, bank: seq<Question>, ids: seq<QuestionId>, sorted: seq<string>) {
    && Enumerates(ids, d.answers.Keys)
    && IsDescendingOrder(sorted, Scores(AnswerRows(d.answers, bank, ids)))
  }

  /** `score_data` is the same whichever order the answers are read in. */
  lemma ScoreDataIndependentOfOrder(answers: map<QuestionId, Answer>, bank: seq<Question>,
                                    ids1: seq<QuestionId>, ids2: seq<QuestionId>)
    requires Enumerates(ids1, answers.Keys) && Enumerates(ids2, answers.Keys)
    ensures Scores(AnswerRows(answers, bank, ids1)) == Scores(AnswerRows(answers, bank, ids2))
  {
    EnumerationsArePermutations(ids1, ids2, answers.Keys);
    MapPermutation(ids1, ids2, RowOf(answers, bank));
    ScoresPermutation(AnswerRows(answers, bank, ids1), AnswerRows(answers, bank, ids2));
  }

  /**
   * `ScoringService.call`: stores the totals, the primary and complementary
   * profiles (looked up by slug; a missing profile leaves the slot empty),
   * and marks the diagnostic completed at `now`.
   */
  function ScoreDiagnostic(d: Diagnostic, bank: seq<Question>, catalog: Catalog,
                           ids: seq<QuestionId>, sorted: seq<string>, now: Time): (r: Diagnostic)
    requires ValidOrders(d, bank, ids, sorted)
    ensures r.status == Completed && r.completedAt == Some(now)
    ensures forall k :: k in r.scoreData <==>
              exists i :: 0 <= i < |ids| && ids[i] in d.answers && Counts(AnswerRows(d.answers, bank, ids)[i])
                          && d.answers[ids[i]].dimension == Some(k)
    ensures r.scoreData == Scores(AnswerRows(d.answers, bank, ids))
    ensures WellFormedCatalog(catalog) && r.primary.Some? ==> IsTop(r.scoreData, r.primary.value.slug)
    ensures WellFormedCatalog(catalog) && r.primary.Some? && r.complementary.Some? ==>
              IsRunnerUp(r.scoreData, r.primary.value.slug, r.complementary.value.slug)
    ensures r.scoreData == map[] ==> r.primary.None? && r.complementary.None?
    ensures var picks := DeterminePicks(AnswerRows(d.answers, bank, ids), sorted);
            && (r.primary.Some? <==> picks.primary.Some? && picks.primary.value in catalog)
            && (r.primary.Some? ==> r.primary.value == catalog[picks.primary.value])
            && (r.complementary.Some? <==> picks.complementary.Some? && picks.complementary.value in catalog)
            && (r.complementary.Some? ==> r.complementary.value == catalog[picks.complementary.value])
    ensures r.answers == d.answers && r.owner == d.owner && r.provider == d.provider
    ensures r.pdfGenerated == d.pdfGenerated && r.report == d.report && r.paidAt == d.paidAt
  {
    var rows := AnswerRows(d.answers, bank, ids);
    var picks := DeterminePicks(rows, sorted);
    AnswerScoreKeys(d.answers, bank, ids);
    d.(scoreData := Scores(rows),
       primary := FindBySlug(catalog, picks.primary),
       complementary := FindBySlug(catalog, picks.complementary),
       status := Completed,
       completedAt := Some(now))
  }

  /** A dimension has a total exactly when a counted answer, read in the order `ids`, names it. */
  lemma AnswerScoreKeys(answers: map<QuestionId, Answer>, bank: seq<Question>, ids: seq<QuestionId>)
    ensures forall k :: k in Scores(AnswerRows(answers, bank, ids)) <==>
              exists i :: 0 <= i < |ids| && ids[i] in answers && Counts(AnswerRows(answers, bank, ids)[i])
                          && answers[ids[i]].dimension == Some(k)
  {
    var rows := AnswerRows(answers, bank, ids);
    ScoresKeys(rows);
    forall i | 0 <= i < |ids| && Counts(rows[i])
      ensures ids[i] in answers && rows[i].dimension == answers[ids[i]].dimension
    {
    }
  }

  /** Scoring again without new answers changes nothing but the completion time. */
  lemma RescoreIsStable(d: Diagnostic, bank: seq<Question>, catalog: Catalog,
                        ids: seq<QuestionId>, sorted: seq<string>, now: Time, later: Time)
    requires ValidOrders(d, bank, ids, sorted)
    ensures var once := ScoreDiagnostic(d, bank, catalog, ids, sorted, now);
            && ValidOrders(once, bank, ids, sorted)
            && ScoreDiagnostic(once, bank, catalog, ids, sorted, later) == once.(completedAt := Some(later))
  {
  }
}

=== FILE: text.dfy ===
/**
 * Ruby/ActiveSupport notions on strings that the model needs: `blank?`,
 * `present?` and `to_s` of an optional string.
 */
module Text {
  import opened Wrappers

  /** The Unicode White_Space characters that ActiveSupport's `[[:space:]]` matches. */
  predicate IsSpace(c: char) {
    || ('\t' <= c <= '\r')
    || c == ' '
    || c == '\U{0085}'
    || c == '\U{00A0}'
    || c == '\U{1680}'
    || ('\U{2000}' <= c <= '\U{200A}')
    || c == '\U{2028}'
    || c == '\U{2029}'
    || c == '\U{202F}'
    || c == '\U{205F}'
    || c == '\U{3000}'
  }

  /** `String#blank?`: empty or whitespace only. */
  predicate Blank(s: string) {
    forall i :: 0 <= i < |s| ==> IsSpace(s[i])
  }

  /** `blank?` of a value that may be `nil`. */
  predicate BlankOpt(s: Option<string>) {
    s.None? || Blank(s.value)
  }

  /** `to_s` of a value that may be `nil` (`nil.to_s` is the empty string). */
  function ToS(s: Option<string>): string {
    s.GetOr("")
  }
}

=== FILE: webhooks.dfy ===
/**
 * The provider webhooks: Stripe's `checkout.session.completed` and pawaPay's
 * deposit callback. Each finds the payment by provider and provider payment
 * id, skips it when unknown or already confirmed, and otherwise confirms the
 * payment and marks the diagnostic paid in one transaction. A completed
 * pawaPay deposit also enqueues the report job.
 */
module Webhooks {
  import opened Wrappers
  import opened Records

  datatype HandlerResult = Processed | Skipped | Raised

  /** The `data.object` of a Stripe event: the checkout session, of which only the id is read. */
  datatype SessionObject = SessionObject(id: Option<string>)

  datatype StripeEvent = StripeEvent(eventType: Option<string>, session: Option<SessionObject>)

  datatype PawapayPayload = PawapayPayload(depositId: Option<string>, status: Option<string>)

  const CheckoutCompleted := "checkout.session.completed"

  /** Unknown, or already confirmed: the webhook has nothing to do. */
  predicate NothingToConfirm(s: Store, ppid: Option<string>, provider: Provider) {
    var found := FindPayment(s, ppid, provider);
    found.None? || s.payments[found.value].status == Confirmed
  }

  /**
   * The transaction both handlers run: the payment confirmed at `now`, its
   * diagnostic paid at `now`, nothing else touched.
   */
  function Confirm(s: Store, ppid: string, now: Time): (r: Store)
    requires ppid in s.payments && s.payments[ppid].diagnostic in s.diagnostics
    ensures var p := s.payments[ppid];
            && r.payments == s.payments[ppid := p.(status := Confirmed, webhookConfirmedAt := Some(now))]
            && r.diagnostics == s.diagnostics[p.diagnostic := s.diagnostics[p.diagnostic].(status := Paid, paidAt := Some(now))]
            && r.jobs == s.jobs
    ensures PaidFor(r, s.payments[ppid].diagnostic)
  {
    var p := s.payments[ppid];
    var d := s.diagnostics[p.diagnostic];
    var r := Store(s.diagnostics[p.diagnostic := d.(status := Paid, paidAt := Some(now))],
                   s.payments[ppid := p.(status := Confirmed, webhookConfirmedAt := Some(now))],
                   s.jobs);
    assert r.payments[ppid].diagnostic == p.diagnostic;
    r
  }

  /**
   * `StripeHandlerService#call`. Other event types are skipped; an event
   * without a session object raises; a payment whose diagnostic is gone
   * raises inside the transaction, which rolls back.
   */
  function StripeHandle(s: Store, ev: StripeEvent, now: Time): (r: (Store, HandlerResult))
    ensures ev.eventType != Some(CheckoutCompleted) ==> r == (s, Skipped)
    ensures ev.eventType == Some(CheckoutCompleted) && ev.session.None? ==> r == (s, Raised)
    ensures (ev.eventType == Some(CheckoutCompleted) && ev.session.Some?
             && NothingToConfirm(s, ev.session.value.id, Stripe)) ==> r == (s, Skipped)
    ensures (ev.eventType == Some(CheckoutCompleted) && ev.session.Some?
             && !NothingToConfirm(s, ev.session.value.id, Stripe)
             && s.payments[ev.session.value.id.value].diagnostic !in s.diagnostics) ==> r == (s, Raised)
    ensures r.1 != Processed ==> r.0 == s
    ensures r.1 == Processed <==>
              && ev.eventType == Some(CheckoutCompleted) && ev.session.Some?
              && !NothingToConfirm(s, ev.session.value.id, Stripe)
              && s.payments[ev.session.value.id.value].diagnostic in s.diagnostics
    ensures r.1 == Processed ==> r.0 == Confirm(s, ev.session.value.id.value, now)
  {
    if ev.eventType != Some(CheckoutCompleted) then (s, Skipped)
    else if ev.session.None? then (s, Raised)
    else
      var found := FindPayment(s, ev.session.value.id, Stripe);
      if NothingToConfirm(s, ev.session.value.id, Stripe) then (s, Skipped)
      else if s.payments[found.value].diagnostic !in s.diagnostics then (s, Raised)
      else (Confirm(s, found.value, now), Processed)
  }

  /**
   * `PawapayHandlerService#call`. COMPLETED confirms, marks the diagnostic
   * paid and enqueues its report job; FAILED marks the payment failed; any
   * other status is skipped.
   */
  function PawapayHandle(s: Store, payload: PawapayPayload, now: Time): (r: (Store, HandlerResult))
    ensures NothingToConfirm(s, payload.depositId, Pawapay) ==> r == (s, Skipped)
    ensures (!NothingToConfirm(s, payload.depositId, Pawapay)
             && payload.status != Some("COMPLETED") && payload.status != Some("FAILED")) ==> r == (s, Skipped)
    ensures (!NothingToConfirm(s, payload.depositId, Pawapay) && payload.status == Some("COMPLETED")
             && s.payments[payload.depositId.value].diagnostic !in s.diagnostics) ==> r == (s, Raised)
    ensures r.1 != Processed ==> r.0 == s
    ensures r.1 == Processed <==>
              && !NothingToConfirm(s, payload.depositId, Pawapay)
              && (|| payload.status == Some("FAILED")
                  || (payload.status == Some("COMPLETED")
                      && s.payments[payload.depositId.value].diagnostic in s.diagnostics))
    ensures r.1 == Processed && payload.status == Some("COMPLETED") ==>
              var ppid := payload.depositId.value;
              var c := Confirm(s, ppid, now);
              r.0 == c.(jobs := s.jobs + [s.payments[ppid].diagnostic])
    ensures r.1 == Processed && payload.status == Some("FAILED") ==>
              var ppid := payload.depositId.value;
              r.0 == s.(payments := s.payments[ppid := s.payments[ppid].(status := Failed)])
  {
    var found := FindPayment(s, payload.depositId, Pawapay);
    if NothingToConfirm(s, payload.depositId, Pawapay) then (s, Skipped)
    else
      var ppid := found.value;
      var p := s.payments[ppid];
      if payload.status == Some("COMPLETED") then
        if p.diagnostic !in s.diagnostics then (s, Raised)
        else
          var c := Confirm(s, ppid, now);
          (c.(jobs := c.jobs + [p.diagnostic]), Processed)
      else if payload.status == Some("FAILED") then
        (s.(payments := s.payments[ppid := p.(status := Failed)]), Processed)
      else (s, Skipped)
  }

  /** Stripe retries deliveries: a second delivery of a processed event is skipped and changes nothing. */
  lemma StripeReplayIsSkipped(s: Store, ev: StripeEvent, now: Time, later: Time)
    requires StripeHandle(s, ev, now).1 == Processed
    ensures var once := StripeHandle(s, ev, now).0;
            StripeHandle(once, ev, later) == (once, Skipped)
  {
  }

  /**
   * A COMPLETED callback delivered twice confirms once and enqueues exactly
   * one report job.
   */
  lemma PawapayReplayEnqueuesOnce(s: Store, payload: PawapayPayload, now: Time, later: Time)
    requires payload.status == Some("COMPLETED")
    requires PawapayHandle(s, payload, now).1 == Processed
    ensures var once := PawapayHandle(s, payload, now).0;
            && |once.jobs| == |s.jobs| + 1
            && PawapayHandle(once, payload, later) == (once, Skipped)
  {
  }

  /** A failed deposit can still be completed by a later callback. */
  lemma FailedThenCompleted(s: Store, ppid: string, now: Time, later: Time)
    requires ppid in s.payments && s.payments[ppid].provider == Pawapay
    requires s.payments[ppid].status == Pending && s.payments[ppid].diagnostic in s.diagnostics
    ensures var failed := PawapayHandle(s, PawapayPayload(Some(ppid), Some("FAILED")), now);
            var completed := PawapayHandle(failed.0, PawapayPayload(Some(ppid), Some("COMPLETED")), later);
            && failed.1 == Processed && failed.0.payments[ppid].status == Failed
            && completed.1 == Processed && completed.0.payments[ppid].status == Confirmed
            && PaidFor(completed.0, s.payments[ppid].diagnostic)
  {
  }

  /** A Stripe event never touches a pawaPay payment, and a pawaPay callback never a Stripe one. */
  lemma ProvidersStayApart(s: Store, ev: StripeEvent, payload: PawapayPayload, now: Time)
    ensures forall k :: k in s.payments && s.payments[k].provider == Pawapay ==>
              k in StripeHandle(s, ev, now).0.payments && StripeHandle(s, ev, now).0.payments[k] == s.payments[k]
    ensures forall k :: k in s.payments && s.payments[k].provider == Stripe ==>
              k in PawapayHandle(s, payload, now).0.payments && PawapayHandle(s, payload, now).0.payments[k] == s.payments[k]
  {
  }
}

=== FILE: wrappers.dfy ===
/** Optional values: Ruby's `nil` versus a present value. */
module Wrappers {

  datatype Option<+T> = None | Some(value: T) {

    /** The value, or `default` when absent (Ruby's `x || default`). */
    function GetOr(default: T): T {
      match this
      case Some(v) => v
      case None => default
    }
  }
}
